=== FILE: README.md ===
# STEM Gharbiya site: form submission path

A Dafny model of how the STEM Gharbiya school website takes in its two forms:
the developer-team application ("join") and the contact form. The model covers:

- the browser scripts that check a form and post it:
  - the Astro site's join and contact scripts;
  - the older static join page served by the worker;
  - the shared helper that reads a server error;
- the Cloudflare worker:
  - the environment check;
  - the one-time database initialisation gate;
  - the CORS origin list;
  - the zod schemas of both forms and the 400 reply for a schema failure;
  - the Turnstile captcha verification;
  - the `/join` and `/contact` handlers, including their database rows and notification emails;
- the older Pages function `api/submit`, with its KV-backed rate limiter;
- the small utilities the site shares:
  - HTML escaping;
  - senior-year, GitHub-username and email checks;
  - the social-link builder of the profile cards;
- the IndexNow submission script that reads the sitemaps and posts the URLs in batches.

Everything is pure: a request handler is a function from its input, the
stored rows and a `World` to a response, the new rows and the list of
effects it performed. The `World` holds the answers of the outside services:
- Turnstile's siteverify;
- the rate-limiter binding;
- the database's failures;
- the mail provider;
- the clock's ISO timestamp.

JavaScript values are the `JsValue` datatype, and strings are sequences of characters.

## Model

| member | source | states |
|---|---|---|
| SiteUtils.EscapeHtml | src/lib/utils.ts:1-9 | the escaped text holds none of `< > " '` and decodes back to the input (the five replacements are the entity escape) |
| SiteUtils.EscapeHtmlSafe | src/lib/utils.ts:1-9 | escaping leaves no markup character and is undone by entity decoding, so the input is recoverable |
| HtmlEntities.ReplaceChainIsEscape | src/lib/utils.ts:1-9 | the chain of five global replaces, `&` first, equals escaping each character on its own (no entity is escaped twice) |
| HtmlEntities.UnescapeEscape | src/lib/utils.ts:1-9 | decoding the five entities after escaping gives back the original text |
| HtmlEntities.Escape | src/lib/utils.ts:1-9 | escaped text contains none of `< > " '` and is never shorter than the input |
| HtmlEntities.MessageToHtmlCharwise | workers/src/services/contact.ts:32 | escaping then turning newlines into `<br/>` is the same as rendering each character on its own |
| HtmlEntities.MessageTagsAreLineBreaks | workers/src/services/contact.ts:32 | in a rendered message every `<` and `>` comes from a line break (as many of each as the message has newlines), and no quote survives |
| SiteUtils.SeniorYearAcceptedForms | src/lib/utils.ts:11-17 | `validateSeniorYear` accepts exactly `S` or `s`, then digits whose value is 25..30, so any run of leading zeros before a two-digit year 25..30 |
| SiteUtils.SeniorYearExamples | src/lib/utils.ts:11-17 | S25, S27, S30, S025 and s30 pass; S24, S31, 25, Ss25 and the empty string fail |
| SiteUtils.TwoDigitYear | src/lib/utils.ts:11-17 | a two-digit year is in 25..30 exactly when it is one of the six endings 25..30 |
| SiteUtils.DigitsValueZero | src/lib/utils.ts:14-16 | a digit string has value zero exactly when it is all zeros (why leading zeros do not change `parseInt`) |
| SiteUtils.GitHubUsernameMatchesRule | src/lib/utils.ts:19-21 | the username regex matches exactly 1 to 39 letters, digits and single inner hyphens, with no hyphen at either end |
| SiteUtils.UnitsMatchIff | src/lib/utils.ts:19-21 | the matcher for the repeated `(?:-?[a-z0-9])` group succeeds exactly when the text is within budget and made of such units |
| SiteUtils.EmailPatternPositions | src/lib/utils.ts:23-25 | the general email regex holds exactly when the text has no whitespace, one `@` not at the start, and a later `.` with something on both sides |
| SiteUtils.EmailFromParts | src/lib/utils.ts:23-25 | any padded `local@host.top` with non-empty parts free of `@` and whitespace is accepted |
| SiteUtils.StudentEmailNormalised | src/lib/utils.ts:27-34 | the student check ignores surrounding whitespace and letter case, since the input is trimmed and lower-cased first |
| SiteUtils.StudentPatternChars | src/lib/utils.ts:31-33 | a matching student address has one `@`, exactly 24 characters before the end, followed by the school domain |
| SiteUtils.StudentEmailIsEmail | src/lib/utils.ts:23-34 | every address the student check accepts also passes the general email check |
| SiteUtils.StudentEmailExample | src/lib/utils.ts:27-34 | a plain school address without the `.19xxxxx` student number is rejected |
| WorkerUtils.EscapeHtml | workers/src/lib/utils.ts:1-9 | the worker's copy escapes the same way as the site's copy |
| WorkerUtils.WorkerCopiesAgree | workers/src/lib/utils.ts:1-21 | the worker's escape, senior-year and username checks agree with the site's on every input |
| LegacySubmit.EscapeHtml | workers/functions/api/submit.ts:82-90 | the Pages function's copy escapes the same way as the site's copy |
| LegacySubmit.LegacyCopiesAgree | workers/functions/api/submit.ts:82-102 | the Pages function's escape, senior-year and username checks agree with the site's on every input |
| Cards.CollapseSeparators | src/lib/cards.ts:10-11 | the key with `-`/`_` runs replaced has no separator left and is no longer than the key |
| Cards.CollapseRun | src/lib/cards.ts:11 | a run of separators of any length between a word and a non-separator becomes exactly one space |
| Cards.Capitalize | src/lib/cards.ts:11 | exactly the characters that start a word (`\b\w`) are upper-cased; every other character is copied |
| Cards.ToLabel | src/lib/cards.ts:10-11 | a label never contains `-` or `_` |
| Cards.LabelOnlyChangesCase | src/lib/cards.ts:10-11 | the label differs from the key with separators collapsed only in letter case |
| Cards.LabelOfWord | src/lib/cards.ts:10-11 | a lower-case word becomes that word with its first letter capitalised |
| Cards.NormalizeHref | src/lib/cards.ts:13-19 | the href is the value or the value behind `mailto:`; it starts with `mailto:` exactly when the key is "email" in any case or the value already did; any other key, or a value already starting with `mailto:`, is left exactly as it is |
| Cards.NormalizeHrefIdempotent | src/lib/cards.ts:13-19 | normalising an already normalised href changes nothing |
| Cards.IconFor | src/lib/cards.ts:35-40 | the icon is the one mapped for the lower-cased key, or the fallback icon when the key is not mapped |
| Cards.BuildSocialLinks | src/lib/cards.ts:21-46 | one link per entry whose value is a non-blank string, in entry order, built from the trimmed value |
| Cards.LinkExternalIffNotMailto | src/lib/cards.ts:34-41 | a link is external exactly when its href is not `mailto:`; an email entry is never external; any other entry links to its trimmed value |
| Cards.AllKeptKeepsOrder | src/lib/cards.ts:28-32 | when every entry is a non-blank string, all of them are kept, in the same order |
| Cards.DroppedEntriesIgnored | src/lib/cards.ts:29-32 | a non-string or blank entry contributes no link |
| Text.Trim | src/lib/cards.ts:31 | `trim` leaves no whitespace at either end and never lengthens |
| Text.TrimIdempotent | src/lib/cards.ts:31 | trimming twice is trimming once |
| Text.TrimPadded | src/lib/utils.ts:28-30 | whitespace added around a text disappears on trimming |
| Text.TrimLower | src/lib/utils.ts:28-30 | trimming and lower-casing commute |
| Text.JoinSplit | workers/src/services/join.ts:28 | splitting on a character and joining with it gives back the text |
| Text.SplitJoin | workers/src/services/join.ts:28 | joining parts that do not contain the separator and splitting again gives back the parts |
| Text.NatToString | src/scripts/join.ts:320 | the decimal rendering of a number is a digit string whose value is the number, with no leading zero except for zero itself |
| JsValues.Or | src/scripts/join.ts:313-314 | `a \|\| b` is `a` when `a` is truthy and `b` otherwise |
| Zod.RunChecks | workers/src/schemas/contact.ts:5-9 | a string field's checks report no issue exactly when all of them pass; the first issue is the first failing check, all at the field's path |
| Zod.StringField | workers/src/schemas/contact.ts:5-9 | a field is clean exactly when it is a string passing every check; a non-string gives one type issue at its path |
| Zod.ShapeIssues | workers/src/schemas/contact.ts:4-10 | an object is clean exactly when every field is, and its first issue is the first failing field's first issue |
| Zod.ExtraKeys | workers/src/schemas/contact.ts:11 | no extra key exactly when the body's keys are within the shape |
| Zod.StrictIssues | workers/src/schemas/join.ts:42 | `.strict()` reports nothing exactly when no key lies outside the shape, and otherwise one root-level issue naming the extra keys |
| Zod.ShapeIssuesMembers | workers/src/schemas/contact.ts:4-10 | an object's issues are exactly all the issues of all its fields |
| Zod.StrictObjectIssues | workers/src/schemas/join.ts:4-42 | a strict object fails exactly when a field fails or a key is extra, and reports every field issue and the extra-key issue, and nothing else |
| ContactSchema.FieldIssuesIff | workers/src/schemas/contact.ts:4-10 | each contact field is clean exactly when it is a string meeting its bound: email valid and at most 100, name 1..100, subject 1..150, message 10..4000, token non-empty |
| ContactSchema.ParseContact | workers/src/schemas/contact.ts:3-11 | a parse that succeeds returns the body's own strings, from an object with no extra key; a parse that fails carries at least one issue |
| ContactSchema.ParseContactAccepts | workers/src/schemas/contact.ts:3-11 | the contact body parses exactly when it is acceptable field by field and has no extra key |
| JoinSchema.InterestsInput | workers/src/schemas/join.ts:16-25 | a string becomes its comma-split pieces trimmed with blanks dropped; an array of strings is taken as is; anything else is rejected |
| JoinSchema.FieldIssuesIff | workers/src/schemas/join.ts:5-41 | each join field is clean exactly when it meets its rule: name 1..100; email valid and ending with the school domain; the username rule; year S/s plus 25..30; one to five allowed interests; motivation 10..2000; token non-empty; agreement true or a non-empty string |
| JoinSchema.SchemaYearIff | workers/src/schemas/join.ts:15 | the schema's year regex accepts exactly three characters: `S`/`s` and a year 25..30 |
| JoinSchema.SchemaYearStricterThanValidator | workers/src/schemas/join.ts:15 | every year the schema accepts passes `validateSeniorYear`, but S025 passes the validator and not the schema |
| JoinSchema.ParseJoin | workers/src/schemas/join.ts:4-42 | a parse that succeeds returns the body's own values and interests, from an object with no extra key and with the agreement given |
| JoinSchema.ParseJoinAccepts | workers/src/schemas/join.ts:4-42 | the join body parses exactly when every field meets its rule and no extra key is present |
| JoinSchema.FirstIssueIsFirstFailingField | workers/src/schemas/join.ts:4-42 | in the issue order of zod's synchronous parse, the first issue belongs to the first field in declaration order that fails, or is the root-level extra-key issue when every field passes |
| JoinSchema.ParseJoinIssues | workers/src/schemas/join.ts:4-42 | an object body is rejected exactly when some field breaks its rule or a key lies outside the shape; the rejection lists every issue of every field and, for extra keys, one issue naming them, and nothing else |
| JoinSchema.ObjectIssuesMembers | workers/src/schemas/join.ts:4-42 | the object issues are exactly the issues of all fields plus the unrecognized-keys issue |
| WorkerApp.MissingEnvVars | workers/src/index.ts:12-25 | the missing list is exactly the required variables that are unset or empty, in the declared order |
| WorkerApp.ValidateEnvVars | workers/src/index.ts:11-32 | no error exactly when every required variable is set; otherwise the message names the missing ones joined by ", " |
| WorkerApp.AppEnvName | workers/src/index.ts:83 | an unset APP_ENV means "development"; any other value is lower-cased |
| WorkerApp.InitGate | workers/src/index.ts:86-94 | the database set-up is attempted exactly when it has not been tried and the app is not production, or auto-create is on; afterwards the flag is set whenever an attempt happened |
| WorkerApp.FlagSetEvenOnFailure | workers/src/index.ts:86-88 | a failed set-up still sets the flag, so no later request retries it |
| WorkerApp.ProductionSkipsInit | workers/src/index.ts:86-94 | in production without auto-create nothing is attempted and the flag is unchanged |
| WorkerApp.AtMostOneInit | workers/src/index.ts:86-88 | over any sequence of requests the set-up runs at most once, and never once the flag is set |
| WorkerApp.Cors | workers/src/index.ts:95-104 | an array setting is used as is (empty means any origin); an unset setting means any origin; any other set value allows exactly its comma-separated pieces, trimmed, with blank ones dropped, or any origin when none is left |
| WorkerApp.OriginList | workers/src/index.ts:98-101 | a set value gives its comma-separated pieces, each trimmed, blank ones dropped, in order; an unset value gives none; every origin is trimmed, non-empty and comma-free |
| WorkerApp.CorsRoundTrip | workers/src/index.ts:95-104 | a comma-joined list of clean origins is read back as exactly that list |
| WorkerApp.CorsPaddedRoundTrip | workers/src/index.ts:98-101 | whitespace written around each origin in the variable is ignored: the list comes back as the origins alone |
| WorkerApp.CorsIgnoresBlankPiece | workers/src/index.ts:98-101 | a blank piece between commas, wherever it sits, changes nothing |
| Text.TrimmedNonEmptyPadded | workers/src/index.ts:100-101 | whitespace around each piece is removed by the trimming step |
| Text.TrimmedNonEmptyDropsBlank | workers/src/index.ts:101 | a blank piece is dropped wherever it sits |
| Text.SplitJoinTrimmed | workers/src/index.ts:99-101 | splitting a comma-join of comma-free pieces and cleaning it is cleaning the pieces, even when there are none |
| WorkerApp.FieldOf | workers/src/index.ts:112-116 | the reported field is the first issue's first path element, or null when there is no issue or the path is empty |
| WorkerApp.ValidationFailure | workers/src/index.ts:110-124 | a schema failure is a 400 with exactly `error` and `field`; the error is the first issue's message, or "Validation failed" when it has none |
| WorkerApp.JoinFailureNamesFirstFailingField | workers/src/index.ts:108-124 | with issues in the order of zod's synchronous parse, a rejected join body's 400 names the first failing field in declaration order, or null when only an extra key was wrong |
| Turnstile.Classify | workers/src/lib/turnstile.ts:23-51 | a siteverify reply clears the token exactly when it came back ok and says success; a thrown or non-ok reply, or a null body, is a 503; an ok reply whose `success` is falsy is a 400 |
| Turnstile.VerifyTurnstile | workers/src/lib/turnstile.ts:1-60 | a missing or blank token is a 400 and a missing secret a 500, both with no call; otherwise one siteverify call with the secret, the trimmed token and the IP, and the outcome is exactly the classification of that call's reply |
| Turnstile.RejectionsAreGeneric | workers/src/lib/turnstile.ts:1-60 | every rejection is one of four fixed responses, so nothing from the provider reaches the client |
| Turnstile.OnlySuccessMatters | workers/src/lib/turnstile.ts:38-51 | two replies that agree on `success` are judged alike, whatever else they carry |
| Http.ClientIp | workers/src/services/join.ts:90-93 | the address is CF-Connecting-IP when present, else the first comma-separated part of X-Forwarded-For when that is non-empty, else "unknown" |
| Http.SuccessWarning | workers/src/services/join.ts:153-181 | a success reply is a 200, and it carries a warning exactly when one was given |
| Mail.SendResendEmail | workers/src/lib/email.ts:10-37 | DISABLE_EMAILS equal to "true" sends nothing and counts as delivered; no sender fails without sending; otherwise one send from the configured sender, delivered exactly when the provider accepts it |
| Mail.EscapedHole | workers/src/services/join.ts:24-29 | every escaped template hole is markup-free and decodes back to the submitted text |
| Mail.EscapedList | workers/src/services/join.ts:28 | the interests line, each item escaped and joined by ", ", is markup-free |
| Mail.Escaped | workers/src/services/join.ts:24-29 | a template hole is the entity escape of its value and decodes back to it |
| KvRateLimit.RateLimit | workers/functions/api/ratelimit.ts:4-52 | a key is refused exactly when its record is live and at its count limit, and then the store is untouched; otherwise a live record is incremented or a fresh one-minute record written |
| KvRateLimit.RateLimitFrame | workers/functions/api/ratelimit.ts:6 | a call touches only its own `rate:` key |
| KvRateLimit.RateLimitKeepsCounts | workers/functions/api/ratelimit.ts:13-48 | stored counts never exceed the limit of one |
| KvRateLimit.LiveRecordRejects | workers/functions/api/ratelimit.ts:13-19 | with a limit of one, any live record refuses and changes nothing |
| KvRateLimit.Expire | workers/functions/api/ratelimit.ts:30-38 | after expiry the store holds exactly the live records |
| KvRateLimit.ExpiryInvisible | workers/functions/api/ratelimit.ts:13-48 | dropping expired records first changes neither the decision nor the caller's record |
| KvRateLimit.SecondCallInWindow | workers/functions/api/ratelimit.ts:1-52 | after an admitted call a second one in the same minute is refused, and one a full window later is admitted |
| KvRateLimit.Run | workers/functions/api/ratelimit.ts:4-52 | a series of calls admits no more requests than it makes |
| KvRateLimit.RunWhileLive | workers/functions/api/ratelimit.ts:13-19 | while a record is live, no call in the series is admitted |
| KvRateLimit.AtMostOnePerWindow | workers/functions/api/ratelimit.ts:1-2 | within any one-minute window a key is admitted at most once |
| ContactService.RowFor | workers/src/services/contact.ts:98-108 | the stored row holds the trimmed name, subject and message, the email as given, and the request's timestamp |
| ContactService.TeamSubject | workers/src/services/contact.ts:25 | the team subject is the fixed prefix plus the first 80 characters of the subject |
| ContactService.RenderMessage | workers/src/services/contact.ts:32 | the message hole is the character-wise rendering: entities for markup characters, `<br/>` for newlines |
| ContactService.TeamHoles | workers/src/services/contact.ts:26-34 | the team email's holes are the escapes of name, email and subject, the rendered message, and the date part of the timestamp |
| ContactService.AcknowledgementHoles | workers/src/services/contact.ts:48-58 | the acknowledgement's holes are the escapes of name and subject and the rendered message |
| ContactService.Screen | workers/src/services/contact.ts:78-93 | a message gets past screening exactly when the captcha verifies and the limiter admits the email; a refusal is one of 400, 429, 500, 503, and 429 exactly when the captcha passed and the limiter refused |
| ContactService.HandleContact | workers/src/services/contact.ts:64-154 | no database is a 500 with no effect; the reply is 200 exactly when the message is admitted, in which case one row is appended; any other reply leaves the rows unchanged |
| ContactService.AdmittedResponse | workers/src/services/contact.ts:118-146 | an admitted message gets the "sent" reply, with the delay warning exactly when a notification was not delivered |
| ContactService.WarningIffSendFailed | workers/src/services/contact.ts:118-146 | once admitted, the row is stored and the reply is 200 whatever the emails do; the warning is present exactly when an email failed |
| ContactService.MailerCannotUndoInsert | workers/src/services/contact.ts:118-146 | the mail provider's behaviour never changes the stored rows or the status |
| ContactService.RepeatedMessageStoredTwice | workers/src/services/contact.ts:97-109 | the contact table has no uniqueness check: the same message admitted twice is stored twice, in order |
| ContactService.StatusIgnoresStore | workers/src/services/contact.ts:64-154 | the reply does not depend on what is already stored |
| JoinService.RowFor | workers/src/services/join.ts:130-151 | the stored row holds the trimmed name and motivation and the other fields as given; the comma-joined interests split back into the list |
| JoinService.TeamSubject | workers/src/services/join.ts:21 | the team subject is the fixed prefix plus the first 50 characters of the name, or "New Applicant" for an empty name |
| JoinService.TeamHoles | workers/src/services/join.ts:22-33 | the team email's holes escape every submitted field, with the year upper-cased; the interests line is markup-free; the date is the timestamp's first ten characters; the profile link uses the encoded username |
| JoinService.ApplicantHoles | workers/src/services/join.ts:48-68 | the applicant email's holes escape name, username and upper-cased year, and the interests line is markup-free |
| JoinService.Screen | workers/src/services/join.ts:88-128 | an application gets past screening exactly when the captcha verifies, the limiter admits, the lookup succeeds and no row has the same email and username; the 409 comes exactly from that duplicate |
| JoinService.ScreenRefusals | workers/src/services/join.ts:88-128 | every screening refusal is one of 400, 409, 429, 500, 503 |
| JoinService.DuplicateRefused | workers/src/services/join.ts:109-121 | a duplicate that passed the captcha and the limiter is a 409 after the verify, limit and lookup calls, with nothing stored |
| JoinService.HandleJoin | workers/src/services/join.ts:74-189 | no database is a 500 with no effect; the reply is 200 exactly when the application is admitted, in which case one row is appended; any other reply leaves the rows unchanged |
| JoinService.Record | workers/src/services/join.ts:130-181 | after screening the reply is 200 exactly when the insert succeeds, then storing the row, with the warning exactly when an email failed; a failed insert is a 500 storing nothing |
| JoinService.WarningIffSendFailed | workers/src/services/join.ts:153-181 | once admitted, the row is stored and the reply is 200 whatever the emails do; the warning is present exactly when an email failed |
| JoinService.MailerCannotUndoInsert | workers/src/services/join.ts:130-181 | the mail provider's behaviour never changes the stored rows or the status |
| JoinService.HandleJoinKeepsUnique | workers/src/services/join.ts:109-151 | if no two rows share email and username before a request, none do after it |
| JoinService.ResubmissionConflicts | workers/src/services/join.ts:109-121 | once an application is stored, a later one with the same email and username that reaches the lookup gets a 409 and stores nothing |
| LegacySubmit.SendEmail | workers/functions/api/submit.ts:128-162 | any non-empty DISABLE_EMAILS sends nothing and counts as delivered; a missing key or sender fails without sending; otherwise one send, delivered exactly when the provider accepts it |
| LegacySubmit.DisableFlagsDiffer | workers/functions/api/submit.ts:129 | a DISABLE_EMAILS value such as "false" switches the Pages function's emails off but not the worker's |
| LegacySubmit.Interests | workers/functions/api/submit.ts:349-376 | interests are accepted exactly when the value reads as a list of one to five items whose trimmed text is allowed; a missing list or a wrong count is the "select at least one" error |
| LegacySubmit.InterestsAccepted | workers/functions/api/submit.ts:349-376 | accepted interests number one to five, each allowed once trimmed; a string is split on commas without trimming, and an array is kept as is |
| LegacySubmit.StoredInterestsOfString | workers/functions/api/submit.ts:401-422 | accepted interests given as a string are stored as exactly that string |
| LegacySubmit.Fields | workers/functions/api/submit.ts:302-376 | the fields pass exactly when name, username, year, motivation and interests all do, and the first failing check in that order names the error |
| LegacySubmit.MotivationLooserThanSchema | workers/functions/api/submit.ts:337-347 | a motivation shorter than 10 characters passes here but would fail the worker's schema |
| LegacySubmit.Gate | workers/functions/api/submit.ts:256-300 | a body gets through exactly when the captcha verifies, the email is a string, the limiter admits it and it ends with the school domain; only the wrong-domain refusal leaves a changed limiter store behind |
| LegacySubmit.RowFor | workers/functions/api/submit.ts:401-422 | the stored row holds the trimmed name and motivation and the other fields as given; the joined interests split back into the list |
| LegacySubmit.TeamSubject | workers/functions/api/submit.ts:173 | the team subject is the fixed prefix plus the first 50 characters of the name, or "New Applicant" |
| LegacySubmit.TeamHoles | workers/functions/api/submit.ts:174-185 | the team email's holes escape every field, with the year upper-cased; the interests line is markup-free; the date is the raw timestamp; the profile link uses the encoded username |
| LegacySubmit.ApplicantHoles | workers/functions/api/submit.ts:191-224 | the applicant email's holes escape name, username and upper-cased year, and the interests line is markup-free |
| LegacySubmit.Commit | workers/functions/api/submit.ts:378-452 | the limiter store is untouched; the reply is 200 exactly when the lookup succeeds, no duplicate exists and the insert succeeds, and then the row is appended; a 409 comes exactly from a duplicate; any other reply is 409 or 500 and leaves the state unchanged |
| LegacySubmit.HandleSubmit | workers/functions/api/submit.ts:226-460 | a missing configuration or unreadable body is a 500 with no effect; the reply is 200 exactly when the submission is admitted, then storing one row; any other reply leaves the rows unchanged |
| LegacySubmit.TokenCheckedFirst | workers/functions/api/submit.ts:258-265 | a missing or non-string token is a 400 before any other check or effect |
| LegacySubmit.WrongDomainConsumesBudget | workers/functions/api/submit.ts:292-300 | a verified address outside the school domain is refused only after the limiter counted it, so a corrected retry within the minute is refused with 429 |
| LegacySubmit.DuplicateRefused | workers/functions/api/submit.ts:380-392 | a duplicate that passed the gate and the field checks is a 409 with nothing stored |
| LegacySubmit.HandleSubmitKeepsUnique | workers/functions/api/submit.ts:380-422 | if no two rows share email and username before a request, none do after it |
| LegacySubmit.WarningIffSendFailed | workers/functions/api/submit.ts:424-452 | once the insert succeeds the reply is 200, storing the row, with the warning exactly when an email failed |
| LegacySubmit.MailerCannotUndoInsert | workers/functions/api/submit.ts:401-452 | the mail provider's behaviour never changes the stored state or the status |
| SharedForm.IssueText | src/scripts/sharedForm.ts:231 | an issue reads as its message when truthy, else as its JSON text, and a null or undefined issue throws |
| SharedForm.IssueTexts | src/scripts/sharedForm.ts:230-232 | the issue texts are read in order, one per issue, and reading fails exactly when some issue is null or undefined |
| SharedForm.ExtractValidationError | src/scripts/sharedForm.ts:215-241 | a falsy body gives "Please check your form inputs"; otherwise the message comes from a string `error`, an object error's message, `message`, the issues list, or the JSON text, in that order; the details line is the joined issue texts when they give any text, else a truthy `details`, else empty; reading fails exactly when an issue is null or undefined |
| SharedForm.IssuesOutrankDetails | src/scripts/sharedForm.ts:228-235 | a body with two or more readable issues shows "Validation failed" with the joined issue texts, whatever its `details` field says |
| SharedForm.EmptyIssuesKeepDetails | src/scripts/sharedForm.ts:228-235 | an empty issues list still shows "Validation failed", with `details` as the details line when truthy |
| SharedForm.ReadsServerErrors | src/scripts/sharedForm.ts:220 | every `{ error }` body the servers send is read back as its message with no details |
| SharedForm.ReadsValidationFailures | src/scripts/sharedForm.ts:220 | the worker's 400 for a schema failure is read back as the message it carries |
| SharedForm.AddIf | src/scripts/join.ts:394-443 | a handler check adds its problem exactly when it failed, and nothing else |
| SharedForm.ConnectionFailed | src/scripts/join.ts:340-358 | a failed `fetch` shows "Network Error" exactly when its message contains "Failed to fetch", and otherwise "Submission Failed" with that message; the draft is kept |
| SharedForm.BrowserWordings | src/scripts/join.ts:340-358 | Chromium's "Failed to fetch" gets the network alert; any wording without a capital F, such as Firefox's or Safari's, is shown as a failed submission |
| SharedForm.SubmissionFailed | src/scripts/join.ts:351-358 | a thrown error is shown as "Submission Failed" with its message, or a generic one when empty, and keeps the draft |
| SharedForm.ValidationAlert | src/scripts/join.ts:267-295 | a 400 shows the extracted message and details and keeps the draft; a body that throws while being read is shown as a failure |
| SharedForm.ServerErrorThrown | src/scripts/join.ts:318-322 | other errors show `error`, else `message`, else "Server error: " with the status |
| SharedForm.SuccessShown | src/scripts/join.ts:326-338 | success shows the body's message or a default, the warning as a "Note: " line, and clears the draft and the form |
| SharedForm.ShowsSuccessBody | src/scripts/join.ts:326-331 | a server success body is shown with its message, and with its warning exactly when it has one |
| ClientJoin.Judge | src/scripts/join.ts:383-443 | each of the nine checks fails exactly on its condition: no interest, not a student email, bad year, motivation outside 10..500, blank name, blank username, bad username format, no agreement, no captcha |
| ClientJoin.Problems | src/scripts/join.ts:394-443 | each problem is shown exactly when its check failed, and nothing is shown when all pass |
| ClientJoin.Payload | src/scripts/join.ts:444-449 | the posted body is the form with the captcha token and the comma-joined interests set, and every other field unchanged |
| ClientJoin.Submission | src/scripts/join.ts:383-452 | the form is posted exactly when every check passes, and then with that body |
| ClientJoin.MotivationWithinSchema | src/scripts/join.ts:414-418 | a motivation the form lets through also fits the worker schema's 10..2000 |
| ClientJoin.EmailWithinSchoolDomain | src/scripts/join.ts:398-405 | an address the form lets through passes the general email check and ends with the school domain once normalised |
| ClientJoin.Dispatch | src/scripts/join.ts:256-372 | the draft is cleared exactly on an ok reply with a readable body; a failed `fetch` is the network alert exactly when its message contains "Failed to fetch"; a 400 with a body shows the validation alert; a 403 warns and resets the form; a 409 shows the duplicate alert with the body's `error` or the default; other error statuses with a body are thrown as a server error; a missing or null body shows "Submission Failed"; an ok reply with a body shows the success message |
| ClientJoin.ShowsServerErrors | src/scripts/join.ts:266-322 | every error body the servers send, except a 403, is shown with its message as an error, keeping the draft |
| ClientContact.Entered | src/scripts/contact.ts:281-284 | the handler reads the trimmed name, email, subject and message |
| ClientContact.Judge | src/scripts/contact.ts:281-314 | each of the five checks fails exactly on its condition: empty name, empty or invalid email, empty subject, message outside 10..4000, no captcha |
| ClientContact.Problems | src/scripts/contact.ts:286-314 | each problem is shown exactly when its check failed, and nothing is shown when all pass |
| ClientContact.Payload | src/scripts/contact.ts:321-325 | the posted body has the form's keys plus the sent ones, with the trimmed values and the token, and other fields unchanged |
| ClientContact.Submission | src/scripts/contact.ts:273-329 | the form is posted exactly when every check passes, and then with that body |
| ClientContact.SentValues | src/scripts/contact.ts:321-325 | the body carries the trimmed name, email, subject and message and the captcha token |
| ClientContact.ResendingIsStable | src/scripts/contact.ts:281-325 | the posted body would pass the same checks again and reads back the same entries |
| ClientContact.SentMessageWithinSchema | src/scripts/contact.ts:301-314 | a message the form lets through fits the schema's 10..4000 and the token is non-empty |
| ClientContact.AcceptableEntries | src/scripts/contact.ts:273-329 | for a body the form lets through, the schema accepts it exactly when there are no extra keys, the email is valid and at most 100, the name at most 100 and the subject at most 150 |
| ClientContact.SentBodyMeetsSchema | src/scripts/contact.ts:273-329 | for a body the form lets through, the schema's verdict depends only on the length caps the form does not check |
| ClientContact.LongSubjectPassesForm | src/scripts/contact.ts:286-304 | a subject longer than 150 passes the form but fails the schema |
| ClientContact.Dispatch | src/scripts/contact.ts:173-267 | the draft is cleared exactly on an ok reply with a readable body; a failed `fetch` is the network alert exactly when its message contains "Failed to fetch"; a 400 is the shared validation alert; any other error shows "Submission Failed", with `error`, else `message`, else "Server error: <status>" when the body is readable, and the engine's message when it is missing or null; an ok reply with a body shows its `message` or the default, with a "Note: <warning>" line when the server reports a failed e-mail |
| ClientContact.ShowsServerErrors | src/scripts/contact.ts:183-217 | every error body the servers send is shown with its message as an error, keeping the draft |
| ClientContact.ShowsSuccess | src/scripts/contact.ts:221-227 | a success body is shown with its message, a reported e-mail failure as "Note: <warning>", and the draft is cleared |
| PublicJoinScript.SeniorYearCopiesAgree | workers/public/join/script.js:98-104 | the static page's year check agrees with the site's, and a missing year fails |
| PublicJoinScript.EarlyProblems | workers/public/join/script.js:261-285 | the first four checks (interests, email, year, motivation) report a problem exactly when they fail |
| PublicJoinScript.LaterProblems | workers/public/join/script.js:286-305 | the required-field, agreement and captcha checks report a problem exactly when they fail |
| PublicJoinScript.Check | workers/public/join/script.js:253-309 | the checks throw exactly when the email or motivation field is missing; otherwise every problem is reported, in order |
| PublicJoinScript.CheckPassesIff | workers/public/join/script.js:253-309 | the page posts only when both fields exist, an interest is ticked, the email ends with the domain, the year and motivation pass, and name, username, agreement and captcha are present |
| PublicJoinScript.Submission | workers/public/join/script.js:306-312 | the page posts exactly when every check passes, with the same body as the site's script |
| PublicJoinScript.NoGithubFormatCheck | workers/public/join/script.js:286-292 | the static page never checks the username format: any non-blank username gives the same verdict |
| PublicJoinScript.NormalStudentEmailAccepted | workers/public/join/script.js:94-96 | a student address the site accepts, once trimmed and lower-cased, passes the page's suffix check |
| PublicJoinScript.UpperCaseRejected | workers/public/join/script.js:94-96 | the page's suffix check is case-sensitive: an upper-cased address is rejected |
| PublicJoinScript.CapitalStudentEmailDiffers | workers/public/join/script.js:94-96 | a student address in capitals passes the site's check but fails the page's |
| PublicJoinScript.PlainSchoolEmailDiffers | workers/public/join/script.js:94-96 | a plain school address passes the page's check but fails the site's student-number check |
| PublicJoinScript.Dispatch | workers/public/join/script.js:167-249 | the draft is cleared exactly on an ok reply with a readable body; a failed `fetch` is the network alert exactly when its message contains "Failed to fetch"; a 403 warns and resets; a 400 shows the `error` field or a default with the `details` line and keeps the draft; a 409 shows the duplicate alert; other error statuses with a body are thrown; a missing or null body shows "Submission Failed"; an ok reply with a body shows the success message |
| PublicJoinScript.ScriptsAgreeExceptValidation | workers/public/join/script.js:167-249 | for every reply other than a 400, the static page does exactly what the site's join script does |
| PublicJoinScript.ScriptsAgreeOnServerErrors | workers/public/join/script.js:167-249 | for every error body the servers send, the static page shows exactly what the site's join script shows |
| IndexNow.ChunkArray | scripts/indexnow.js:139-145 | the chunks are consecutive slices of at most the batch size, all but the last full, none empty, and together they are the input in order; they are exactly the front-to-back chunking `Chunks` |
| IndexNow.FlattenChunks | scripts/indexnow.js:139-145 | the front-to-back chunking, put back together, is the input |
| IndexNow.ChunksUnique | scripts/indexnow.js:139-145 | any split of the input into non-empty pieces of at most the size, all but the last full, is the front-to-back chunking |
| IndexNow.CeilCount | scripts/indexnow.js:139-145 | a chunking of n items into full chunks with a non-empty last one has exactly ceil(n / size) chunks |
| IndexNow.LocContents | scripts/indexnow.js:58-61 | each capture is the text between one `<loc>` and the next `</loc>` on the same line, in order |
| IndexNow.ExtractLocValues | scripts/indexnow.js:58-61 | the values are the captures trimmed, with blank ones dropped |
| IndexNow.LocContentsOfRendered | scripts/indexnow.js:58-61 | sitemap text made of `<loc>` elements gives back exactly their URLs |
| IndexNow.ExtractRoundTrip | scripts/indexnow.js:58-61 | reading a sitemap written from plain URLs gives the same URLs in the same order |
| IndexNow.BrokenElementSkipped | scripts/indexnow.js:59 | an element split over two lines is not matched |
| IndexNow.Distinct | scripts/indexnow.js:108 | `[...new Set(s)]` keeps each value once, at its first position, and nothing else |
| IndexNow.DistinctOfDistinct | scripts/indexnow.js:108 | a list without repeats is kept as it is |
| IndexNow.CollectUrls | scripts/indexnow.js:99-109 | the collected URLs are every sitemap's values, each once; the de-duplicated list of every prefix of the values is a prefix of the result, so URLs keep the order of their first occurrence |
| IndexNow.DistinctPrefix | scripts/indexnow.js:108 | values added later never disturb the de-duplicated order fixed by earlier ones |
| IndexNow.DistinctOfPrefixes | scripts/indexnow.js:108 | de-duplicating any prefix of a list gives a prefix of the de-duplicated list |
| IndexNow.CollectKeepsEarlierOrder | scripts/indexnow.js:103-108 | reading one more sitemap keeps the earlier URLs in their order and only adds new ones after them |
| IndexNow.IndexPaths | scripts/indexnow.js:79-84 | each location of a readable index, in order, mapped to its local path; an unreadable index gives none |
| IndexNow.SitemapFiles | scripts/indexnow.js:76-97 | exactly the index's `.xml` entries other than the index, in order, when there are any; otherwise the numbered sitemap files of the output directory, or a failure when it cannot be listed |
| IndexNow.SitemapFilesOfRenderedIndex | scripts/indexnow.js:76-88 | an index written from URLs that all name sitemap files yields all of them, in index order |
| IndexNow.NoSitemapEntryFallsBack | scripts/indexnow.js:76-97 | an index without a usable entry gives the same files as a missing index |
| IndexNow.NumberedSitemapCaseless | scripts/indexnow.js:95 | the file-name test ignores letter case and never picks the index |
| IndexNow.ScanKeyFiles | scripts/indexnow.js:124-136 | a key comes from a file whose trimmed content is non-empty and equals its base name, every earlier file having been read and rejected; an unreadable file before any match is a read failure |
| IndexNow.ScanNoKeyIff | scripts/indexnow.js:124-136 | no key is found exactly when every file was read and none matched its name |
| IndexNow.ScanSkipsRejected | scripts/indexnow.js:124-132 | files read and rejected before the first match do not change the choice |
| IndexNow.DetectKey | scripts/indexnow.js:111-137 | INDEXNOW_KEY wins, trimmed; then the key file's trimmed text, or a read failure; then the first public `.txt` file that matches, every earlier one read and rejected; no key exactly when all were read and none matched; an unlistable public directory is a read failure |
| IndexNow.UrlLists | scripts/indexnow.js:148-153 | the URL lists of the payloads, one per payload, in order |
| IndexNow.SubmitBatches | scripts/indexnow.js:197-202 | one request per batch in order, stopping at the first refused; complete exactly when every batch was accepted |
| IndexNow.SubmitSitemap | scripts/indexnow.js:169-205 | no URLs means nothing is done; an unparsable first URL, and then a key failure, stop exactly there; otherwise a dry run previews and any other run submits, with the host being INDEXNOW_HOST or the first URL's host and the key location INDEXNOW_KEY_LOCATION or `<origin>/<key>.txt`, in the preview and in every request; a preview shows at most ten URLs; the requests carry the chunks of the URLs in order, every one before the last full and accepted, so a refused batch ends the run; the run is complete exactly when every request was accepted, and then every chunk, and so every URL, was sent, in ceil(n / size) requests |
| IndexNow.SendUrls | scripts/indexnow.js:197-202 | the requests are a prefix of the chunks, each with the given host, key and key location; all but the last were accepted; complete exactly when the last was accepted, and then every chunk was sent |
| IndexNow.SentPrefix | scripts/indexnow.js:197-202 | a prefix of the chunks covers a prefix of the URLs, in at most ceil(n / size) batches; all of the chunks cover all of the URLs |

## Left out

- Network, database and mail calls are answers held in the `World`, not real calls. These include Turnstile's siteverify, the D1 `prepare/bind/run`, Resend's `fetch`, and the rate-limiter binding's `limit`. The clock's `toISOString` is a string in the `World`.
- `new Date(ts).toISOString().slice(0, 10)` is taken as the first ten characters of the timestamp, which the handler itself produced in ISO form.
- Lengths are counted in characters, not UTF-16 code units. Letter-case mapping and `\s` cover ASCII and the JavaScript whitespace set only, with no Unicode case folding.
- JoinSchema.FirstIssueIsFirstFailingField: the issue order is zod's synchronous parse. The worker's validator parses asynchronously. Refinement, transform and preprocess issues (the email domain, interests and agreement) then come after the plain string issues and after the strict-key issue. So `field` can name a later field, e.g. `seniorYear` for a bad year with an outside-domain email.
- WorkerApp.JoinFailureNamesFirstFailingField: rests on the same synchronous issue order, so the `field` it names is the synchronous parse's, not always the one the worker reports.
- JoinSchema.ParseJoinIssues: the issues it returns are the right ones, in synchronous order, not in the order of the asynchronous parse. The contact schema has no refinement or transform, so its order is the same either way.
- zod's `.email()` is the `isEmail` parameter. zod's default issue messages are the `defaultMessage` parameter. The model fixes only where they are used.
- `JSON.stringify`, `encodeURIComponent` and the `ICONS` table are opaque functions passed in. So is URL parsing, both `new URL` in the IndexNow script and `toLocalXmlPathFromLoc`.
- The worker's `lib/ratelimit.ts` wraps the platform RateLimit binding and is an answer in the `World`. The KV limiter of the Pages function is modelled in full.
- Concurrent requests, and the race between a KV read and write, are not modelled. Each request runs alone.
- Response headers are not modelled. These are the CORS headers Hono writes and the fixed JSON and security headers.
- Logging (`console.log`/`console.error`) is left out, and so is the `GET /` welcome route.
- `ensureDatabase` is reduced to "no database binding, or the DDL fails, or it succeeds". The SQL text of the tables is not modelled.
- The page side of the browser scripts is reduced to the values the handlers compute. This covers alerts, timers, scrolling, field highlighting, blur/input listeners, the saved draft and theme toggling.
- A reply whose body is not JSON throws in `response.json()`. It is modelled as a missing body shown with the engine's error message.
- The Pages function's `verifyTurnstile` is the same code as the worker's `lib/turnstile.ts`, and Turnstile.VerifyTurnstile models both.
- No server sends a 403: the Pages function answers a wrong domain with 400, and the worker has no 403 branch. The 403 branches of the two join scripts (src/scripts/join.ts:296, workers/public/join/script.js:185) are therefore never taken, but the model keeps them.
- An unset environment variable is read as the empty string. The source treats `undefined` and `""` alike everywhere it reads one.
- IndexNow.SubmitSitemap: requires a whole batch size of at least one. `Number(INDEXNOW_BATCH_SIZE)` can be other values, which the model does not cover. A value that is not a number posts a single empty batch, because `slice(0, NaN)` is empty and the index becomes NaN. Zero or a negative size never ends the loop. A fractional size gives uneven or empty batches, because `slice` truncates its bounds.
- IndexNow.SubmitSitemap: the dry-run and completion logging are not modelled.
- IndexNow.CollectUrls: takes the sitemap texts as read. A sitemap file that cannot be read makes the script throw, and this is not modelled. The index read, the two directory listings and the key-file reads are modelled as `Option` inputs, where None means the read threw.
- IndexNow.DetectKey: `path.basename(name, ".txt")` is modelled for plain directory entries. A name that is exactly ".txt" is not special-cased.
- Cards.BuildSocialLinks: the entries arrive in `Object.entries` order, which the model takes as given.
- The worker's `/join` comment promises a student-number email check. The code checks only `.email()` and the domain suffix, and JoinSchema follows the code.
- `src/data/forms.ts` only declares constants and types. The constants are FormsData, and the types are the datatypes of the schema modules.

=== FILE: cards.dfy ===
/** `buildSocialLinks` and its two helpers `toLabel` and `normalizeHref`:
    the social-media entries of a profile become display links. The icon
    table `ICONS` is a parameter; the entries arrive in the order
    `Object.entries` lists them. */
module Cards {
  import opened Wrappers
  import opened JsValues
  import opened Text

  datatype SocialLink = SocialLink(href: string, labelText: string, icon: string, isExternal: bool)

  /** One `[key, value]` pair of `Object.entries(social)` */
  type Entry = (string, JsValue)

  const Mailto: string := "mailto:"
  const DefaultFallbackIcon: string := "chat"

  /** The characters of the class `[-_]` */
  predicate IsSeparator(c: char) { c == '-' || c == '_' }

  /** `\w` without the `u` flag: ASCII letters, digits and `_` */
  predicate IsWordChar(c: char) { IsAlnum(c) || c == '_' }

  predicate NoSeparators(s: string) { forall i :: 0 <= i < |s| ==> !IsSeparator(s[i]) }
  predicate AllSeparators(s: string) { forall i :: 0 <= i < |s| ==> IsSeparator(s[i]) }

  /** Skips a leading run of separators: the result is a suffix that does not
      start with one, and everything skipped was one. */
  function DropSeparators(s: string): (r: string)
    ensures |r| <= |s| && r == s[|s| - |r|..]
    ensures AllSeparators(s[..|s| - |r|])
    ensures r == "" || !IsSeparator(r[0])
  {
    if |s| > 0 && IsSeparator(s[0]) then DropSeparators(s[1..]) else s
  }

  /** `key.replace(/[-_]+/g, " ")`: each maximal run of separators becomes one
      space. */
  function CollapseSeparators(s: string): (r: string)
    ensures NoSeparators(r)
    ensures |r| <= |s|
    decreases |s|
  {
    if s == "" then ""
    else if IsSeparator(s[0]) then " " + CollapseSeparators(DropSeparators(s[1..]))
    else [s[0]] + CollapseSeparators(s[1..])
  }

  /** A key without separators is left alone. */
  lemma {:induction false} CollapseWithoutSeparators(s: string)
    requires NoSeparators(s)
    ensures CollapseSeparators(s) == s
    decreases |s|
  {
    if s != "" {
      CollapseWithoutSeparators(s[1..]);
    }
  }

  /** A run of separators (of any length) following a separator-free word and
      followed by a non-separator becomes exactly one space. */
  lemma {:induction false} CollapseRun(word: string, run: string, rest: string)
    requires NoSeparators(word)
    requires run != "" && AllSeparators(run)
    requires rest == "" || !IsSeparator(rest[0])
    ensures CollapseSeparators(word + run + rest) == word + " " + CollapseSeparators(rest)
    decreases |word|
  {
    if word == "" {
      assert word + run + rest == run + rest;
      CollapseLeadingRun(run, rest);
    } else {
      var c, tail := word[0], word[1..] + run + rest;
      var after := CollapseSeparators(rest);
      HeadThenTail(word);
      assert word + run + rest == [c] + tail;
      CollapseKeepsWordChar(c, tail);
      CollapseRun(word[1..], run, rest);
      assert [c] + (word[1..] + " " + after) == word + " " + after;
    }
  }

  /** A leading non-separator is copied as it is */
  lemma CollapseKeepsWordChar(c: char, tail: string)
    requires !IsSeparator(c)
    ensures CollapseSeparators([c] + tail) == [c] + CollapseSeparators(tail)
  {
    assert ([c] + tail)[1..] == tail;
  }

  /** The base case of `CollapseRun`: a leading run becomes one space. */
  lemma CollapseLeadingRun(run: string, rest: string)
    requires run != "" && AllSeparators(run)
    requires rest == "" || !IsSeparator(rest[0])
    ensures CollapseSeparators(run + rest) == " " + CollapseSeparators(rest)
  {
    var x := run + rest;
    assert IsSeparator(x[0]);
    assert x[1..] == run[1..] + rest;
    DropRun(run[1..], rest);
  }

  lemma {:induction false} DropRun(run: string, rest: string)
    requires AllSeparators(run)
    requires rest == "" || !IsSeparator(rest[0])
    ensures DropSeparators(run + rest) == rest
    decreases |run|
  {
    if run == "" {
      assert run + rest == rest;
    } else {
      assert (run + rest)[1..] == run[1..] + rest;
      DropRun(run[1..], rest);
    }
  }

  /** `\b\w` matches at i: a word character at the start or after a non-word
      character */
  predicate WordStart(s: string, i: int)
    requires 0 <= i < |s|
  {
    IsWordChar(s[i]) && (i == 0 || !IsWordChar(s[i - 1]))
  }

  /** `replace(/\b\w/g, (c) => c.toUpperCase())`, scanning left to right with
      `afterWord` telling whether the previous character was a word character */
  function CapitalizeFrom(s: string, afterWord: bool): (r: string)
    ensures |r| == |s|
    ensures |s| > 0 ==> r[0] == (if IsWordChar(s[0]) && !afterWord then UpperChar(s[0]) else s[0])
    ensures forall i :: 0 < i < |s| ==> r[i] == (if WordStart(s, i) then UpperChar(s[i]) else s[i])
    decreases |s|
  {
    if s == "" then ""
    else [if IsWordChar(s[0]) && !afterWord then UpperChar(s[0]) else s[0]]
         + CapitalizeFrom(s[1..], IsWordChar(s[0]))
  }

  /** Exactly the word-initial characters are upper-cased; everything else is
      copied. */
  function Capitalize(s: string): (r: string)
    ensures |r| == |s|
    ensures forall i :: 0 <= i < |s| ==> r[i] == (if WordStart(s, i) then UpperChar(s[i]) else s[i])
  {
    CapitalizeFrom(s, false)
  }

  /** `toLabel` */
  function ToLabel(key: string): (r: string)
    ensures NoSeparators(r)
  {
    var c := CollapseSeparators(key);
    assert forall i :: 0 <= i < |c| ==> !IsSeparator(Capitalize(c)[i]) by {
      forall i | 0 <= i < |c| ensures !IsSeparator(Capitalize(c)[i]) {
        assert !IsSeparator(c[i]);
      }
    }
    Capitalize(c)
  }

  /** The label differs from the collapsed key only in letter case. */
  lemma LabelOnlyChangesCase(key: string)
    ensures ToLower(ToLabel(key)) == ToLower(CollapseSeparators(key))
  {
    var c := CollapseSeparators(key);
    var l := ToLabel(key);
    assert l == Capitalize(c);
    forall i | 0 <= i < |c| ensures ToLower(l)[i] == ToLower(c)[i] {
      assert l[i] == (if WordStart(c, i) then UpperChar(c[i]) else c[i]);
      assert LowerChar(UpperChar(c[i])) == LowerChar(c[i]);
    }
  }

  /** A plain lower-case word gets its first letter capitalised and nothing else. */
  lemma LabelOfWord(key: string)
    requires key != ""
    requires forall i :: 0 <= i < |key| ==> IsLower(key[i])
    ensures ToLabel(key) == [UpperChar(key[0])] + key[1..]
  {
    CollapseWithoutSeparators(key);
    var l := ToLabel(key);
    assert forall i :: 0 < i < |key| ==> !WordStart(key, i);
    assert l == [UpperChar(key[0])] + key[1..];
  }

  /** `normalizeHref`: an "email" key (in any case) gets a `mailto:` link */
  function NormalizeHref(key: string, value: string): (r: string)
    ensures r == value || r == Mailto + value
    ensures StartsWith(r, Mailto) <==> (ToLower(key) == "email" || StartsWith(value, Mailto))
    ensures (ToLower(key) != "email" || StartsWith(value, Mailto)) ==> r == value
  {
    if ToLower(key) == "email" && !StartsWith(value, Mailto) then Mailto + value else value
  }

  /** Normalising twice is normalising once. */
  lemma NormalizeHrefIdempotent(key: string, value: string)
    ensures NormalizeHref(key, NormalizeHref(key, value)) == NormalizeHref(key, value)
  {
  }

  /** `socialIconByKey[key.toLowerCase()] ?? fallbackIcon`, then `ICONS[iconKey]` */
  function IconFor(key: string, iconByKey: map<string, string>, fallbackIcon: string,
                   icons: string -> string): (r: string)
    ensures ToLower(key) in iconByKey ==> r == icons(iconByKey[ToLower(key)])
    ensures ToLower(key) !in iconByKey ==> r == icons(fallbackIcon)
  {
    icons(if ToLower(key) in iconByKey then iconByKey[ToLower(key)] else fallbackIcon)
  }

  /** An entry yields a link when its value is a string that is not blank */
  predicate Kept(e: Entry) { e.1.Str? && Trim(e.1.s) != "" }

  /** The link one kept entry becomes */
  function LinkFor(e: Entry, iconByKey: map<string, string>, fallbackIcon: string,
                   icons: string -> string): SocialLink
    requires Kept(e)
  {
    var href := NormalizeHref(e.0, Trim(e.1.s));
    SocialLink(href, ToLabel(e.0), IconFor(e.0, iconByKey, fallbackIcon, icons),
               !StartsWith(href, Mailto))
  }

  /** `social ?? {}` */
  function EntriesOf(social: Option<seq<Entry>>): seq<Entry> {
    if social.Some? then social.value else []
  }

  /** The links of a sequence of kept entries, position by position */
  function LinksOf(kept: seq<Entry>, iconByKey: map<string, string>, fallbackIcon: string,
                   icons: string -> string): (r: seq<SocialLink>)
    requires forall i :: 0 <= i < |kept| ==> Kept(kept[i])
  {
    seq(|kept|, i requires 0 <= i < |kept| => LinkFor(kept[i], iconByKey, fallbackIcon, icons))
  }

  lemma LinksOfSnoc(kept: seq<Entry>, e: Entry, iconByKey: map<string, string>, fallbackIcon: string,
                    icons: string -> string)
    requires forall i :: 0 <= i < |kept| ==> Kept(kept[i])
    requires Kept(e)
    ensures LinksOf(kept + [e], iconByKey, fallbackIcon, icons)
            == LinksOf(kept, iconByKey, fallbackIcon, icons) + [LinkFor(e, iconByKey, fallbackIcon, icons)]
  {
  }

  /** `buildSocialLinks`: one link per kept entry, in entry order */
  method BuildSocialLinks(social: Option<seq<Entry>>, iconByKey: map<string, string>,
                          fallbackIcon: string, icons: string -> string)
    returns (links: seq<SocialLink>)
    ensures links == LinksOf(Filter(EntriesOf(social), Kept), iconByKey, fallbackIcon, icons)
  {
    var entries := EntriesOf(social);
    links := [];
    var i := 0;
    while i < |entries|
      invariant 0 <= i <= |entries|
      invariant links == LinksOf(Filter(entries[..i], Kept), iconByKey, fallbackIcon, icons)
    {
      var e, prefix := entries[i], entries[..i];
      var kept := Filter(prefix, Kept);
      FilterSnoc(prefix, e, Kept);
      assert entries[..i + 1] == prefix + [e];
      var rawValue := e.1;
      if rawValue.Str? && Trim(rawValue.s) != "" {
        assert Filter(entries[..i + 1], Kept) == kept + [e];
        LinksOfSnoc(kept, e, iconByKey, fallbackIcon, icons);
        links := links + [LinkFor(e, iconByKey, fallbackIcon, icons)];
      } else {
        assert Filter(entries[..i + 1], Kept) == kept;
      }
      i := i + 1;
    }
    assert entries[..i] == entries;
  }

  /** A link is external exactly when its href is not a `mailto:` link, and
      an email entry never yields an external link. */
  lemma LinkExternalIffNotMailto(e: Entry, iconByKey: map<string, string>, fallbackIcon: string,
                                 icons: string -> string)
    requires Kept(e)
    ensures var l := LinkFor(e, iconByKey, fallbackIcon, icons);
      (l.isExternal <==> !StartsWith(l.href, Mailto))
      && (ToLower(e.0) == "email" ==> !l.isExternal && StartsWith(l.href, Mailto))
      && (ToLower(e.0) != "email" ==> l.href == Trim(e.1.s))
  {
  }

  /** When every entry is kept, the links are the entries' links in the same
      order, one each. */
  lemma {:induction false} AllKeptKeepsOrder(entries: seq<Entry>)
    requires forall i :: 0 <= i < |entries| ==> Kept(entries[i])
    ensures Filter(entries, Kept) == entries
  {
    FilterAllKept(entries, Kept);
  }

  /** Entries that are not strings or are blank contribute nothing: removing
      them does not change the links. */
  lemma {:induction false} DroppedEntriesIgnored(entries: seq<Entry>, e: Entry)
    requires !Kept(e)
    ensures Filter(entries + [e], Kept) == Filter(entries, Kept)
  {
    FilterSnoc(entries, e, Kept);
  }
}

=== FILE: client_contact.dfy ===
/** The site's contact form script: the checks its submit handler runs on
    the trimmed fields, the trimmed values it sends to the worker's
    `/contact` route, and how it shows the reply. */
module ClientContact {
  import opened Wrappers
  import opened JsValues
  import opened Text
  import opened SharedForm
  import SiteUtils
  import ContactSchema

  datatype Problem = NoName | BadEmail | NoSubject | BadMessage | NoCaptcha

  /** The text shown for each problem */
  function Message(p: Problem): string {
    match p
    case NoName => "This field is required"
    case BadEmail => "Please enter a valid email address"
    case NoSubject => "This field is required"
    case BadMessage => "Message must be 10-4000 characters"
    case NoCaptcha => "Please complete the Turnstile captcha before submitting."
  }

  const MinMessage: nat := 10
  const MaxMessage: nat := 4000

  /** The four text fields after `String(formData.get(name) || "").trim()` */
  datatype Entries = Entries(name: string, email: string, subject: string, message: string)

  function Entered(form: map<string, string>): (e: Entries)
    ensures e.name == Trim(FormText(form, "name")) && e.email == Trim(FormText(form, "email"))
    ensures e.subject == Trim(FormText(form, "subject")) && e.message == Trim(FormText(form, "message"))
  {
    Entries(Trim(FormText(form, "name")), Trim(FormText(form, "email")),
            Trim(FormText(form, "subject")), Trim(FormText(form, "message")))
  }

  /** The verdicts of the five checks, each true when that check fails */
  datatype Verdicts = Verdicts(noName: bool, badEmail: bool, noSubject: bool, badMessage: bool, noCaptcha: bool)

  /** What each check decides. `token` is `getResponse?.() ?? ""`. */
  function Judge(e: Entries, token: string): (v: Verdicts)
    ensures v.noName <==> e.name == ""
    ensures v.badEmail <==> e.email == "" || !SiteUtils.ValidateEmail(e.email)
    ensures v.noSubject <==> e.subject == ""
    ensures v.badMessage <==> !(MinMessage <= |e.message| <= MaxMessage)
    ensures v.noCaptcha <==> IsBlank(token)
  {
    Verdicts(e.name == "", e.email == "" || !SiteUtils.ValidateEmail(e.email), e.subject == "",
             !(MinMessage <= |e.message| <= MaxMessage), IsBlank(token))
  }

  /** The problems shown for the failed checks, in the handler's order */
  function Problems(v: Verdicts): (r: seq<Problem>)
    ensures NoName in r <==> v.noName
    ensures BadEmail in r <==> v.badEmail
    ensures NoSubject in r <==> v.noSubject
    ensures BadMessage in r <==> v.badMessage
    ensures NoCaptcha in r <==> v.noCaptcha
    ensures r == [] <==> !(v.noName || v.badEmail || v.noSubject || v.badMessage || v.noCaptcha)
  {
    var r1 := AddIf([], v.noName, NoName);
    var r2 := AddIf(r1, v.badEmail, BadEmail);
    var r3 := AddIf(r2, v.noSubject, NoSubject);
    var r4 := AddIf(r3, v.badMessage, BadMessage);
    AddIf(r4, v.noCaptcha, NoCaptcha)
  }

  /** The submit handler's checks, in the order it runs them */
  function Check(form: map<string, string>, token: string): seq<Problem> {
    Problems(Judge(Entered(form), token))
  }

  const TokenKey: string := "cf-turnstile-response"

  /** The keys the handler sets, which are the schema's five keys */
  const SentKeys: set<string> := ContactSchema.Shape

  /** The value `formData.set` gives a key, if it sets that key */
  function SentValue(e: Entries, token: string, k: string): (r: Option<string>)
    ensures r.Some? <==> k in SentKeys
  {
    if k == "name" then Some(e.name)
    else if k == "email" then Some(e.email)
    else if k == "subject" then Some(e.subject)
    else if k == "message" then Some(e.message)
    else if k == TokenKey then Some(token)
    else None
  }

  /** Each of the five keys gets its own value */
  lemma SentKeysDistinct(e: Entries, token: string)
    ensures SentValue(e, token, "name") == Some(e.name)
    ensures SentValue(e, token, "email") == Some(e.email)
    ensures SentValue(e, token, "subject") == Some(e.subject)
    ensures SentValue(e, token, "message") == Some(e.message)
    ensures SentValue(e, token, TokenKey) == Some(token)
  {
    assert "email" != "name";
    assert "subject" != "name" && "subject" != "email";
    assert "message" != "name" && "message" != "email" && "message" != "subject";
    assert TokenKey != "name" && TokenKey != "email" && TokenKey != "subject" && TokenKey != "message";
  }

  /** `formData.set` of the four trimmed values and the token, over the
      form's other fields */
  function Payload(form: map<string, string>, token: string): (p: map<string, string>)
    ensures p.Keys == form.Keys + SentKeys
    ensures forall k :: k in SentKeys ==> p[k] == SentValue(Entered(form), token, k).value
    ensures forall k :: k in form && k !in SentKeys ==> p[k] == form[k]
  {
    var e := Entered(form);
    map k | k in form.Keys + SentKeys :: if k in SentKeys then SentValue(e, token, k).value else form[k]
  }

  /** The body posted to `/contact`: sent exactly when every check passes */
  function Submission(form: map<string, string>, token: string): (r: Option<map<string, string>>)
    ensures r.Some? <==> Check(form, token) == []
    ensures r.Some? ==> r.value == Payload(form, token)
  {
    if Check(form, token) == [] then Some(Payload(form, token)) else None
  }

  /** What the payload carries under each of the five keys */
  lemma SentValues(form: map<string, string>, token: string)
    ensures var p := Payload(form, token); var e := Entered(form);
      && "name" in p && p["name"] == e.name
      && "email" in p && p["email"] == e.email
      && "subject" in p && p["subject"] == e.subject
      && "message" in p && p["message"] == e.message
      && TokenKey in p && p[TokenKey] == token
  {
    SentKeysDistinct(Entered(form), token);
  }

  /** The values sent are already trimmed: a form holding exactly what was
      sent passes the same checks again and sends the same values. */
  lemma ResendingIsStable(form: map<string, string>, token: string)
    requires Check(form, token) == []
    ensures Check(Payload(form, token), token) == []
    ensures Entered(Payload(form, token)) == Entered(form)
  {
    var e := Entered(form);
    var p := Payload(form, token);
    SentValues(form, token);
    assert FormText(p, "name") == e.name && FormText(p, "email") == e.email;
    assert FormText(p, "subject") == e.subject && FormText(p, "message") == e.message;
    TrimIdempotent(FormText(form, "name"));
    TrimIdempotent(FormText(form, "email"));
    TrimIdempotent(FormText(form, "subject"));
    TrimIdempotent(FormText(form, "message"));
    assert Entered(p) == e;
  }

  /** A message the form lets through meets the worker schema's 10..4000
      bound, and the token it carries is not empty. */
  lemma SentMessageWithinSchema(form: map<string, string>, token: string)
    requires Check(form, token) == []
    ensures 10 <= |Payload(form, token)["message"]| <= 4000
    ensures |Payload(form, token)[TokenKey]| >= 1
  {
    SentValues(form, token);
    assert !Judge(Entered(form), token).badMessage;
  }

  /** `JSON.stringify(Object.fromEntries(formData))` as the worker parses it */
  function BodyOf(p: map<string, string>): (b: JsValue)
    ensures b.Obj? && b.fields.Keys == p.Keys
    ensures forall k :: k in p ==> Get(b, k) == Str(p[k])
  {
    Obj(map k | k in p :: Str(p[k]))
  }

  /** What the worker's schema asks beyond the form's own checks: no other
      field in the form, lengths within the schema's caps, and an address
      its own `.email()` accepts */
  predicate WithinCaps(form: map<string, string>, isEmail: string -> bool) {
    var e := Entered(form);
    && form.Keys <= ContactSchema.Shape
    && |e.name| <= 100 && |e.email| <= 100 && |e.subject| <= 150
    && isEmail(e.email)
  }

  /** What a form that passes every check holds */
  lemma Passed(form: map<string, string>, token: string)
    requires Check(form, token) == []
    ensures var e := Entered(form);
      && e.name != "" && e.subject != "" && MinMessage <= |e.message| <= MaxMessage
      && e.email != "" && SiteUtils.ValidateEmail(e.email) && token != ""
  {
    var v := Judge(Entered(form), token);
    assert !v.noName && !v.badEmail && !v.noSubject && !v.badMessage && !v.noCaptcha;
  }

  /** The schema's conditions on a body the form sends, in terms of the
      entries */
  lemma AcceptableEntries(form: map<string, string>, token: string, isEmail: string -> bool)
    requires Check(form, token) == []
    ensures var e := Entered(form);
      (ContactSchema.ContactAcceptable(BodyOf(Payload(form, token)), isEmail)
       <==> (&& Payload(form, token).Keys <= ContactSchema.Shape && isEmail(e.email) && |e.email| <= 100
             && |e.name| <= 100 && |e.subject| <= 150))
  {
    Passed(form, token);
    SentValues(form, token);
  }

  /** A body the form sends is accepted by the worker's schema exactly when
      the form had no other field, the caps hold and `.email()` agrees. */
  lemma SentBodyMeetsSchema(form: map<string, string>, token: string, isEmail: string -> bool)
    requires Check(form, token) == []
    ensures ContactSchema.ContactAcceptable(BodyOf(Payload(form, token)), isEmail) <==> WithinCaps(form, isEmail)
  {
    AcceptableEntries(form, token, isEmail);
  }

  /** The form checks no upper bound on the subject: a 151-character subject
      passes the form and the schema refuses it. */
  lemma LongSubjectPassesForm(form: map<string, string>, token: string, isEmail: string -> bool)
    requires Check(form, token) == [] && |Entered(form).subject| > 150
    ensures !ContactSchema.ContactAcceptable(BodyOf(Payload(form, token)), isEmail)
  {
    SentBodyMeetsSchema(form, token, isEmail);
  }

  const SentTitle: string := "Message Sent"
  const SentMessage: string := "Your message has been sent successfully."

  /** `submitForm` after the request. A 400 goes through the validation
      rules; every other error status is thrown and shown as a failure. */
  function Dispatch(reply: Reply, stringify: JsValue -> string, engineMessage: string): (r: Shown)
    ensures reply.NoConnection? ==>
              (r.alert.title == "Network Error" <==> Contains(reply.message, FetchFailure))
    ensures r.clearsDraft <==> reply.Reply? && IsOk(reply.status) && reply.body.Some? && !Nullish(reply.body.value)
    ensures reply.Reply? && reply.status == 400 && reply.body.Some? ==>
              r == ValidationAlert(reply.body.value, stringify, engineMessage)
    ensures reply.Reply? && !IsOk(reply.status) && reply.status != 400 ==> r.alert.title == "Submission Failed"
    ensures reply.Reply? && IsOk(reply.status) && reply.body.Some? && !Nullish(reply.body.value) ==>
              r.alert.title == SentTitle
    ensures reply.Reply? && reply.body.None? ==> r == SubmissionFailed(engineMessage)
    ensures reply.Reply? && !IsOk(reply.status) && reply.status != 400 && reply.body.Some? && !Nullish(reply.body.value) ==>
              r == ServerErrorThrown(reply.body.value, reply.status)
    ensures reply.Reply? && reply.body.Some? && Nullish(reply.body.value) && reply.status != 400 ==>
              r == SubmissionFailed(engineMessage)
    ensures reply.Reply? && IsOk(reply.status) && reply.body.Some? && !Nullish(reply.body.value) ==>
              r == SuccessShown(SentTitle, SentMessage, reply.body.value)
  {
    match reply
    case NoConnection(message) => ConnectionFailed(message)
    case Reply(status, body) =>
      if body.None? then SubmissionFailed(engineMessage)
      else
        var result := body.value;
        if !IsOk(status) then
          if status == 400 then ValidationAlert(result, stringify, engineMessage)
          else if Nullish(result) then SubmissionFailed(engineMessage)
          else ServerErrorThrown(result, status)
        else if Nullish(result) then SubmissionFailed(engineMessage)
        else SuccessShown(SentTitle, SentMessage, result)
  }

  /** Every error body the worker sends, `{ error: message }`, is shown with
      its message, as a validation alert for 400 and a failure otherwise. */
  lemma ShowsServerErrors(status: int, message: string, stringify: JsValue -> string, engineMessage: string)
    requires message != "" && !IsOk(status)
    ensures var r := Dispatch(Reply(status, Some(Obj(Http.ErrorResponse(status, message).body))), stringify, engineMessage);
      && r.alert.message == message && r.alert.kind == ErrorAlert && !r.clearsDraft
      && r.alert.title == (if status == 400 then ValidationTitle else "Submission Failed")
  {
    ReadsServerErrors(status, message, stringify);
  }

  /** A success body is shown with its message, a failed e-mail as a note,
      and the draft is cleared. */
  lemma ShowsSuccess(message: string, warning: Option<string>, stringify: JsValue -> string, engineMessage: string)
    requires message != ""
    ensures var r := Dispatch(Reply(200, Some(Obj(Http.SuccessResponse(message, warning).body))), stringify,
                              engineMessage);
      && r.alert.kind == SuccessAlert && r.alert.title == SentTitle && r.alert.message == message && r.clearsDraft
      && r.alert.details == (if warning.Some? && warning.value != "" then "Note: " + warning.value else "")
  {
    ShowsSuccessBody(SentTitle, SentMessage, message, warning);
  }
}

=== FILE: client_join.dfy ===
/** The site's join form script: the checks its submit handler runs before
    sending, what it sends, and how it shows the server's reply. The page
    itself (alerts, field highlighting, the saved draft) is reduced to the
    values these steps produce. */
module ClientJoin {
  import opened Wrappers
  import opened JsValues
  import opened Text
  import opened SharedForm
  import SiteUtils
  import FormsData

  /** The fields the submit handler marks */
  datatype Field = Interests | SchoolEmail | SeniorYear | Motivation | FullName | GithubUsername | Agreement

  /** A problem the submit handler reports, under a field or, for the
      captcha, as an alert */
  datatype Problem =
    | NoInterest
    | BadEmail
    | BadYear
    | BadMotivation
    | Blank(field: Field)
    | BadGithub
    | NoAgreement
    | NoCaptcha

  /** The field a problem is shown under; the captcha has none */
  function FieldOf(p: Problem): Option<Field> {
    match p
    case NoInterest => Some(Interests)
    case BadEmail => Some(SchoolEmail)
    case BadYear => Some(SeniorYear)
    case BadMotivation => Some(Motivation)
    case Blank(f) => Some(f)
    case BadGithub => Some(GithubUsername)
    case NoAgreement => Some(Agreement)
    case NoCaptcha => None
  }

  /** The text shown for each problem */
  function Message(p: Problem): string {
    match p
    case NoInterest => "Select at least one interest"
    case BadEmail => "Use student email format: name.19YYXXX@stemgharbiya.moe.edu.eg"
    case BadYear => "Senior Year must be S25 through S30 only (e.g., S25, S26, S27)"
    case BadMotivation => "Motivation must be 10-500 characters"
    case Blank(_) => "This field is required"
    case BadGithub => "Invalid GitHub username format"
    case NoAgreement => "You must agree to the Code of Conduct"
    case NoCaptcha => "Please complete the Turnstile captcha before submitting."
  }

  const MinMotivation: nat := 10
  const MaxMotivation: nat := 500

  /** The verdicts of the nine checks, each true when that check fails */
  datatype Verdicts = Verdicts(noInterests: bool, badEmail: bool, badYear: bool, badMotivation: bool,
                               blankName: bool, blankGithub: bool, badGithub: bool, noAgreement: bool,
                               noCaptcha: bool)

  /** The problems of the first four checks, which read single fields */
  function FieldProblems(v: Verdicts): (r: seq<Problem>)
    ensures NoInterest in r <==> v.noInterests
    ensures BadEmail in r <==> v.badEmail
    ensures BadYear in r <==> v.badYear
    ensures BadMotivation in r <==> v.badMotivation
    ensures forall x :: x in r ==> x in {NoInterest, BadEmail, BadYear, BadMotivation}
    ensures r == [] <==> !(v.noInterests || v.badEmail || v.badYear || v.badMotivation)
  {
    var r1 := AddIf([], v.noInterests, NoInterest);
    var r2 := AddIf(r1, v.badEmail, BadEmail);
    var r3 := AddIf(r2, v.badYear, BadYear);
    AddIf(r3, v.badMotivation, BadMotivation)
  }

  /** The problems of the remaining checks: required fields, the username
      format, the agreement and the captcha */
  function PresenceProblems(v: Verdicts): (r: seq<Problem>)
    ensures Blank(FullName) in r <==> v.blankName
    ensures Blank(GithubUsername) in r <==> v.blankGithub
    ensures BadGithub in r <==> v.badGithub
    ensures NoAgreement in r <==> v.noAgreement
    ensures NoCaptcha in r <==> v.noCaptcha
    ensures forall x :: x in r ==> x in {Blank(FullName), Blank(GithubUsername), BadGithub, NoAgreement, NoCaptcha}
    ensures r == [] <==> !(v.blankName || v.blankGithub || v.badGithub || v.noAgreement || v.noCaptcha)
  {
    var r1 := AddIf([], v.blankName, Blank(FullName));
    var r2 := AddIf(r1, v.blankGithub, Blank(GithubUsername));
    var r3 := AddIf(r2, v.badGithub, BadGithub);
    var r4 := AddIf(r3, v.noAgreement, NoAgreement);
    AddIf(r4, v.noCaptcha, NoCaptcha)
  }

  /** The problems shown for the failed checks, in the handler's order: each
      problem appears exactly when its check failed */
  function Problems(v: Verdicts): (r: seq<Problem>)
    ensures NoInterest in r <==> v.noInterests
    ensures BadEmail in r <==> v.badEmail
    ensures BadYear in r <==> v.badYear
    ensures BadMotivation in r <==> v.badMotivation
    ensures Blank(FullName) in r <==> v.blankName
    ensures Blank(GithubUsername) in r <==> v.blankGithub
    ensures BadGithub in r <==> v.badGithub
    ensures NoAgreement in r <==> v.noAgreement
    ensures NoCaptcha in r <==> v.noCaptcha
    ensures r == [] <==> !(v.noInterests || v.badEmail || v.badYear || v.badMotivation || v.blankName
                           || v.blankGithub || v.badGithub || v.noAgreement || v.noCaptcha)
  {
    FieldProblems(v) + PresenceProblems(v)
  }

  /** What each check decides about the form. `interests` are the checked
      boxes' values; `token` is the widget's response, "" when there is none. */
  function Judge(form: map<string, string>, interests: seq<string>, token: string): (v: Verdicts)
    ensures v.noInterests <==> interests == []
    ensures v.badEmail <==> !SiteUtils.ValidateStudentSchoolEmail(FormText(form, "schoolEmail"))
    ensures v.badYear <==> !SiteUtils.ValidateSeniorYear(FormText(form, "seniorYear"))
    ensures v.badMotivation <==> !(MinMotivation <= |FormText(form, "motivation")| <= MaxMotivation)
    ensures v.blankName <==> IsBlank(FormText(form, "fullName"))
    ensures v.blankGithub <==> IsBlank(FormText(form, "githubUsername"))
    ensures (v.badGithub <==> (!IsBlank(FormText(form, "githubUsername"))
                              && !SiteUtils.ValidateGitHubUsername(Trim(FormText(form, "githubUsername")))))
    ensures v.noAgreement <==> FormText(form, "agreement") == ""
    ensures v.noCaptcha <==> IsBlank(token)
  {
    var github := Trim(FormText(form, "githubUsername"));
    Verdicts(interests == [],
             !SiteUtils.ValidateStudentSchoolEmail(FormText(form, "schoolEmail")),
             !SiteUtils.ValidateSeniorYear(FormText(form, "seniorYear")),
             !(MinMotivation <= |FormText(form, "motivation")| <= MaxMotivation),
             IsBlank(FormText(form, "fullName")),
             IsBlank(FormText(form, "githubUsername")),
             github != "" && !SiteUtils.ValidateGitHubUsername(github),
             FormText(form, "agreement") == "",
             IsBlank(token))
  }

  /** The submit handler's checks, all of them, in the order it runs them */
  function Check(form: map<string, string>, interests: seq<string>, token: string): seq<Problem> {
    Problems(Judge(form, interests, token))
  }

  const TokenKey: string := "cf-turnstile-response"
  const InterestsKey: string := "interests"

  /** `formData.set` of the token, then of the comma-joined interests */
  function Payload(form: map<string, string>, interests: seq<string>, token: string): (p: map<string, string>)
    ensures InterestsKey in p && p[InterestsKey] == Join(interests, ",")
    ensures TokenKey in p && p[TokenKey] == token
    ensures forall k :: k in form && k != InterestsKey && k != TokenKey ==> k in p && p[k] == form[k]
  {
    assert |TokenKey| != |InterestsKey|;
    form[TokenKey := token][InterestsKey := Join(interests, ",")]
  }

  /** The body posted to `/join`: sent exactly when every check passes */
  function Submission(form: map<string, string>, interests: seq<string>, token: string): (r: Option<map<string, string>>)
    ensures r.Some? <==> Check(form, interests, token) == []
    ensures r.Some? ==> r.value == Payload(form, interests, token)
  {
    if Check(form, interests, token) == [] then Some(Payload(form, interests, token)) else None
  }

  /** A motivation the form lets through is always within the worker
      schema's 10..2000 bound, which is looser. */
  lemma MotivationWithinSchema(form: map<string, string>, interests: seq<string>, token: string)
    requires Check(form, interests, token) == []
    ensures 10 <= |FormText(form, "motivation")| <= FormsData.MaxMotivation
  {
    assert !Judge(form, interests, token).badMotivation;
  }

  /** Every address the form lets through ends with the school domain once
      normalised, which is what the worker schema's suffix check needs. */
  lemma EmailWithinSchoolDomain(form: map<string, string>, interests: seq<string>, token: string)
    requires Check(form, interests, token) == []
    ensures EndsWith(ToLower(Trim(FormText(form, "schoolEmail"))), FormsData.SchoolDomain)
    ensures SiteUtils.ValidateEmail(FormText(form, "schoolEmail"))
  {
    var e := FormText(form, "schoolEmail");
    assert !Judge(form, interests, token).badEmail;
    SiteUtils.StudentEmailIsEmail(e);
  }

  const ReceivedTitle: string := "Application Submitted"
  const ReceivedMessage: string :=
    "Your application was received but we encountered an issue with email notifications."
  const ReceivedDetails: string := "Our team will review your application shortly."
  const DuplicateTitle: string := "Duplicate Application"
  const DuplicateMessage: string := "An application with this email and GitHub username already exists"
  const SuccessTitle: string := "Application Submitted!"
  const SuccessMessage: string := "Your application has been submitted successfully."

  /** `submitForm` after the request: what the page shows for each reply.
      A property read on a null body, or a body that is not JSON, throws and
      is shown with `engineMessage`. */
  function Dispatch(reply: Reply, stringify: JsValue -> string, engineMessage: string): (r: Shown)
    ensures reply.NoConnection? ==>
              (r.alert.title == "Network Error" <==> Contains(reply.message, FetchFailure))
    ensures r.clearsDraft <==> reply.Reply? && IsOk(reply.status) && reply.body.Some? && !Nullish(reply.body.value)
    ensures reply.Reply? && reply.status == 403 && reply.body.Some? ==>
              r.alert.kind == WarningAlert && r.resetsForm && !r.clearsDraft
    ensures reply.Reply? && reply.body.Some? && !IsOk(reply.status)
            && reply.status != 400 && reply.status != 403 && reply.status != 409 ==>
              r.alert.title == "Submission Failed"
    ensures reply.Reply? && reply.status == 400 && reply.body.Some? ==>
              r == ValidationAlert(reply.body.value, stringify, engineMessage)
    ensures reply.Reply? && reply.body.None? ==> r == SubmissionFailed(engineMessage)
    ensures reply.Reply? && reply.status == 409 && reply.body.Some? && !Nullish(reply.body.value) ==>
              r == Shown(Alert(ErrorAlert, DuplicateTitle, ToJsString(Or(JsValues.Get(reply.body.value, "error"), Str(DuplicateMessage))), ""),
                         false, false)
    ensures reply.Reply? && !IsOk(reply.status) && reply.status != 400 && reply.status != 403 && reply.status != 409
            && reply.body.Some? && !Nullish(reply.body.value) ==>
              r == ServerErrorThrown(reply.body.value, reply.status)
    ensures reply.Reply? && reply.body.Some? && Nullish(reply.body.value) && reply.status != 400 && reply.status != 403 ==>
              r == SubmissionFailed(engineMessage)
    ensures reply.Reply? && IsOk(reply.status) && reply.body.Some? && !Nullish(reply.body.value) ==>
              r == SuccessShown(SuccessTitle, SuccessMessage, reply.body.value)
  {
    match reply
    case NoConnection(message) => ConnectionFailed(message)
    case Reply(status, body) =>
      if body.None? then SubmissionFailed(engineMessage)
      else
        var result := body.value;
        if !IsOk(status) then
          if status == 400 then ValidationAlert(result, stringify, engineMessage)
          else if status == 403 then
            Shown(Alert(WarningAlert, ReceivedTitle, ReceivedMessage, ReceivedDetails), false, true)
          else if Nullish(result) then SubmissionFailed(engineMessage)
          else if status == 409 then
            Shown(Alert(ErrorAlert, DuplicateTitle, ToJsString(Or(Get(result, "error"), Str(DuplicateMessage))), ""),
                  false, false)
          else ServerErrorThrown(result, status)
        else if Nullish(result) then SubmissionFailed(engineMessage)
        else SuccessShown(SuccessTitle, SuccessMessage, result)
  }

  /** Every error body the servers send, `{ error: message }`, is shown with
      its message: as a validation alert for 400, a duplicate alert for 409,
      and a failure alert for the other error statuses except 403. */
  lemma ShowsServerErrors(status: int, message: string, stringify: JsValue -> string, engineMessage: string)
    requires message != "" && !IsOk(status) && status != 403
    ensures var r := Dispatch(Reply(status, Some(Obj(Http.ErrorResponse(status, message).body))), stringify, engineMessage);
      r.alert.message == message && r.alert.kind == ErrorAlert && !r.clearsDraft
  {
    ReadsServerErrors(status, message, stringify);
  }
}

=== FILE: contact_schema.dfy ===
/** `contactSchema`: the strict request schema of the worker's `/contact`
    route. Five string keys, each with its own chain of checks. */
module ContactSchema {
  import opened Wrappers
  import opened JsValues
  import opened Zod

  datatype ContactField = EmailAddress | Name | Subject | Message | TurnstileResponse

  const Fields: seq<ContactField> := [EmailAddress, Name, Subject, Message, TurnstileResponse]

  function Key(f: ContactField): string {
    match f
    case EmailAddress => "email"
    case Name => "name"
    case Subject => "subject"
    case Message => "message"
    case TurnstileResponse => "cf-turnstile-response"
  }

  const Shape: set<string> := {"email", "name", "subject", "message", "cf-turnstile-response"}

  datatype ContactValidated = ContactValidated(
    email: string, name: string, subject: string, message: string, turnstileToken: string)

  function Checks(f: ContactField): seq<StringCheck> {
    match f
    case EmailAddress => [Email, MaxLength(100)]
    case Name => [MinLength(1), MaxLength(100)]
    case Subject => [MinLength(1), MaxLength(150)]
    case Message => [MinLength(10), MaxLength(4000)]
    case TurnstileResponse => [MinLength(1)]
  }

  function FieldIssues(body: JsValue, isEmail: string -> bool, f: ContactField): (issues: seq<Issue>)
    ensures forall j :: 0 <= j < |issues| ==> issues[j].path == [Key(f)]
  {
    StringField(Key(f), Get(body, Key(f)), Checks(f), isEmail)
  }

  function ObjectIssues(body: JsValue, isEmail: string -> bool): seq<Issue>
    requires body.Obj?
  {
    ShapeIssues(Fields, f => FieldIssues(body, isEmail, f)) + StrictIssues(body.fields, Shape)
  }

  lemma NoIssuesAt(body: JsValue, isEmail: string -> bool, f: ContactField)
    requires body.Obj? && ObjectIssues(body, isEmail) == []
    ensures body.fields.Keys <= Shape
    ensures Get(body, Key(f)).Str?
  {
    var check := f => FieldIssues(body, isEmail, f);
    assert ShapeIssues(Fields, check) == [];
    var i := match f
      case EmailAddress => 0 case Name => 1 case Subject => 2 case Message => 3 case TurnstileResponse => 4;
    assert Fields[i] == f;
    assert check(Fields[i]) == [];
  }

  /** `contactSchema.safeParse(body)` with `.email()` as the parameter isEmail */
  function ParseContact(body: JsValue, isEmail: string -> bool): (r: Result<ContactValidated, seq<Issue>>)
    ensures r.Err? ==> r.error != []
    ensures r.Ok? ==> body.Obj? && body.fields.Keys <= Shape
    ensures r.Ok? ==>
      && Get(body, "email") == Str(r.value.email)
      && Get(body, "name") == Str(r.value.name)
      && Get(body, "subject") == Str(r.value.subject)
      && Get(body, "message") == Str(r.value.message)
      && Get(body, "cf-turnstile-response") == Str(r.value.turnstileToken)
  {
    if !body.Obj? then Err([NotAnObject(body)])
    else if ObjectIssues(body, isEmail) != [] then Err(ObjectIssues(body, isEmail))
    else
      NoIssuesAt(body, isEmail, EmailAddress);
      NoIssuesAt(body, isEmail, Name);
      NoIssuesAt(body, isEmail, Subject);
      NoIssuesAt(body, isEmail, Message);
      NoIssuesAt(body, isEmail, TurnstileResponse);
      Ok(ContactValidated(Get(body, "email").s, Get(body, "name").s, Get(body, "subject").s,
                          Get(body, "message").s, Get(body, "cf-turnstile-response").s))
  }

  /** What the schema demands of a body, key by key */
  predicate ContactAcceptable(body: JsValue, isEmail: string -> bool) {
    && body.Obj? && body.fields.Keys <= Shape
    && (var v := Get(body, "email"); v.Str? && isEmail(v.s) && |v.s| <= 100)
    && (var v := Get(body, "name"); v.Str? && 1 <= |v.s| <= 100)
    && (var v := Get(body, "subject"); v.Str? && 1 <= |v.s| <= 150)
    && (var v := Get(body, "message"); v.Str? && 10 <= |v.s| <= 4000)
    && (var v := Get(body, "cf-turnstile-response"); v.Str? && |v.s| >= 1)
  }

  lemma FieldIssuesIff(body: JsValue, isEmail: string -> bool, f: ContactField)
    ensures FieldIssues(body, isEmail, f) == [] <==>
      var v := Get(body, Key(f));
      v.Str? &&
      match f
      case EmailAddress => isEmail(v.s) && |v.s| <= 100
      case Name => 1 <= |v.s| <= 100
      case Subject => 1 <= |v.s| <= 150
      case Message => 10 <= |v.s| <= 4000
      case TurnstileResponse => |v.s| >= 1
  {
    var v := Get(body, Key(f));
    if v.Str? {
      var c := Checks(f);
      if f == TurnstileResponse {
        assert Passes(c[0], v.s, isEmail) <==> |v.s| >= 1;
      } else {
        assert Passes(c[0], v.s, isEmail) <==> (match f
          case EmailAddress => isEmail(v.s) case Name => |v.s| >= 1 case Subject => |v.s| >= 1
          case Message => |v.s| >= 10 case TurnstileResponse => true);
        assert Passes(c[1], v.s, isEmail) <==> (match f
          case EmailAddress => |v.s| <= 100 case Name => |v.s| <= 100 case Subject => |v.s| <= 150
          case Message => |v.s| <= 4000 case TurnstileResponse => true);
      }
    }
  }

  /** The schema accepts a body exactly when it meets every condition above;
      in particular any key outside the five declared ones is refused. */
  lemma ParseContactAccepts(body: JsValue, isEmail: string -> bool)
    ensures ParseContact(body, isEmail).Ok? <==> ContactAcceptable(body, isEmail)
  {
    if body.Obj? {
      var check := f => FieldIssues(body, isEmail, f);
      if ContactAcceptable(body, isEmail) {
        forall i | 0 <= i < |Fields| ensures check(Fields[i]) == [] {
          FieldIssuesIff(body, isEmail, Fields[i]);
        }
        assert ShapeIssues(Fields, check) == [];
        assert StrictIssues(body.fields, Shape) == [];
      } else if ObjectIssues(body, isEmail) == [] {
        forall f ensures FieldIssues(body, isEmail, f) == [] {
          var i := match f
            case EmailAddress => 0 case Name => 1 case Subject => 2 case Message => 3 case TurnstileResponse => 4;
          assert Fields[i] == f;
          assert check(Fields[i]) == [];
        }
        FieldIssuesIff(body, isEmail, EmailAddress);
        FieldIssuesIff(body, isEmail, Name);
        FieldIssuesIff(body, isEmail, Subject);
        FieldIssuesIff(body, isEmail, Message);
        FieldIssuesIff(body, isEmail, TurnstileResponse);
      }
    }
  }
}

=== FILE: contact_service.dfy ===
/** `handleContactRequests`: the worker's `/contact` pipeline after the
    schema has accepted the body. It verifies the Turnstile token, asks the
    rate limiter about the sender's email, stores the message and sends two
    emails. Unlike `/join` there is no duplicate rule. */
module ContactService {
  import opened Wrappers
  import opened JsValues
  import opened Text
  import opened Http
  import opened Turnstile
  import opened Mail
  import opened ContactSchema
  import HtmlEntities

  datatype ContactRow = ContactRow(name: string, email: string, subject: string, message: string, timestamp: string)

  type Messages = seq<ContactRow>

  /** Everything a request learns from outside: the siteverify call, the rate
      limiter binding's answer per key, whether the insert throws, whether the
      mail provider accepts a message, and the ISO timestamp of the request */
  datatype World = World(
    siteverify: SiteverifyRequest -> ProviderReply,
    limiterAllows: string -> bool,
    insertThrows: bool,
    mailer: Email -> bool,
    timestamp: string)

  datatype Effect =
    | Verify(request: SiteverifyRequest)
    | Limit(key: string)
    | Insert(row: ContactRow)
    | Send(email: Email)

  datatype Outcome = Outcome(response: Response, store: Messages, effects: seq<Effect>)

  const Sent: string := "Message sent successfully"
  const DelayedWarning: string := "Message received but notifications may be delayed"

  /** The stored row: name, subject and message trimmed, the email as received */
  function RowFor(data: ContactValidated, timestamp: string): (row: ContactRow)
    ensures row.name == Trim(data.name) && row.subject == Trim(data.subject)
    ensures row.message == Trim(data.message) && row.email == data.email
    ensures row.timestamp == timestamp
  {
    ContactRow(Trim(data.name), data.email, Trim(data.subject), Trim(data.message), timestamp)
  }

  /** The team subject carries the first 80 characters of the subject */
  function TeamSubject(subject: string): (r: string)
    ensures exists head :: (r == "New Contact Message: " + head && StartsWith(subject, head)
      && |head| == (if |subject| < 80 then |subject| else 80))
  {
    "New Contact Message: " + Take(subject, 80)
  }

  const TeamPieces: seq<string> := [
    "\n\t\t\t<h2>New Contact Message</h2>\n\t\t\t<p><strong>Name:</strong> ",
    "</p>\n\t\t\t<p><strong>Email:</strong> ",
    "</p>\n\t\t\t<p><strong>Subject:</strong> ",
    "</p>\n\t\t\t<p><strong>Message:</strong></p>\n\t\t\t<p>",
    "</p>\n\t\t\t<p><strong>Submitted:</strong> ",
    "</p>\n\t\t"]

  const AcknowledgementPieces: seq<string> := [
    "\n\t\t\t<p>Hi ",
    ",</p>\n\t\t\t<p>Thank you for contacting STEM Gharbiya. We received your message.</p>\n\t\t\t<p><strong>Summary:</strong></p>\n\t\t\t<ul>\n\t\t\t\t<li><strong>Subject:</strong> ",
    "</li>\n\t\t\t\t<li><strong>Message:</strong> ",
    "</li>\n\t\t\t</ul>\n\t\t\t<p>Our team will review your message and get back to you as soon as possible.</p>\n\t\t\t<p>STEM Gharbiya Team</p>\n\t\t"]

  /** A rendered message: its only tags are the `<br/>` written for its line
      breaks */
  predicate RenderedFrom(h: string, m: string) {
    && '"' !in h && '\'' !in h
    && multiset(h)['<'] == multiset(m)['\n']
    && multiset(h)['>'] == multiset(m)['\n']
  }

  function RenderMessage(m: string): (h: string)
    ensures h == HtmlEntities.MessageHtmlRef(m)
    ensures RenderedFrom(h, m)
  {
    HtmlEntities.MessageToHtmlCharwise(m);
    HtmlEntities.MessageTagsAreLineBreaks(m);
    HtmlEntities.MessageToHtml(m)
  }

  /** The values placed in the team email, in template order */
  datatype TeamValues = TeamValues(name: string, email: string, subject: string, message: string, date: string)
  {
    function Holes(): seq<string> { [name, email, subject, message, date] }
  }

  /** The values placed in the acknowledgement, in template order */
  datatype AcknowledgementValues = AcknowledgementValues(name: string, subject: string, message: string)
  {
    function Holes(): seq<string> { [name, subject, message] }
  }

  /** The fields as received (not trimmed), escaped; the message rendered */
  function TeamHoles(data: ContactValidated, timestamp: string): (h: TeamValues)
    ensures EscapedFrom(h.name, data.name) && EscapedFrom(h.email, data.email)
    ensures EscapedFrom(h.subject, data.subject) && RenderedFrom(h.message, data.message)
    ensures h.date == Take(timestamp, 10)
  {
    TeamValues(Escaped(data.name), Escaped(data.email), Escaped(data.subject), RenderMessage(data.message),
               Take(timestamp, 10))
  }

  function AcknowledgementHoles(data: ContactValidated): (h: AcknowledgementValues)
    ensures EscapedFrom(h.name, data.name) && EscapedFrom(h.subject, data.subject)
    ensures RenderedFrom(h.message, data.message)
  {
    AcknowledgementValues(Escaped(data.name), Escaped(data.subject), RenderMessage(data.message))
  }

  /** `sendTeamContactEmail`: to the team address */
  function TeamEmail(data: ContactValidated, timestamp: string, env: Env): Email {
    Email(env.senderEmail, [env.teamEmail], TeamSubject(data.subject),
          Fill(TeamPieces, TeamHoles(data, timestamp).Holes()))
  }

  /** `sendContactAcknowledgementEmail`: to the sender */
  function AcknowledgementEmail(data: ContactValidated, env: Env): Email {
    Email(env.senderEmail, [data.email], "Message Received - STEM Gharbiya",
          Fill(AcknowledgementPieces, AcknowledgementHoles(data).Holes()))
  }

  datatype Notification = Notification(allFulfilled: bool, handedOver: seq<Email>)

  /** Both sends are attempted whatever the other's fate (`Promise.allSettled`) */
  function Notify(data: ContactValidated, env: Env, w: World): Notification {
    var team := SendResendEmail(TeamEmail(data, w.timestamp, env), env, w.mailer);
    var ack := SendResendEmail(AcknowledgementEmail(data, env), env, w.mailer);
    Notification(team.fulfilled && ack.fulfilled, team.handedOver + ack.handedOver)
  }

  function SentEffects(emails: seq<Email>): (effects: seq<Effect>)
    ensures |effects| == |emails|
    ensures forall i :: 0 <= i < |effects| ==> effects[i] == Send(emails[i])
  {
    seq(|emails|, i requires 0 <= i < |emails| => Send(emails[i]))
  }

  function VerifyEffects(calls: seq<SiteverifyRequest>): (effects: seq<Effect>)
    ensures |effects| == |calls|
    ensures forall i :: 0 <= i < |calls| ==> effects[i] == Verify(calls[i])
  {
    seq(|calls|, i requires 0 <= i < |calls| => Verify(calls[i]))
  }

  /** Turnstile and the limiter both let the request through */
  predicate Cleared(env: Env, data: ContactValidated, ip: string, w: World) {
    && VerifyTurnstile(Str(data.turnstileToken), env.turnstileSecretKey, ip, w.siteverify).rejection.None?
    && w.limiterAllows(data.email)
  }

  /** The stages up to and including the insert all pass */
  predicate Admitted(env: Env, data: ContactValidated, ip: string, w: World) {
    env.hasDb && Cleared(env, data, ip, w) && !w.insertThrows
  }

  datatype Screening = Refused(response: Response, effects: seq<Effect>) | Passed(effects: seq<Effect>)

  /** Turnstile, then the limiter keyed by the sender's email */
  function Screen(env: Env, data: ContactValidated, ip: string, w: World): (s: Screening)
    ensures s.Passed? <==> Cleared(env, data, ip, w)
    ensures s.Refused? ==> s.response.status in {400, 429, 500, 503}
    ensures s.Refused? && s.response.status == 429 <==>
      VerifyTurnstile(Str(data.turnstileToken), env.turnstileSecretKey, ip, w.siteverify).rejection.None?
      && !w.limiterAllows(data.email)
  {
    var v := VerifyTurnstile(Str(data.turnstileToken), env.turnstileSecretKey, ip, w.siteverify);
    var verified := VerifyEffects(v.calls);
    if v.rejection.Some? then
      RejectionsAreGeneric(Str(data.turnstileToken), env.turnstileSecretKey, ip, w.siteverify);
      Refused(v.rejection.value, verified)
    else if !w.limiterAllows(data.email) then
      Refused(ErrorResponse(429, TooManyRequests), verified + [Limit(data.email)])
    else Passed(verified + [Limit(data.email)])
  }

  /** `handleContactRequests(c)` for a body the schema accepted */
  function HandleContact(env: Env, data: ContactValidated, ip: string, store: Messages, w: World): (o: Outcome)
    ensures !env.hasDb ==> o == Outcome(ErrorResponse(500, ServiceUnavailable), store, [])
    ensures o.response.status == 200 <==> Admitted(env, data, ip, w)
    ensures o.response.status != 200 ==> o.store == store
    ensures o.response.status == 200 ==> o.store == store + [RowFor(data, w.timestamp)]
  {
    if !env.hasDb then Outcome(ErrorResponse(500, ServiceUnavailable), store, [])
    else
      match Screen(env, data, ip, w)
      case Refused(response, effects) => Outcome(response, store, effects)
      case Passed(effects) =>
        if w.insertThrows then Outcome(ErrorResponse(500, ServiceUnavailable), store, effects)
        else
          var row := RowFor(data, w.timestamp);
          var n := Notify(data, env, w);
          var warning := if n.allFulfilled then None else Some(DelayedWarning);
          Outcome(SuccessResponse(Sent, warning), store + [row],
                  effects + [Insert(row)] + SentEffects(n.handedOver))
  }

  /** The response to an admitted message */
  lemma AdmittedResponse(env: Env, data: ContactValidated, ip: string, store: Messages, w: World)
    requires Admitted(env, data, ip, w)
    ensures HandleContact(env, data, ip, store, w).response ==
      SuccessResponse(Sent, if Notify(data, env, w).allFulfilled then None else Some(DelayedWarning))
  {
    var s := Screen(env, data, ip, w);
    assert s.Passed?;
    var row, n := RowFor(data, w.timestamp), Notify(data, env, w);
    var warning := if n.allFulfilled then None else Some(DelayedWarning);
    assert HandleContact(env, data, ip, store, w)
        == Outcome(SuccessResponse(Sent, warning), store + [row], s.effects + [Insert(row)] + SentEffects(n.handedOver));
  }

  /** After a 200 the response carries a warning exactly when a send did not
      fulfil; the stored row is there either way. */
  lemma WarningIffSendFailed(env: Env, data: ContactValidated, ip: string, store: Messages, w: World)
    requires Admitted(env, data, ip, w)
    ensures var o := HandleContact(env, data, ip, store, w);
      && o.response.status == 200
      && o.store == store + [RowFor(data, w.timestamp)]
      && ("warning" in o.response.body <==> !Notify(data, env, w).allFulfilled)
  {
    AdmittedResponse(env, data, ip, store, w);
    SuccessWarning(Sent, if Notify(data, env, w).allFulfilled then None else Some(DelayedWarning));
  }

  /** The mail provider decides only the warning, never the store or status */
  lemma MailerCannotUndoInsert(env: Env, data: ContactValidated, ip: string, store: Messages, w: World,
                               mailer: Email -> bool)
    ensures var o1 := HandleContact(env, data, ip, store, w);
      var o2 := HandleContact(env, data, ip, store, w.(mailer := mailer));
      o1.store == o2.store && o1.response.status == o2.response.status
  {
    assert Screen(env, data, ip, w) == Screen(env, data, ip, w.(mailer := mailer));
  }

  /** There is no duplicate rule: the outcome does not depend on what is
      stored, so the same message sent twice is stored twice. */
  lemma {:induction false} RepeatedMessageStoredTwice(env: Env, data: ContactValidated, ip: string, store: Messages,
                                                     w: World, w2: World)
    requires Admitted(env, data, ip, w) && Admitted(env, data, ip, w2)
    ensures var once := HandleContact(env, data, ip, store, w).store;
      var twice := HandleContact(env, data, ip, once, w2).store;
      && |twice| == |store| + 2
      && twice[|store|] == RowFor(data, w.timestamp)
      && twice[|store| + 1] == RowFor(data, w2.timestamp)
  {
    var once := HandleContact(env, data, ip, store, w).store;
    assert once == store + [RowFor(data, w.timestamp)];
    var twice := HandleContact(env, data, ip, once, w2).store;
    assert twice == once + [RowFor(data, w2.timestamp)];
  }

  /** Which stages a request clears never depends on the stored messages */
  lemma StatusIgnoresStore(env: Env, data: ContactValidated, ip: string, a: Messages, b: Messages, w: World)
    ensures HandleContact(env, data, ip, a, w).response == HandleContact(env, data, ip, b, w).response
  {
  }
}

=== FILE: forms_data.dfy ===
/** Shared form constants: field length caps and the interests a join
    application may list. */
module FormsData {

  const MaxFullName: nat := 100
  const MaxSchoolEmail: nat := 100
  const MaxGithubUsername: nat := 39
  const MaxSeniorYear: nat := 10
  const MaxMotivation: nat := 2000

  const AllowedInterests: seq<string> := [
    "Web Development",
    "Mobile Development",
    "Machine Learning",
    "Data Science",
    "Cybersecurity",
    "Game Development",
    "Open Source",
    "DevOps"
  ]

  /** The institutional domain every join form checks for, written out in the
      server schema, the legacy handler, both join clients and the student
      e-mail pattern */
  const SchoolDomain: string := "@stemgharbiya.moe.edu.eg"
}

=== FILE: html_entities.dfy ===
/** HTML escaping of user text before it is placed in a notification email.
    Every copy of `escapeHtml` in the site runs the same five global
    replacements, `&` first; this module holds that chain, a one-character-at-a-
    time reference definition, and the decoder that inverts it. */
module HtmlEntities {
  import opened Text

  /** The entity written for one character */
  function EscapeChar(c: char): string {
    if c == '&' then "&amp;"
    else if c == '<' then "&lt;"
    else if c == '>' then "&gt;"
    else if c == '"' then "&quot;"
    else if c == '\'' then "&#039;"
    else [c]
  }

  /** Reference definition: each character replaced by its entity */
  function Escape(s: string): (r: string)
    ensures '<' !in r && '>' !in r && '"' !in r && '\'' !in r
    ensures |r| >= |s|
  {
    if |s| == 0 then "" else EscapeChar(s[0]) + Escape(s[1..])
  }

  /** The five `.replace(/x/g, entity)` calls, in the order the source makes them */
  function ReplaceChain(s: string): string {
    ReplaceAll(ReplaceAll(ReplaceAll(ReplaceAll(ReplaceAll(s,
      '&', "&amp;"), '<', "&lt;"), '>', "&gt;"), '"', "&quot;"), '\'', "&#039;")
  }

  lemma ReplaceChainConcat(a: string, b: string)
    ensures ReplaceChain(a + b) == ReplaceChain(a) + ReplaceChain(b)
  {
    var s1a, s1b := ReplaceAll(a, '&', "&amp;"), ReplaceAll(b, '&', "&amp;");
    ReplaceAllConcat(a, b, '&', "&amp;");
    var s2a, s2b := ReplaceAll(s1a, '<', "&lt;"), ReplaceAll(s1b, '<', "&lt;");
    ReplaceAllConcat(s1a, s1b, '<', "&lt;");
    var s3a, s3b := ReplaceAll(s2a, '>', "&gt;"), ReplaceAll(s2b, '>', "&gt;");
    ReplaceAllConcat(s2a, s2b, '>', "&gt;");
    var s4a, s4b := ReplaceAll(s3a, '"', "&quot;"), ReplaceAll(s3b, '"', "&quot;");
    ReplaceAllConcat(s3a, s3b, '"', "&quot;");
    ReplaceAllConcat(s4a, s4b, '\'', "&#039;");
  }

  lemma ReplaceAllOne(c: char, x: char, rep: string)
    ensures ReplaceAll([c], x, rep) == if c == x then rep else [c]
  {
    assert [c][1..] == "";
  }

  predicate IsSpecial(c: char) {
    c == '&' || c == '<' || c == '>' || c == '"' || c == '\''
  }

  /** The last four replacements leave an entity string alone when it holds
      none of the characters they look for. */
  lemma ChainTailAbsent(e: string, from: nat)
    requires 1 <= from <= 5
    requires from <= 1 ==> '<' !in e
    requires from <= 2 ==> '>' !in e
    requires from <= 3 ==> '"' !in e
    requires '\'' !in e
    ensures from == 1 ==> ReplaceAll(ReplaceAll(ReplaceAll(ReplaceAll(e, '<', "&lt;"), '>', "&gt;"), '"', "&quot;"), '\'', "&#039;") == e
    ensures from == 2 ==> ReplaceAll(ReplaceAll(ReplaceAll(e, '>', "&gt;"), '"', "&quot;"), '\'', "&#039;") == e
    ensures from == 3 ==> ReplaceAll(ReplaceAll(e, '"', "&quot;"), '\'', "&#039;") == e
    ensures ReplaceAll(e, '\'', "&#039;") == e
  {
    ReplaceAllAbsent(e, '\'', "&#039;");
    if from <= 3 { ReplaceAllAbsent(e, '"', "&quot;"); }
    if from <= 2 { ReplaceAllAbsent(e, '>', "&gt;"); }
    if from <= 1 { ReplaceAllAbsent(e, '<', "&lt;"); }
  }

  /** On one character the chain writes exactly that character's entity: the
      entities written by an earlier replacement contain none of the
      characters a later one looks for. */
  lemma ReplaceChainChar(c: char)
    ensures ReplaceChain([c]) == EscapeChar(c)
  {
    var s1 := ReplaceAll([c], '&', "&amp;");
    ReplaceAllOne(c, '&', "&amp;");
    if c == '&' {
      ChainTailAbsent("&amp;", 1);
      return;
    }
    var s2 := ReplaceAll(s1, '<', "&lt;");
    ReplaceAllOne(c, '<', "&lt;");
    if c == '<' {
      ChainTailAbsent("&lt;", 2);
      return;
    }
    var s3 := ReplaceAll(s2, '>', "&gt;");
    ReplaceAllOne(c, '>', "&gt;");
    if c == '>' {
      ChainTailAbsent("&gt;", 3);
      return;
    }
    var s4 := ReplaceAll(s3, '"', "&quot;");
    ReplaceAllOne(c, '"', "&quot;");
    if c == '"' {
      ChainTailAbsent("&quot;", 4);
      return;
    }
    ReplaceAllOne(c, '\'', "&#039;");
  }

  /** The replace chain and the character-wise definition agree on every string;
      in particular no `&` written by an entity is escaped a second time. */
  lemma {:induction false} ReplaceChainIsEscape(s: string)
    ensures ReplaceChain(s) == Escape(s)
    decreases |s|
  {
    if |s| == 0 {
      assert ReplaceChain(s) == "";
    } else {
      assert s == [s[0]] + s[1..];
      ReplaceChainConcat([s[0]], s[1..]);
      ReplaceChainChar(s[0]);
      ReplaceChainIsEscape(s[1..]);
    }
  }

  /** The entity at the start of t, as (character, entity length); length 0
      when t does not start with one of the five entities */
  function EntityAt(t: string): (r: (char, nat))
    ensures r.1 <= |t|
  {
    if StartsWith(t, "&amp;") then ('&', 5)
    else if StartsWith(t, "&lt;") then ('<', 4)
    else if StartsWith(t, "&gt;") then ('>', 4)
    else if StartsWith(t, "&quot;") then ('"', 6)
    else if StartsWith(t, "&#039;") then ('\'', 6)
    else (' ', 0)
  }

  /** Decodes the five entities `Escape` writes; any other text is copied */
  function Unescape(t: string): string {
    if |t| == 0 then ""
    else
      var (c, n) := EntityAt(t);
      if n > 0 then [c] + Unescape(t[n..]) else [t[0]] + Unescape(t[1..])
  }

  lemma EntityAtEscaped(c: char, rest: string)
    ensures EntityAt(EscapeChar(c) + rest) == if IsSpecial(c) then (c, |EscapeChar(c)|) else (' ', 0)
  {
    var e := EscapeChar(c);
    var t := e + rest;
    assert t[..|e|] == e;
    if !IsSpecial(c) {
      assert t[0] == c && c != '&';
    } else if c == '&' {
      assert e == "&amp;";
    } else if c == '<' {
      assert e == "&lt;" && t[1] == 'l';
    } else if c == '>' {
      assert e == "&gt;" && t[1] == 'g';
    } else if c == '"' {
      assert e == "&quot;" && t[1] == 'q';
    } else {
      assert e == "&#039;" && t[1] == '#';
    }
  }

  lemma UnescapeEntity(c: char, rest: string)
    ensures Unescape(EscapeChar(c) + rest) == [c] + Unescape(rest)
  {
    var t := EscapeChar(c) + rest;
    EntityAtEscaped(c, rest);
    if IsSpecial(c) {
      assert t[|EscapeChar(c)|..] == rest;
    } else {
      assert t[0] == c && t[1..] == rest;
    }
  }

  /** Escaping loses nothing: decoding the escaped text gives back the input. */
  lemma {:induction false} UnescapeEscape(s: string)
    ensures Unescape(Escape(s)) == s
    decreases |s|
  {
    if |s| > 0 {
      UnescapeEntity(s[0], Escape(s[1..]));
      UnescapeEscape(s[1..]);
      assert s == [s[0]] + s[1..];
    }
  }

  /** `escapeHtml(m).replace(/\n/g, "<br/>")`, the rendering of a contact
      message in both contact emails */
  function MessageToHtml(m: string): string {
    ReplaceAll(Escape(m), '\n', "<br/>")
  }

  /** Character-wise reference for the message rendering: line breaks become
      `<br/>` and everything else is escaped, so the only markup in the output
      is the line breaks the replacement inserted after escaping. */
  function MessageCharHtml(c: char): string {
    if c == '\n' then "<br/>" else EscapeChar(c)
  }

  function MessageHtmlRef(m: string): string {
    if |m| == 0 then "" else MessageCharHtml(m[0]) + MessageHtmlRef(m[1..])
  }

  lemma NewlinesInEntity(c: char)
    ensures ReplaceAll(EscapeChar(c), '\n', "<br/>") == MessageCharHtml(c)
  {
    if c == '\n' {
      ReplaceAllOne(c, '\n', "<br/>");
    } else if IsSpecial(c) {
      ReplaceAllAbsent(EscapeChar(c), '\n', "<br/>");
    } else {
      ReplaceAllOne(c, '\n', "<br/>");
    }
  }

  lemma {:induction false} MessageToHtmlCharwise(m: string)
    ensures MessageToHtml(m) == MessageHtmlRef(m)
    decreases |m|
  {
    if |m| > 0 {
      assert Escape(m) == EscapeChar(m[0]) + Escape(m[1..]);
      ReplaceAllConcat(EscapeChar(m[0]), Escape(m[1..]), '\n', "<br/>");
      NewlinesInEntity(m[0]);
      MessageToHtmlCharwise(m[1..]);
    }
  }

  /** The rendered message holds one `<` and one `>` per line break of the
      message and no quote: every other character was escaped before the
      line breaks were inserted. */
  lemma {:induction false} MessageTagsAreLineBreaks(m: string)
    ensures '"' !in MessageToHtml(m) && '\'' !in MessageToHtml(m)
    ensures multiset(MessageToHtml(m))['<'] == multiset(m)['\n']
    ensures multiset(MessageToHtml(m))['>'] == multiset(m)['\n']
  {
    MessageToHtmlCharwise(m);
    RefTagsAreLineBreaks(m);
  }

  lemma CharTags(c: char)
    ensures '"' !in MessageCharHtml(c) && '\'' !in MessageCharHtml(c)
    ensures multiset(MessageCharHtml(c))['<'] == multiset([c])['\n']
    ensures multiset(MessageCharHtml(c))['>'] == multiset([c])['\n']
  {
    var h := MessageCharHtml(c);
    if c == '\n' {
      assert h == ['<', 'b', 'r', '/', '>'];
      assert multiset(h) == multiset{'<', 'b', 'r', '/', '>'};
    } else {
      assert Escape([c]) == EscapeChar(c) + Escape([]);
      assert '<' !in h && '>' !in h;
      assert multiset([c])['\n'] == 0;
    }
  }

  lemma {:induction false} RefTagsAreLineBreaks(m: string)
    ensures '"' !in MessageHtmlRef(m) && '\'' !in MessageHtmlRef(m)
    ensures multiset(MessageHtmlRef(m))['<'] == multiset(m)['\n']
    ensures multiset(MessageHtmlRef(m))['>'] == multiset(m)['\n']
    decreases |m|
  {
    if |m| > 0 {
      RefTagsAreLineBreaks(m[1..]);
      CharTags(m[0]);
      assert m == [m[0]] + m[1..];
      assert multiset(m) == multiset([m[0]]) + multiset(m[1..]);
      assert multiset(MessageHtmlRef(m)) == multiset(MessageCharHtml(m[0])) + multiset(MessageHtmlRef(m[1..]));
    }
  }
}

=== FILE: http.dfy ===
/** Responses and the request environment shared by the worker handlers and
    the legacy Pages function. A response is its status and its JSON body. */
module Http {
  import opened Wrappers
  import opened JsValues
  import opened Text

  datatype Response = Response(status: int, body: map<string, JsValue>)

  /** `{ error: message }` with the given status */
  function ErrorResponse(status: int, message: string): Response {
    Response(status, map["error" := Str(message)])
  }

  /** `{ success: true, message }`, plus `warning` when there is one */
  function SuccessResponse(message: string, warning: Option<string>): Response {
    var body := map["success" := Bool(true), "message" := Str(message)];
    Response(200, if warning.Some? then body["warning" := Str(warning.value)] else body)
  }

  /** A success body names a warning exactly when one is given */
  lemma SuccessWarning(message: string, warning: Option<string>)
    ensures SuccessResponse(message, warning).status == 200
    ensures "warning" in SuccessResponse(message, warning).body <==> warning.Some?
  {
  }

  const ServiceUnavailable: string := "Service temporarily unavailable"
  const TooManyRequests: string := "Too many requests, try again later"

  /** The bindings a handler reads. A variable that is not configured reads
      as "" here: every test the source makes on these is a truthiness test or
      an equality with a non-empty literal, on which `undefined` and "" agree. */
  datatype Env = Env(
    hasDb: bool,
    resendApiKey: string,
    senderEmail: string,
    teamEmail: string,
    turnstileSiteKey: string,
    turnstileSecretKey: string,
    disableEmails: string,
    appEnv: string,
    autoCreateDb: string,
    corsOrigin: JsValue)

  /** The client address: `CF-Connecting-IP`, else the first comma-separated
      piece of `X-Forwarded-For` (untrimmed), else "unknown" */
  function ClientIp(cfConnectingIp: Option<string>, forwardedFor: Option<string>): (ip: string)
    ensures ip != ""
    ensures cfConnectingIp.Some? && cfConnectingIp.value != "" ==> ip == cfConnectingIp.value
    ensures !(cfConnectingIp.Some? && cfConnectingIp.value != "") ==>
      if forwardedFor.Some? && forwardedFor.value != "" && forwardedFor.value[0] != ',' then
        var ff := forwardedFor.value;
        StartsWith(ff, ip) && ',' !in ip && (|ip| == |ff| || ff[|ip|] == ',')
      else ip == "unknown"
  {
    if cfConnectingIp.Some? && cfConnectingIp.value != "" then cfConnectingIp.value
    else if forwardedFor.Some? && Split(forwardedFor.value, ',')[0] != "" then
      SplitFirst(forwardedFor.value, ',');
      Split(forwardedFor.value, ',')[0]
    else
      if forwardedFor.Some? then SplitFirst(forwardedFor.value, ','); "unknown" else "unknown"
  }
}

=== FILE: indexnow.dfy ===
/** The IndexNow submission script: collecting the site's URLs from the built
    sitemaps, choosing the IndexNow key, and sending the URLs in batches.
    File contents, directory listings, URL parsing and the endpoint's answers
    are parameters; a read that throws is `None`. */
module IndexNow {
  import opened Wrappers
  import opened Text

  const LocOpen: string := "<loc>"
  const LocClose: string := "</loc>"
  const DefaultBatchSize: nat := 1000
  const PreviewCount: nat := 10
  const NoKeyMessage: string :=
    "Could not detect IndexNow key. Set INDEXNOW_KEY or INDEXNOW_KEY_FILE, or add a public/<key>.txt file with key content."

  /** An environment variable that is set to a non-empty string */
  predicate IsSet(v: Option<string>) { v.Some? && v.value != "" }

  // ---------------------------------------------------------------- chunkArray

  /** The chunks laid end to end */
  function Flatten<T>(chunks: seq<seq<T>>): seq<T> {
    if |chunks| == 0 then [] else Flatten(chunks[..|chunks| - 1]) + chunks[|chunks| - 1]
  }

  lemma FlattenSnoc<T>(chunks: seq<seq<T>>, c: seq<T>)
    ensures Flatten(chunks + [c]) == Flatten(chunks) + c
  {
    assert (chunks + [c])[..|chunks|] == chunks;
  }

  /** Fewer chunks give a prefix of the whole. */
  lemma {:induction false} FlattenPrefix<T>(chunks: seq<seq<T>>, i: nat)
    requires i <= |chunks|
    ensures Flatten(chunks[..i]) <= Flatten(chunks)
    decreases |chunks| - i
  {
    if i < |chunks| {
      FlattenPrefix(chunks, i + 1);
      assert chunks[..i + 1] == chunks[..i] + [chunks[i]];
      FlattenSnoc(chunks[..i], chunks[i]);
    } else {
      assert chunks[..i] == chunks;
    }
  }

  /** c chunks of at most `size` items, all but the last full, hold n items
      exactly when c is n divided by size, rounded up. */
  lemma CeilCount(n: nat, size: nat, c: nat)
    requires size >= 1
    requires c * size >= n && (c == 0 || (c - 1) * size < n)
    ensures c == (n + size - 1) / size
  {
    var q := (n + size - 1) / size;
    assert q * size <= n + size - 1 < (q + 1) * size;
    if c > q {
      assert (c - 1) * size >= q * size by { MulMono(q, c - 1, size); }
    } else if c < q {
      assert c * size <= (q - 1) * size by { MulMono(c, q - 1, size); }
    }
  }

  lemma MulMono(a: nat, b: nat, size: nat)
    requires a <= b
    ensures a * size <= b * size
  {
  }

  /** Reference chunking, front to back: `size` items at a time, the rest last */
  function Chunks<T>(items: seq<T>, size: nat): seq<seq<T>>
    requires size >= 1
    decreases |items|
  {
    if |items| == 0 then []
    else if |items| <= size then [items]
    else [items[..size]] + Chunks(items[size..], size)
  }

  lemma {:induction false} FlattenCons<T>(c: seq<T>, rest: seq<seq<T>>)
    ensures Flatten([c] + rest) == c + Flatten(rest)
    decreases |rest|
  {
    if |rest| > 0 {
      var init := rest[..|rest| - 1];
      assert ([c] + rest)[..|rest|] == [c] + init;
      FlattenCons(c, init);
    }
  }

  /** Laying the reference chunks end to end gives back the items. */
  lemma {:induction false} FlattenChunks<T>(items: seq<T>, size: nat)
    requires size >= 1
    ensures Flatten(Chunks(items, size)) == items
    decreases |items|
  {
    if |items| > size {
      FlattenChunks(items[size..], size);
      FlattenCons(items[..size], Chunks(items[size..], size));
      assert items == items[..size] + items[size..];
    } else if |items| > 0 {
      assert Flatten([items]) == Flatten([items][..0]) + items;
    }
  }

  /** Any chunking whose pieces are non-empty, at most `size` long and full
      except the last, and which lays out to the items, is the reference one. */
  lemma {:induction false} ChunksUnique<T>(items: seq<T>, size: nat, chunks: seq<seq<T>>)
    requires size >= 1
    requires Flatten(chunks) == items
    requires forall k :: 0 <= k < |chunks| ==> 0 < |chunks[k]| <= size
    requires forall k :: 0 <= k < |chunks| - 1 ==> |chunks[k]| == size
    ensures chunks == Chunks(items, size)
    decreases |chunks|
  {
    if |chunks| > 0 {
      var rest := chunks[1..];
      assert chunks == [chunks[0]] + rest;
      FlattenCons(chunks[0], rest);
      if |rest| == 0 {
        assert Flatten(rest) == [];
        assert items == chunks[0];
        assert Chunks(items, size) == [items];
      } else {
        assert |Flatten(rest)| > 0 by {
          assert rest == rest[..|rest| - 1] + [rest[|rest| - 1]];
          FlattenSnoc(rest[..|rest| - 1], rest[|rest| - 1]);
        }
        assert items[..size] == chunks[0];
        assert items[size..] == Flatten(rest);
        ChunksUnique(items[size..], size, rest);
      }
    }
  }

  /** One turn of `chunkArray`'s loop keeps its invariant. */
  lemma ChunkStep<T>(items: seq<T>, size: nat, chunks: seq<seq<T>>, index: nat)
    requires size >= 1 && index < |items|
    requires index == |chunks| * size
    requires Flatten(chunks) == items[..index]
    requires forall k :: 0 <= k < |chunks| ==> |chunks[k]| == size
    ensures var end := if index + size < |items| then index + size else |items|;
      var next := chunks + [items[index..end]];
      && index + size == |next| * size
      && Flatten(next) == items[..if index + size < |items| then index + size else |items|]
      && (forall k :: 0 <= k < |next| ==> 0 < |next[k]| <= size)
      && (index + size <= |items| ==> forall k :: 0 <= k < |next| ==> |next[k]| == size)
      && (|next| - 1) * size < |items|
  {
    var end := if index + size < |items| then index + size else |items|;
    FlattenSnoc(chunks, items[index..end]);
    assert items[..end] == items[..index] + items[index..end];
  }

  /** `chunkArray(items, size)` for a positive size: consecutive slices of
      `size` items, the last possibly shorter. */
  method ChunkArray<T>(items: seq<T>, size: nat) returns (chunks: seq<seq<T>>)
    requires size >= 1
    ensures Flatten(chunks) == items
    ensures forall k :: 0 <= k < |chunks| ==> 0 < |chunks[k]| <= size
    ensures forall k :: 0 <= k < |chunks| - 1 ==> |chunks[k]| == size
    ensures |chunks| == (|items| + size - 1) / size
    ensures chunks == Chunks(items, size)
  {
    chunks := [];
    var index := 0;
    while index < |items|
      invariant index == |chunks| * size
      invariant Flatten(chunks) == items[..if index < |items| then index else |items|]
      invariant forall k :: 0 <= k < |chunks| ==> 0 < |chunks[k]| <= size
      invariant forall k :: 0 <= k < |chunks| - 1 ==> |chunks[k]| == size
      invariant index <= |items| ==> forall k :: 0 <= k < |chunks| ==> |chunks[k]| == size
      invariant |chunks| == 0 || (|chunks| - 1) * size < |items|
    {
      var end := if index + size < |items| then index + size else |items|;
      ChunkStep(items, size, chunks, index);
      chunks := chunks + [items[index..end]];
      index := index + size;
    }
    assert items[..|items|] == items;
    CeilCount(|items|, size, |chunks|);
    ChunksUnique(items, size, chunks);
  }

  // ---------------------------------------------------------- extractLocValues

  /** Where the lazy `(.*?)<\/loc>` stops: the first "</loc>" reached without
      crossing a line terminator, since `.` does not match one. */
  function CloseAt(t: string): (r: Option<nat>)
    ensures r.Some? ==> r.value + |LocClose| <= |t| && t[r.value..r.value + |LocClose|] == LocClose
    ensures r.Some? ==> forall k :: 0 <= k < r.value ==> !IsLineTerminator(t[k])
    decreases |t|
  {
    if StartsWith(t, LocClose) then Some(0)
    else if t == "" || IsLineTerminator(t[0]) then None
    else
      match CloseAt(t[1..])
      case None => None
      case Some(j) =>
        CloseOneLater(t, j);
        Some(j + 1)
  }

  /** A close found in the tail, after a first character that is not a line
      terminator, is a close of the whole text one place later. */
  lemma CloseOneLater(t: string, j: nat)
    requires t != "" && !IsLineTerminator(t[0])
    requires j + |LocClose| <= |t[1..]| && t[1..][j..j + |LocClose|] == LocClose
    requires forall k :: 0 <= k < j ==> !IsLineTerminator(t[1..][k])
    ensures j + 1 + |LocClose| <= |t| && t[j + 1..j + 1 + |LocClose|] == LocClose
    ensures forall k :: 0 <= k < j + 1 ==> !IsLineTerminator(t[k])
  {
    assert t[j + 1..j + 1 + |LocClose|] == t[1..][j..j + |LocClose|];
    assert forall k :: 1 <= k < j + 1 ==> t[k] == t[1..][k - 1];
  }

  /** The capture group of every match of `/<loc>(.*?)<\/loc>/g`, in order;
      a failed attempt resumes one character later, a match after its end. */
  function LocContents(s: string): (r: seq<string>)
    ensures forall i :: 0 <= i < |r| ==> forall k :: 0 <= k < |r[i]| ==> !IsLineTerminator(r[i][k])
    decreases |s|
  {
    if |s| < |LocOpen| then []
    else if StartsWith(s, LocOpen) then
      match CloseAt(s[|LocOpen|..])
      case Some(j) =>
        [s[|LocOpen|..|LocOpen| + j]] + LocContents(s[|LocOpen| + j + |LocClose|..])
      case None => LocContents(s[1..])
    else LocContents(s[1..])
  }

  /** `extractLocValues`: the captures trimmed, blank ones dropped */
  function ExtractLocValues(xml: string): (r: seq<string>)
    ensures forall i :: 0 <= i < |r| ==> TrimmedPiece(r[i])
  {
    TrimmedNonEmpty(LocContents(xml))
  }

  /** A sitemap entry `<loc>u</loc>` */
  function LocElement(u: string): string { LocOpen + u + LocClose }

  /** Sitemap text listing the given URLs, one element after another */
  function RenderLocs(urls: seq<string>): string
    decreases |urls|
  {
    if |urls| == 0 then "" else LocElement(urls[0]) + RenderLocs(urls[1..])
  }

  /** A URL as it appears in a sitemap: trimmed, non-empty, on one line and
      free of markup */
  predicate PlainUrl(u: string) {
    TrimmedPiece(u) && '<' !in u && forall k :: 0 <= k < |u| ==> !IsLineTerminator(u[k])
  }

  lemma {:induction false} CloseAfterPlain(u: string, rest: string)
    requires '<' !in u
    requires forall k :: 0 <= k < |u| ==> !IsLineTerminator(u[k])
    ensures CloseAt(u + LocClose + rest) == Some(|u|)
    decreases |u|
  {
    var t := u + LocClose + rest;
    if u == "" {
      assert t[..|LocClose|] == LocClose;
    } else {
      assert t[0] == u[0];
      assert !StartsWith(t, LocClose);
      assert t[1..] == u[1..] + LocClose + rest;
      CloseAfterPlain(u[1..], rest);
    }
  }

  lemma {:induction false} LocContentsOfRendered(urls: seq<string>)
    requires forall i :: 0 <= i < |urls| ==> PlainUrl(urls[i])
    ensures LocContents(RenderLocs(urls)) == urls
    decreases |urls|
  {
    if |urls| > 0 {
      var u, tail := urls[0], urls[1..];
      assert PlainUrl(u);
      forall i | 0 <= i < |tail| ensures PlainUrl(tail[i]) {
        assert tail[i] == urls[i + 1];
      }
      LocContentsOfRendered(tail);
      assert RenderLocs(urls) == LocElement(u) + RenderLocs(tail);
      LocContentsOfElementThen(u, RenderLocs(tail), tail);
      HeadThenTail(urls);
    }
  }

  /** The inductive step of `LocContentsOfRendered`, kept apart so that the
      solver sees only the facts it needs. */
  lemma LocContentsOfElementThen(u: string, rest: string, tail: seq<string>)
    requires PlainUrl(u)
    requires LocContents(rest) == tail
    ensures LocContents(LocElement(u) + rest) == [u] + tail
  {
    LocContentsOfElement(u, rest);
  }

  /** One element in front of any text contributes its URL and nothing else. */
  lemma LocContentsOfElement(u: string, rest: string)
    requires PlainUrl(u)
    ensures LocContents(LocElement(u) + rest) == [u] + LocContents(rest)
  {
    var s := LocElement(u) + rest;
    assert s == LocOpen + (u + LocClose + rest);
    assert StartsWith(s, LocOpen);
    assert s[|LocOpen|..] == u + LocClose + rest;
    CloseAfterPlain(u, rest);
    assert s[|LocOpen|..|LocOpen| + |u|] == u;
    assert s[|LocOpen| + |u| + |LocClose|..] == rest;
    assert LocContents(s) == [s[|LocOpen|..|LocOpen| + |u|]] + LocContents(s[|LocOpen| + |u| + |LocClose|..]);
  }

  /** Reading back a sitemap written from plain URLs gives the same URLs in
      the same order. */
  lemma ExtractRoundTrip(urls: seq<string>)
    requires forall i :: 0 <= i < |urls| ==> PlainUrl(urls[i])
    ensures ExtractLocValues(RenderLocs(urls)) == urls
  {
    LocContentsOfRendered(urls);
    assert forall i :: 0 <= i < |urls| ==> TrimmedPiece(urls[i]);
    TrimmedNonEmptyOfTrimmed(urls);
  }

  /** An element split over two lines is not a match. */
  lemma BrokenElementSkipped(u: string, v: string)
    requires '<' !in u
    requires forall k :: 0 <= k < |u| ==> !IsLineTerminator(u[k])
    ensures CloseAt(u + "\n" + v + LocClose) == None
  {
    assert u + "\n" + v + LocClose == u + ("\n" + v + LocClose);
    BrokenClose(u, "\n" + v + LocClose);
  }

  lemma {:induction false} BrokenClose(u: string, rest: string)
    requires '<' !in u
    requires forall k :: 0 <= k < |u| ==> !IsLineTerminator(u[k])
    requires |rest| > 0 && IsLineTerminator(rest[0])
    ensures CloseAt(u + rest) == None
    decreases |u|
  {
    var t := u + rest;
    if u == "" {
      assert t == rest;
      assert !StartsWith(t, LocClose) by { assert t[0] != LocClose[0]; }
    } else {
      assert t[0] == u[0];
      assert !StartsWith(t, LocClose);
      assert t[1..] == u[1..] + rest;
      BrokenClose(u[1..], rest);
    }
  }

  // -------------------------------------------------------------- de-duplication

  /** `[...new Set(s)]`: each value once, at the place it first occurs */
  function Distinct<T(==,!new)>(s: seq<T>): (r: seq<T>)
    ensures forall i, j :: 0 <= i < j < |r| ==> r[i] != r[j]
    ensures forall x :: x in r <==> x in s
    decreases |s|
  {
    if |s| == 0 then []
    else
      var d := Distinct(s[..|s| - 1]);
      assert s == s[..|s| - 1] + [s[|s| - 1]];
      if s[|s| - 1] in d then d else d + [s[|s| - 1]]
  }

  /** Later values never disturb the order already fixed by earlier ones. */
  lemma {:induction false} DistinctPrefix<T(!new)>(a: seq<T>, b: seq<T>)
    ensures Distinct(a) <= Distinct(a + b)
    decreases |b|
  {
    if |b| == 0 {
      assert a + b == a;
    } else {
      var b' := b[..|b| - 1];
      assert (a + b)[..|a + b| - 1] == a + b';
      DistinctPrefix(a, b');
    }
  }

  /** The de-duplicated list of every prefix is a prefix of the whole one. */
  lemma DistinctOfPrefixes<T(!new)>(s: seq<T>)
    ensures forall k :: 0 <= k <= |s| ==> Distinct(s[..k]) <= Distinct(s)
  {
    forall k | 0 <= k <= |s| ensures Distinct(s[..k]) <= Distinct(s) {
      assert s[..k] + s[k..] == s;
      DistinctPrefix(s[..k], s[k..]);
    }
  }

  /** A list without repeats is kept as it is. */
  lemma {:induction false} DistinctOfDistinct<T(!new)>(s: seq<T>)
    requires forall i, j :: 0 <= i < j < |s| ==> s[i] != s[j]
    ensures Distinct(s) == s
    decreases |s|
  {
    if |s| > 0 {
      var p := s[..|s| - 1];
      DistinctOfDistinct(p);
      assert s[|s| - 1] !in p;
      assert s == p + [s[|s| - 1]];
    }
  }

  /** Every loc of every sitemap, in file order, repeats included: the
      `allUrls.push(...)` loop */
  function AllLocs(sitemaps: seq<string>): (r: seq<string>)
    ensures forall i :: 0 <= i < |r| ==> TrimmedPiece(r[i])
    decreases |sitemaps|
  {
    if |sitemaps| == 0 then []
    else AllLocs(sitemaps[..|sitemaps| - 1]) + ExtractLocValues(sitemaps[|sitemaps| - 1])
  }

  /** `getAllUrlsFromSitemaps` over the sitemap texts: each URL once,
      trimmed and non-empty */
  function CollectUrls(sitemaps: seq<string>): (r: seq<string>)
    ensures forall i :: 0 <= i < |r| ==> TrimmedPiece(r[i])
    ensures forall i, j :: 0 <= i < j < |r| ==> r[i] != r[j]
    ensures forall u :: u in r <==> u in AllLocs(sitemaps)
    ensures forall k :: 0 <= k <= |AllLocs(sitemaps)| ==> Distinct(AllLocs(sitemaps)[..k]) <= r
  {
    var all := AllLocs(sitemaps);
    var r := Distinct(all);
    DistinctOfPrefixes(all);
    assert forall i :: 0 <= i < |r| ==> TrimmedPiece(r[i]) by {
      forall i | 0 <= i < |r| ensures TrimmedPiece(r[i]) {
        assert r[i] in all;
      }
    }
    r
  }

  /** Reading one more sitemap keeps the order fixed by the earlier ones and
      never repeats a URL they listed. */
  lemma CollectKeepsEarlierOrder(sitemaps: seq<string>, more: string)
    ensures CollectUrls(sitemaps) <= CollectUrls(sitemaps + [more])
  {
    var longer := sitemaps + [more];
    assert longer[..|longer| - 1] == sitemaps;
    DistinctPrefix(AllLocs(sitemaps), ExtractLocValues(more));
  }

  // ------------------------------------------------------------ getSitemapFiles

  /** A path the sitemap index may point to: an `.xml` file other than the index */
  predicate IsSitemapPath(p: string) {
    EndsWith(p, ".xml") && !EndsWith(p, "sitemap-index.xml")
  }

  /** `/^sitemap-\d+\.xml$/i` */
  predicate IsNumberedSitemap(name: string) {
    var l := ToLower(name);
    |l| > 12 && StartsWith(l, "sitemap-") && EndsWith(l, ".xml") && AllDigits(l[8..|l| - 4])
  }

  /** The index's locs as local paths; nothing when the index cannot be read */
  function IndexPaths(indexXml: Option<string>, localPath: string -> string): (r: seq<string>)
    ensures indexXml.None? ==> r == []
    ensures indexXml.Some? ==> |r| == |ExtractLocValues(indexXml.value)|
    ensures indexXml.Some? ==> forall i :: 0 <= i < |r| ==> r[i] == localPath(ExtractLocValues(indexXml.value)[i])
  {
    if indexXml.None? then []
    else
      var locs := ExtractLocValues(indexXml.value);
      seq(|locs|, i requires 0 <= i < |locs| => localPath(locs[i]))
  }

  /** `getSitemapFiles`: the index's `.xml` entries, or, when there are none or
      the index cannot be read, the numbered sitemaps of the build directory;
      None when that directory cannot be listed. */
  function SitemapFiles(indexXml: Option<string>, localPath: string -> string,
                        distNames: Option<seq<string>>, inDist: string -> string): (r: Option<seq<string>>)
    ensures var paths := IndexPaths(indexXml, localPath);
      (exists i :: 0 <= i < |paths| && IsSitemapPath(paths[i])) ==>
        (r == Some(Filter(paths, IsSitemapPath))
         && |r.value| > 0 && forall k :: 0 <= k < |r.value| ==> IsSitemapPath(r.value[k]) && r.value[k] in paths)
    ensures var paths := IndexPaths(indexXml, localPath);
      (forall i :: 0 <= i < |paths| ==> !IsSitemapPath(paths[i])) ==>
        (r.None? <==> distNames.None?)
        && (r.Some? ==> var names := Filter(distNames.value, IsNumberedSitemap);
              |r.value| == |names| && forall k :: 0 <= k < |r.value| ==> r.value[k] == inDist(names[k]))
  {
    var paths := IndexPaths(indexXml, localPath);
    var discovered := Filter(paths, IsSitemapPath);
    if |discovered| > 0 then
      assert discovered[0] in paths && IsSitemapPath(discovered[0]);
      Some(discovered)
    else if distNames.None? then None
    else
      var names := Filter(distNames.value, IsNumberedSitemap);
      Some(seq(|names|, i requires 0 <= i < |names| => inDist(names[i])))
  }

  /** An index written from URLs that all name sitemap files is used as it
      is: every entry, in index order, and the directory is never consulted. */
  lemma SitemapFilesOfRenderedIndex(urls: seq<string>, localPath: string -> string,
                                    distNames: Option<seq<string>>, inDist: string -> string)
    requires |urls| > 0
    requires forall i :: 0 <= i < |urls| ==> PlainUrl(urls[i]) && IsSitemapPath(localPath(urls[i]))
    ensures var r := SitemapFiles(Some(RenderLocs(urls)), localPath, distNames, inDist);
      r.Some? && |r.value| == |urls| && forall k :: 0 <= k < |urls| ==> r.value[k] == localPath(urls[k])
  {
    ExtractRoundTrip(urls);
    var paths := IndexPaths(Some(RenderLocs(urls)), localPath);
    assert IsSitemapPath(paths[0]);
    FilterAllKept(paths, IsSitemapPath);
  }

  /** An index with no `.xml` entry, or none at all, leaves the choice to the
      directory listing, whatever else the index holds. */
  lemma NoSitemapEntryFallsBack(indexXml: Option<string>, localPath: string -> string,
                                distNames: seq<string>, inDist: string -> string)
    requires forall i :: 0 <= i < |IndexPaths(indexXml, localPath)| ==> !IsSitemapPath(IndexPaths(indexXml, localPath)[i])
    ensures SitemapFiles(indexXml, localPath, Some(distNames), inDist)
         == SitemapFiles(None, localPath, Some(distNames), inDist)
  {
    var paths := IndexPaths(indexXml, localPath);
    FilterNoneKept(paths, IsSitemapPath);
  }

  /** The file-name test ignores letter case and never picks the index. */
  lemma NumberedSitemapCaseless(name: string)
    ensures IsNumberedSitemap(ToUpper(name)) <==> IsNumberedSitemap(name)
    ensures IsNumberedSitemap(name) ==> ToLower(name) != "sitemap-index.xml"
  {
    LowerOfUpper(name);
    if IsNumberedSitemap(name) {
      var l := ToLower(name);
      assert IsDigit(l[8]);
    }
  }

  // --------------------------------------------------------- detectIndexNowKey

  datatype KeyError = ReadFailed | NoKey

  /** `path.basename(name, ".txt")` for a directory entry (no `/` in it) */
  function BaseName(name: string): string {
    if EndsWith(name, ".txt") then name[..|name| - 4] else name
  }

  /** A `.txt` name, in any letter case */
  predicate IsTxtName(name: string) { EndsWith(ToLower(name), ".txt") }

  /** The public file is readable and holds exactly its own base name */
  predicate KeyFileMatches(name: string, read: string -> Option<string>) {
    read(name).Some? && Trim(read(name).value) != "" && Trim(read(name).value) == Trim(BaseName(name))
  }

  /** The files before position i were all read and all rejected */
  predicate RejectedBefore(names: seq<string>, i: int, read: string -> Option<string>)
    requires 0 <= i <= |names|
  {
    forall j :: 0 <= j < i ==> read(names[j]).Some? && !KeyFileMatches(names[j], read)
  }

  /** The loop over the public `.txt` files: the first whose trimmed content
      is its base name supplies the key; an unreadable file aborts */
  function ScanKeyFiles(names: seq<string>, read: string -> Option<string>): (r: Result<string, KeyError>)
    ensures r.Ok? ==> r.value != "" && (exists i :: 0 <= i < |names| && KeyFileMatches(names[i], read)
                                         && r.value == Trim(BaseName(names[i])) && RejectedBefore(names, i, read))
    ensures r == Err(ReadFailed) ==> exists i :: 0 <= i < |names| && read(names[i]).None?
                                                 && RejectedBefore(names, i, read)
    decreases |names|
  {
    if |names| == 0 then Err(NoKey)
    else if read(names[0]).None? then
      assert RejectedBefore(names, 0, read);
      Err(ReadFailed)
    else if KeyFileMatches(names[0], read) then
      assert RejectedBefore(names, 0, read);
      Ok(Trim(read(names[0]).value))
    else
      var r := ScanKeyFiles(names[1..], read);
      assert r.Ok? ==> exists i :: 1 <= i < |names| && KeyFileMatches(names[i], read)
                         && r.value == Trim(BaseName(names[i])) && RejectedBefore(names, i, read) by {
        if r.Ok? {
          var j :| 0 <= j < |names[1..]| && KeyFileMatches(names[1..][j], read)
                   && r.value == Trim(BaseName(names[1..][j])) && RejectedBefore(names[1..], j, read);
          ShiftRejected(names, j, read);
        }
      }
      assert r == Err(ReadFailed) ==> exists i :: 1 <= i < |names| && read(names[i]).None?
                                                  && RejectedBefore(names, i, read) by {
        if r == Err(ReadFailed) {
          var j :| 0 <= j < |names[1..]| && read(names[1..][j]).None? && RejectedBefore(names[1..], j, read);
          ShiftRejected(names, j, read);
        }
      }
      r
  }

  /** Rejections after a rejected first file carry over to the whole list */
  lemma ShiftRejected(names: seq<string>, j: nat, read: string -> Option<string>)
    requires j < |names| - 1
    requires read(names[0]).Some? && !KeyFileMatches(names[0], read)
    requires RejectedBefore(names[1..], j, read)
    ensures RejectedBefore(names, j + 1, read) && names[1..][j] == names[j + 1]
  {
    forall k | 1 <= k < j + 1
      ensures read(names[k]).Some? && !KeyFileMatches(names[k], read)
    {
      assert names[k] == names[1..][k - 1];
    }
  }

  /** The scan reports no key exactly when every file was read and none
      matched. */
  lemma {:induction false} ScanNoKeyIff(names: seq<string>, read: string -> Option<string>)
    ensures ScanKeyFiles(names, read) == Err(NoKey) <==>
              forall i :: 0 <= i < |names| ==> read(names[i]).Some? && !KeyFileMatches(names[i], read)
    decreases |names|
  {
    if |names| > 0 {
      ScanNoKeyIff(names[1..], read);
      assert forall i :: 1 <= i < |names| ==> names[i] == names[1..][i - 1];
    }
  }

  /** Files that are read and rejected do not change the choice. */
  lemma {:induction false} ScanSkipsRejected(names: seq<string>, k: nat, read: string -> Option<string>)
    requires k <= |names|
    requires forall i :: 0 <= i < k ==> read(names[i]).Some? && !KeyFileMatches(names[i], read)
    ensures ScanKeyFiles(names, read) == ScanKeyFiles(names[k..], read)
    decreases k
  {
    if k > 0 {
      assert names[1..][k - 1..] == names[k..];
      ScanSkipsRejected(names[1..], k - 1, read);
    }
  }

  /** `detectIndexNowKey`: the key variable, else the key file, else the
      first public `.txt` file that holds its own name; `publicNames` is
      None when the public directory cannot be listed */
  function DetectKey(envKey: Option<string>, envKeyFile: Option<string>,
                     readKeyFile: string -> Option<string>,
                     publicNames: Option<seq<string>>, read: string -> Option<string>): (r: Result<string, KeyError>)
    ensures IsSet(envKey) ==> r == Ok(Trim(envKey.value))
    ensures !IsSet(envKey) && IsSet(envKeyFile) ==>
              (r.Ok? <==> readKeyFile(envKeyFile.value).Some?)
              && (r.Ok? ==> r.value == Trim(readKeyFile(envKeyFile.value).value))
              && (r.Err? ==> r.error == ReadFailed)
    ensures !IsSet(envKey) && !IsSet(envKeyFile) && publicNames.None? ==> r == Err(ReadFailed)
    ensures !IsSet(envKey) && !IsSet(envKeyFile) && publicNames.Some? ==>
              var txt := Filter(publicNames.value, IsTxtName);
              (r.Ok? ==> r.value != "" && (exists i :: 0 <= i < |txt| && KeyFileMatches(txt[i], read)
                                              && r.value == Trim(BaseName(txt[i])) && RejectedBefore(txt, i, read)))
              && (r == Err(NoKey) <==> RejectedBefore(txt, |txt|, read))
    ensures r == Err(NoKey) ==> !IsSet(envKey) && !IsSet(envKeyFile)
  {
    if IsSet(envKey) then Ok(Trim(envKey.value))
    else if IsSet(envKeyFile) then
      match readKeyFile(envKeyFile.value)
      case None => Err(ReadFailed)
      case Some(text) => Ok(Trim(text))
    else if publicNames.None? then Err(ReadFailed)
    else
      var txt := Filter(publicNames.value, IsTxtName);
      ScanNoKeyIff(txt, read);
      ScanKeyFiles(txt, read)
  }

  // ----------------------------------------------------------------------- main

  datatype UrlParts = UrlParts(host: string, origin: string)

  datatype Payload = Payload(host: string, key: string, keyLocation: string, urlList: seq<string>)

  datatype Run =
    | NoUrls
    | BadFirstUrl
    | KeyFailed(error: KeyError)
    | Preview(host: string, keyLocation: string, urlCount: nat, sample: seq<string>)
      /** The requests made, in order; `completed` is false when the last one
          was refused and the script stopped there */
    | Submitted(attempts: seq<Payload>, completed: bool)

  function UrlLists(ps: seq<Payload>): (r: seq<seq<string>>)
    ensures |r| == |ps| && forall i :: 0 <= i < |ps| ==> r[i] == ps[i].urlList
  {
    seq(|ps|, i requires 0 <= i < |ps| => ps[i].urlList)
  }

  /** The submission loop of `main`: one request per batch, in order,
      stopping at the first one the endpoint refuses */
  method SubmitBatches(batches: seq<seq<string>>, host: string, key: string, keyLocation: string,
                       accepted: nat -> bool)
    returns (attempts: seq<Payload>, completed: bool)
    ensures UrlLists(attempts) <= batches
    ensures forall i :: 0 <= i < |attempts| ==> attempts[i] == Payload(host, key, keyLocation, batches[i])
    ensures forall i :: 0 <= i < |attempts| - 1 ==> accepted(i)
    ensures completed <==> (forall i :: 0 <= i < |batches| ==> accepted(i))
    ensures completed ==> |attempts| == |batches|
    ensures !completed ==> |attempts| > 0 && !accepted(|attempts| - 1)
  {
    attempts := [];
    var index := 0;
    while index < |batches|
      invariant 0 <= index <= |batches|
      invariant |attempts| == index
      invariant forall i :: 0 <= i < index ==> attempts[i] == Payload(host, key, keyLocation, batches[i])
      invariant forall i :: 0 <= i < index ==> accepted(i)
    {
      attempts := attempts + [Payload(host, key, keyLocation, batches[index])];
      if !accepted(index) {
        return attempts, false;
      }
      index := index + 1;
    }
    return attempts, true;
  }

  /** The URL lists actually sent, a prefix of the chunks (all of them when
      the run completed), inherit the chunks' shape and lay out to a prefix
      of the URLs. */
  lemma SentPrefix(urls: seq<string>, size: nat, batches: seq<seq<string>>, lists: seq<seq<string>>,
                   completed: bool)
    requires size >= 1 && batches == Chunks(urls, size)
    requires Flatten(batches) == urls && |batches| == (|urls| + size - 1) / size
    requires forall k :: 0 <= k < |batches| ==> 0 < |batches[k]| <= size
    requires forall k :: 0 <= k < |batches| - 1 ==> |batches[k]| == size
    requires lists <= batches && (completed ==> |lists| == |batches|)
    ensures forall k :: 0 <= k < |lists| ==> 0 < |lists[k]| <= size
    ensures forall k :: 0 <= k < |lists| - 1 ==> |lists[k]| == size
    ensures |lists| <= (|urls| + size - 1) / size
    ensures completed ==> |lists| == (|urls| + size - 1) / size && lists == Chunks(urls, size)
    ensures Flatten(lists) <= urls
    ensures completed ==> Flatten(lists) == urls
  {
    assert lists == batches[..|lists|];
    FlattenPrefix(batches, |lists|);
    if completed {
      assert lists == batches;
    }
  }

  /** The non-dry-run tail of `main`: chunk the URLs and send the chunks in
      order, stopping at the first refusal. */
  method SendUrls(urls: seq<string>, batchSize: nat, host: string, key: string, keyLocation: string,
                  accepted: nat -> bool)
    returns (attempts: seq<Payload>, completed: bool)
    requires batchSize >= 1
    ensures urls != [] ==> |attempts| >= 1
    ensures forall i :: 0 <= i < |attempts| ==>
              attempts[i].host == host && attempts[i].key == key && attempts[i].keyLocation == keyLocation
              && 0 < |attempts[i].urlList| <= batchSize
    ensures forall i :: 0 <= i < |attempts| - 1 ==> accepted(i) && |attempts[i].urlList| == batchSize
    ensures completed <==> forall i :: 0 <= i < |attempts| ==> accepted(i)
    ensures |attempts| >= 1 ==> (completed <==> accepted(|attempts| - 1))
    ensures |attempts| <= (|urls| + batchSize - 1) / batchSize
    ensures completed ==> |attempts| == (|urls| + batchSize - 1) / batchSize
    ensures UrlLists(attempts) <= Chunks(urls, batchSize)
    ensures completed ==> UrlLists(attempts) == Chunks(urls, batchSize)
    ensures Flatten(UrlLists(attempts)) <= urls
    ensures completed ==> Flatten(UrlLists(attempts)) == urls
  {
    var batches := ChunkArray(urls, batchSize);
    attempts, completed := SubmitBatches(batches, host, key, keyLocation, accepted);
    SentPrefix(urls, batchSize, batches, UrlLists(attempts), completed);
  }

  /** `main` after the URLs are collected: nothing to do for no URLs;
      otherwise the host and key location come from the first URL unless
      configured, and the batches go out in order until one is refused.
      `accepted(i)` is the endpoint's answer to batch i. */
  method SubmitSitemap(urls: seq<string>, parseUrl: string -> Option<UrlParts>,
              envHost: Option<string>, envKeyLocation: Option<string>,
              key: Result<string, KeyError>, batchSize: nat, dryRun: bool,
              accepted: nat -> bool)
    returns (run: Run)
    requires batchSize >= 1
    ensures urls == [] <==> run == NoUrls
    ensures run == BadFirstUrl <==> urls != [] && parseUrl(urls[0]).None?
    ensures run.KeyFailed? <==> urls != [] && parseUrl(urls[0]).Some? && key.Err?
    ensures run.KeyFailed? ==> run.error == key.error
    ensures urls != [] && parseUrl(urls[0]).Some? && key.Ok? ==>
              (run.Preview? <==> dryRun) && (run.Submitted? <==> !dryRun)
    ensures run.Preview? ==>
              run.urlCount == |urls| && run.sample == urls[..if |urls| < PreviewCount then |urls| else PreviewCount]
    ensures run.Preview? ==>
              urls != [] && parseUrl(urls[0]).Some? && key.Ok?
              && run.host == (if IsSet(envHost) then envHost.value else parseUrl(urls[0]).value.host)
              && run.keyLocation == (if IsSet(envKeyLocation) then envKeyLocation.value
                                     else parseUrl(urls[0]).value.origin + "/" + key.value + ".txt")
    ensures run.Submitted? ==> urls != [] && parseUrl(urls[0]).Some? && key.Ok? && |run.attempts| >= 1
    ensures run.Submitted? ==> forall i :: 0 <= i < |run.attempts| ==>
              (run.attempts[i].key == key.value && 0 < |run.attempts[i].urlList| <= batchSize
               && run.attempts[i].host == (if IsSet(envHost) then envHost.value else parseUrl(urls[0]).value.host)
               && run.attempts[i].keyLocation == (if IsSet(envKeyLocation) then envKeyLocation.value
                                                  else parseUrl(urls[0]).value.origin + "/" + key.value + ".txt"))
    ensures run.Submitted? ==> forall i :: 0 <= i < |run.attempts| - 1 ==>
              accepted(i) && |run.attempts[i].urlList| == batchSize
    ensures run.Submitted? ==> (run.completed <==> forall i :: 0 <= i < |run.attempts| ==> accepted(i))
    ensures run.Submitted? ==> |run.attempts| <= (|urls| + batchSize - 1) / batchSize
    ensures run.Submitted? && run.completed ==> |run.attempts| == (|urls| + batchSize - 1) / batchSize
    ensures run.Submitted? ==> UrlLists(run.attempts) <= Chunks(urls, batchSize)
    ensures run.Submitted? && run.completed ==> UrlLists(run.attempts) == Chunks(urls, batchSize)
    ensures run.Submitted? ==> Flatten(UrlLists(run.attempts)) <= urls
    ensures run.Submitted? ==> (run.completed <==> accepted(|run.attempts| - 1))
    ensures run.Submitted? && run.completed ==> Flatten(UrlLists(run.attempts)) == urls
  {
    if |urls| == 0 {
      return NoUrls;
    }
    var first := parseUrl(urls[0]);
    if first.None? {
      return BadFirstUrl;
    }
    var host := if IsSet(envHost) then envHost.value else first.value.host;
    if key.Err? {
      return KeyFailed(key.error);
    }
    var keyLocation := if IsSet(envKeyLocation) then envKeyLocation.value
                       else first.value.origin + "/" + key.value + ".txt";
    if dryRun {
      return Preview(host, keyLocation, |urls|, urls[..if |urls| < PreviewCount then |urls| else PreviewCount]);
    }
    var attempts, completed := SendUrls(urls, batchSize, host, key.value, keyLocation, accepted);
    return Submitted(attempts, completed);
  }
}

=== FILE: join_schema.dfy ===
/** `joinSchema`: the strict request schema of the worker's `/join` route. A
    body is accepted with its interests normalised to a list and its agreement
    coerced to a boolean, or rejected with zod's issues. */
module JoinSchema {
  import opened Wrappers
  import opened JsValues
  import opened Text
  import opened Zod
  import opened FormsData
  import SiteUtils

  /** The eight declared keys, in declaration order */
  datatype JoinField =
    FullName | SchoolEmail | GithubUsername | SeniorYear | Interests | Motivation | TurnstileResponse | Agreement

  const Fields: seq<JoinField> :=
    [FullName, SchoolEmail, GithubUsername, SeniorYear, Interests, Motivation, TurnstileResponse, Agreement]

  function Key(f: JoinField): string {
    match f
    case FullName => "fullName"
    case SchoolEmail => "schoolEmail"
    case GithubUsername => "githubUsername"
    case SeniorYear => "seniorYear"
    case Interests => "interests"
    case Motivation => "motivation"
    case TurnstileResponse => "cf-turnstile-response"
    case Agreement => "agreement"
  }

  const Shape: set<string> :=
    {"fullName", "schoolEmail", "githubUsername", "seniorYear", "interests", "motivation",
     "cf-turnstile-response", "agreement"}

  const AgreementMessage: string := "You must agree to the Code of Conduct"

  /** The value the schema produces */
  datatype JoinValidated = JoinValidated(
    fullName: string,
    schoolEmail: string,
    githubUsername: string,
    seniorYear: string,
    interests: seq<string>,
    motivation: string,
    turnstileToken: string,
    agreement: bool)

  /** `/^[Ss](2[5-9]|30)$/` */
  predicate SchemaYearMatches(s: string) {
    |s| == 3 && SiteUtils.IsYearPrefix(s[0])
    && ((s[1] == '2' && '5' <= s[2] <= '9') || (s[1] == '3' && s[2] == '0'))
  }

  /** The union of a string and a string array, then the transform: a string is
      split on ",", each piece trimmed and blanks dropped; an array of strings
      is kept as it is; anything else matches neither branch. */
  function InterestsInput(v: JsValue): (r: Option<seq<string>>)
    ensures v.Str? ==> r == Some(TrimmedNonEmpty(Split(v.s, ',')))
    ensures v.Arr? && r.Some? ==>
      |r.value| == |v.items| && (forall i :: 0 <= i < |v.items| ==> v.items[i] == Str(r.value[i]))
    ensures r.None? <==> !v.Str? && !(v.Arr? && forall i :: 0 <= i < |v.items| ==> v.items[i].Str?)
  {
    if v.Str? then Some(TrimmedNonEmpty(Split(v.s, ',')))
    else if v.Arr? && forall i :: 0 <= i < |v.items| ==> v.items[i].Str? then
      Some(seq(|v.items|, i requires 0 <= i < |v.items| => v.items[i].s))
    else None
  }

  predicate AllAllowed(xs: seq<string>) {
    forall i :: 0 <= i < |xs| ==> xs[i] in AllowedInterests
  }

  function InterestsIssues(v: JsValue): seq<Issue> {
    match InterestsInput(v)
    case None => [Issue(["interests"], InvalidUnion)]
    case Some(xs) =>
      (if 1 <= |xs| <= 5 then [] else [Issue(["interests"], Custom(None))])
      + (if AllAllowed(xs) then [] else [Issue(["interests"], Custom(None))])
  }

  /** The preprocess step: a string becomes whether it is non-empty */
  function AgreementPreprocess(v: JsValue): JsValue {
    if v.Str? then Bool(|v.s| > 0) else v
  }

  function AgreementIssues(v: JsValue): seq<Issue> {
    var p := AgreementPreprocess(v);
    if !p.Bool? then [Issue(["agreement"], InvalidType("boolean", ParsedType(p)))]
    else if !p.b then [Issue(["agreement"], Custom(Some(AgreementMessage)))]
    else []
  }

  function Checks(f: JoinField): seq<StringCheck>
    requires f != Interests && f != Agreement
  {
    match f
    case FullName => [MinLength(1), MaxLength(MaxFullName)]
    case SchoolEmail => [Email, Refine(s => EndsWith(s, SchoolDomain))]
    case GithubUsername => [MaxLength(MaxGithubUsername), Regex(SiteUtils.ValidateGitHubUsername)]
    case SeniorYear => [Regex(SchemaYearMatches)]
    case Motivation => [MinLength(10), MaxLength(MaxMotivation)]
    case TurnstileResponse => [MinLength(1)]
  }

  /** The issues of one declared key, every one of them at that key */
  function FieldIssues(body: JsValue, isEmail: string -> bool, f: JoinField): (issues: seq<Issue>)
    ensures forall j :: 0 <= j < |issues| ==> issues[j].path == [Key(f)]
  {
    var v := Get(body, Key(f));
    match f
    case Interests => InterestsIssues(v)
    case Agreement => AgreementIssues(v)
    case _ => StringField(Key(f), v, Checks(f), isEmail)
  }

  /** Every issue of an object body: the declared keys in order, then strictness */
  function ObjectIssues(body: JsValue, isEmail: string -> bool): seq<Issue>
    requires body.Obj?
  {
    ShapeIssues(Fields, f => FieldIssues(body, isEmail, f)) + StrictIssues(body.fields, Shape)
  }

  lemma NoIssuesAt(body: JsValue, isEmail: string -> bool, f: JoinField)
    requires body.Obj? && ObjectIssues(body, isEmail) == []
    ensures body.fields.Keys <= Shape
    ensures FieldIssues(body, isEmail, f) == []
  {
    var check := f => FieldIssues(body, isEmail, f);
    assert ShapeIssues(Fields, check) == [];
    var i := match f
      case FullName => 0 case SchoolEmail => 1 case GithubUsername => 2 case SeniorYear => 3
      case Interests => 4 case Motivation => 5 case TurnstileResponse => 6 case Agreement => 7;
    assert Fields[i] == f;
    assert check(Fields[i]) == [];
  }

  /** A declared key without issues holds a value of the declared type */
  lemma FieldPasses(body: JsValue, isEmail: string -> bool, f: JoinField)
    requires body.Obj? && ObjectIssues(body, isEmail) == []
    ensures f != Interests && f != Agreement ==> Get(body, Key(f)).Str?
    ensures f == Interests ==> InterestsInput(Get(body, "interests")).Some?
  {
    NoIssuesAt(body, isEmail, f);
    var v := Get(body, Key(f));
    if f != Interests && f != Agreement {
      assert StringField(Key(f), v, Checks(f), isEmail) == [];
    } else if f == Interests {
      assert InterestsIssues(v) == [];
    }
  }

  /** `joinSchema.safeParse(body)` with `.email()` as the parameter isEmail */
  function ParseJoin(body: JsValue, isEmail: string -> bool): (r: Result<JoinValidated, seq<Issue>>)
    ensures r.Err? ==> r.error != []
    ensures r.Ok? ==> body.Obj? && body.fields.Keys <= Shape
    ensures r.Ok? ==>
      && Get(body, "fullName") == Str(r.value.fullName)
      && Get(body, "schoolEmail") == Str(r.value.schoolEmail)
      && Get(body, "githubUsername") == Str(r.value.githubUsername)
      && Get(body, "seniorYear") == Str(r.value.seniorYear)
      && InterestsInput(Get(body, "interests")) == Some(r.value.interests)
      && Get(body, "motivation") == Str(r.value.motivation)
      && Get(body, "cf-turnstile-response") == Str(r.value.turnstileToken)
      && r.value.agreement
  {
    if !body.Obj? then Err([NotAnObject(body)])
    else if ObjectIssues(body, isEmail) != [] then Err(ObjectIssues(body, isEmail))
    else
      NoIssuesAt(body, isEmail, Agreement);
      FieldPasses(body, isEmail, FullName);
      FieldPasses(body, isEmail, SchoolEmail);
      FieldPasses(body, isEmail, GithubUsername);
      FieldPasses(body, isEmail, SeniorYear);
      FieldPasses(body, isEmail, Interests);
      FieldPasses(body, isEmail, Motivation);
      FieldPasses(body, isEmail, TurnstileResponse);
      Ok(JoinValidated(
        Get(body, "fullName").s, Get(body, "schoolEmail").s, Get(body, "githubUsername").s,
        Get(body, "seniorYear").s, InterestsInput(Get(body, "interests")).value,
        Get(body, "motivation").s, Get(body, "cf-turnstile-response").s, true))
  }

  /** What the schema demands of a body, key by key, written without zod's
      issue machinery */
  predicate JoinAcceptable(body: JsValue, isEmail: string -> bool) {
    && body.Obj? && body.fields.Keys <= Shape
    && (var v := Get(body, "fullName"); v.Str? && 1 <= |v.s| <= MaxFullName)
    && (var v := Get(body, "schoolEmail"); v.Str? && isEmail(v.s) && EndsWith(v.s, SchoolDomain))
    && (var v := Get(body, "githubUsername"); v.Str? && SiteUtils.GitHubUsernameRule(v.s))
    && (var v := Get(body, "seniorYear");
        v.Str? && |v.s| == 3 && SiteUtils.IsYearPrefix(v.s[0]) && v.s[1..] in SiteUtils.YearEndings)
    && (var xs := InterestsInput(Get(body, "interests"));
        xs.Some? && 1 <= |xs.value| <= 5 && AllAllowed(xs.value))
    && (var v := Get(body, "motivation"); v.Str? && 10 <= |v.s| <= MaxMotivation)
    && (var v := Get(body, "cf-turnstile-response"); v.Str? && |v.s| >= 1)
    && (var v := Get(body, "agreement"); v == Bool(true) || (v.Str? && v.s != ""))
  }

  /** The regular expression `^[Ss](2[5-9]|30)$` accepts exactly a prefix
      letter followed by one of the six two-digit endings. */
  lemma SchemaYearIff(s: string)
    ensures SchemaYearMatches(s) <==>
      |s| == 3 && SiteUtils.IsYearPrefix(s[0]) && s[1..] in SiteUtils.YearEndings
  {
    if |s| == 3 {
      var t := s[1..];
      assert t == [s[1], s[2]];
    }
  }

  /** Each declared key is free of issues exactly when its conditions hold */
  lemma FieldIssuesIff(body: JsValue, isEmail: string -> bool, f: JoinField)
    ensures FieldIssues(body, isEmail, f) == [] <==>
      match f
      case FullName => (var v := Get(body, "fullName"); v.Str? && 1 <= |v.s| <= MaxFullName)
      case SchoolEmail =>
        (var v := Get(body, "schoolEmail"); v.Str? && isEmail(v.s) && EndsWith(v.s, SchoolDomain))
      case GithubUsername => (var v := Get(body, "githubUsername"); v.Str? && SiteUtils.GitHubUsernameRule(v.s))
      case SeniorYear => (var v := Get(body, "seniorYear");
        v.Str? && |v.s| == 3 && SiteUtils.IsYearPrefix(v.s[0]) && v.s[1..] in SiteUtils.YearEndings)
      case Interests => (var xs := InterestsInput(Get(body, "interests"));
        xs.Some? && 1 <= |xs.value| <= 5 && AllAllowed(xs.value))
      case Motivation => (var v := Get(body, "motivation"); v.Str? && 10 <= |v.s| <= MaxMotivation)
      case TurnstileResponse => (var v := Get(body, "cf-turnstile-response"); v.Str? && |v.s| >= 1)
      case Agreement => (var v := Get(body, "agreement"); v == Bool(true) || (v.Str? && v.s != ""))
  {
    var v := Get(body, Key(f));
    match f
    case GithubUsername =>
      if v.Str? {
        SiteUtils.GitHubUsernameMatchesRule(v.s);
        var c := Checks(f);
        assert Passes(c[0], v.s, isEmail) <==> |v.s| <= MaxGithubUsername;
        assert Passes(c[1], v.s, isEmail) <==> SiteUtils.ValidateGitHubUsername(v.s);
      }
    case SeniorYear =>
      if v.Str? {
        SchemaYearIff(v.s);
        assert Passes(Checks(f)[0], v.s, isEmail) <==> SchemaYearMatches(v.s);
      }
    case FullName =>
      if v.Str? {
        var c := Checks(f);
        assert Passes(c[0], v.s, isEmail) <==> |v.s| >= 1;
        assert Passes(c[1], v.s, isEmail) <==> |v.s| <= MaxFullName;
      }
    case SchoolEmail =>
      if v.Str? {
        var c := Checks(f);
        assert Passes(c[0], v.s, isEmail) <==> isEmail(v.s);
        assert Passes(c[1], v.s, isEmail) <==> EndsWith(v.s, SchoolDomain);
      }
    case Motivation =>
      if v.Str? {
        var c := Checks(f);
        assert Passes(c[0], v.s, isEmail) <==> |v.s| >= 10;
        assert Passes(c[1], v.s, isEmail) <==> |v.s| <= MaxMotivation;
      }
    case TurnstileResponse =>
      if v.Str? {
        assert Passes(Checks(f)[0], v.s, isEmail) <==> |v.s| >= 1;
      }
    case Interests =>
    case Agreement =>
  }

  /** The schema accepts a body exactly when it meets every condition above. */
  lemma ParseJoinAccepts(body: JsValue, isEmail: string -> bool)
    ensures ParseJoin(body, isEmail).Ok? <==> JoinAcceptable(body, isEmail)
  {
    if body.Obj? {
      if JoinAcceptable(body, isEmail) {
        AcceptableHasNoIssues(body, isEmail);
      } else if ObjectIssues(body, isEmail) == [] {
        NoIssuesIsAcceptable(body, isEmail);
      }
    }
  }

  lemma AcceptableHasNoIssues(body: JsValue, isEmail: string -> bool)
    requires JoinAcceptable(body, isEmail)
    ensures ObjectIssues(body, isEmail) == []
  {
    var check := f => FieldIssues(body, isEmail, f);
    forall i | 0 <= i < |Fields| ensures check(Fields[i]) == [] {
      FieldIssuesIff(body, isEmail, Fields[i]);
    }
    assert ShapeIssues(Fields, check) == [];
    assert StrictIssues(body.fields, Shape) == [];
  }

  lemma NoIssuesIsAcceptable(body: JsValue, isEmail: string -> bool)
    requires body.Obj? && ObjectIssues(body, isEmail) == []
    ensures JoinAcceptable(body, isEmail)
  {
    NoIssuesAt(body, isEmail, FullName);
    FieldIssuesIff(body, isEmail, FullName);
    NoIssuesAt(body, isEmail, SchoolEmail);
    FieldIssuesIff(body, isEmail, SchoolEmail);
    NoIssuesAt(body, isEmail, GithubUsername);
    FieldIssuesIff(body, isEmail, GithubUsername);
    NoIssuesAt(body, isEmail, SeniorYear);
    FieldIssuesIff(body, isEmail, SeniorYear);
    NoIssuesAt(body, isEmail, Interests);
    FieldIssuesIff(body, isEmail, Interests);
    NoIssuesAt(body, isEmail, Motivation);
    FieldIssuesIff(body, isEmail, Motivation);
    NoIssuesAt(body, isEmail, TurnstileResponse);
    FieldIssuesIff(body, isEmail, TurnstileResponse);
    NoIssuesAt(body, isEmail, Agreement);
    FieldIssuesIff(body, isEmail, Agreement);
  }

  /** The issue reported first, which becomes the response's `field`, is at
      the first declared key that fails, or at the body itself when every
      declared key passes and only strictness does not. */
  lemma FirstIssueIsFirstFailingField(body: JsValue, isEmail: string -> bool)
    requires body.Obj? && ObjectIssues(body, isEmail) != []
    ensures var first := ObjectIssues(body, isEmail)[0];
      || (exists i :: 0 <= i < |Fields| && FieldIssues(body, isEmail, Fields[i]) != []
            && (forall j :: 0 <= j < i ==> FieldIssues(body, isEmail, Fields[j]) == [])
            && first.path == [Key(Fields[i])])
      || ((forall i :: 0 <= i < |Fields| ==> FieldIssues(body, isEmail, Fields[i]) == [])
            && !(body.fields.Keys <= Shape) && first.path == [])
  {
    var check := f => FieldIssues(body, isEmail, f);
    var shape := ShapeIssues(Fields, check);
    var strict := StrictIssues(body.fields, Shape);
    var first := ObjectIssues(body, isEmail)[0];
    if shape != [] {
      var i :| 0 <= i < |Fields| && check(Fields[i]) != [] && shape[0] == check(Fields[i])[0]
        && (forall j :: 0 <= j < i ==> check(Fields[j]) == []);
      assert first == shape[0];
      var issues := FieldIssues(body, isEmail, Fields[i]);
      assert issues[0].path == [Key(Fields[i])];
      assert forall j :: 0 <= j < i ==> FieldIssues(body, isEmail, Fields[j]) == [] by {
        forall j | 0 <= j < i ensures FieldIssues(body, isEmail, Fields[j]) == [] {
          assert check(Fields[j]) == [];
        }
      }
    } else {
      assert first == strict[0];
      forall i | 0 <= i < |Fields| ensures FieldIssues(body, isEmail, Fields[i]) == [] {
        assert check(Fields[i]) == [];
      }
    }
  }

  /** An object body is rejected exactly when some field has an issue or a
      key lies outside the shape, and then every issue of every field, and the
      unrecognized-keys issue, is reported, and nothing else is. */
  lemma ParseJoinIssues(body: JsValue, isEmail: string -> bool)
    requires body.Obj?
    ensures ParseJoin(body, isEmail).Err? <==> ObjectIssues(body, isEmail) != []
    ensures ParseJoin(body, isEmail).Err? ==> ParseJoin(body, isEmail).error == ObjectIssues(body, isEmail)
    ensures ParseJoin(body, isEmail).Err? <==>
      (exists f :: FieldIssues(body, isEmail, f) != []) || !(body.fields.Keys <= Shape)
    ensures ParseJoin(body, isEmail).Err? ==>
      forall f, j :: 0 <= j < |FieldIssues(body, isEmail, f)| ==>
        FieldIssues(body, isEmail, f)[j] in ParseJoin(body, isEmail).error
    ensures !(body.fields.Keys <= Shape) ==>
      ParseJoin(body, isEmail).Err?
      && Issue([], UnrecognizedKeys(body.fields.Keys - Shape)) in ParseJoin(body, isEmail).error
    ensures ParseJoin(body, isEmail).Err? ==>
      forall x :: x in ParseJoin(body, isEmail).error ==>
        x == Issue([], UnrecognizedKeys(body.fields.Keys - Shape))
        || exists f :: x in FieldIssues(body, isEmail, f)
  {
    ParseJoinObjectBranch(body, isEmail);
    ObjectIssuesMembers(body, isEmail);
  }

  /** ParseJoin's answer for an object body */
  lemma ParseJoinObjectBranch(body: JsValue, isEmail: string -> bool)
    requires body.Obj?
    ensures ParseJoin(body, isEmail).Err? <==> ObjectIssues(body, isEmail) != []
    ensures ParseJoin(body, isEmail).Err? ==> ParseJoin(body, isEmail).error == ObjectIssues(body, isEmail)
  {
  }

  /** Every field of the form is one of the declared keys */
  lemma AllFieldsDeclared(f: JoinField)
    ensures f in Fields
  {
    match f
    case FullName => assert Fields[0] == f;
    case SchoolEmail => assert Fields[1] == f;
    case GithubUsername => assert Fields[2] == f;
    case SeniorYear => assert Fields[3] == f;
    case Interests => assert Fields[4] == f;
    case Motivation => assert Fields[5] == f;
    case TurnstileResponse => assert Fields[6] == f;
    case Agreement => assert Fields[7] == f;
  }

  /** The object issues are all the fields' issues, then the
      unrecognized-keys issue when a key lies outside the shape. */
  lemma ObjectIssuesMembers(body: JsValue, isEmail: string -> bool)
    requires body.Obj?
    ensures ObjectIssues(body, isEmail) != [] <==>
      (exists f :: FieldIssues(body, isEmail, f) != []) || !(body.fields.Keys <= Shape)
    ensures forall f, j :: 0 <= j < |FieldIssues(body, isEmail, f)| ==>
      FieldIssues(body, isEmail, f)[j] in ObjectIssues(body, isEmail)
    ensures !(body.fields.Keys <= Shape) ==>
      Issue([], UnrecognizedKeys(body.fields.Keys - Shape)) in ObjectIssues(body, isEmail)
    ensures forall x :: x in ObjectIssues(body, isEmail) ==>
      x == Issue([], UnrecognizedKeys(body.fields.Keys - Shape))
      || exists f :: x in FieldIssues(body, isEmail, f)
  {
    var check := f => FieldIssues(body, isEmail, f);
    var issues := ObjectIssues(body, isEmail);
    assert issues == ShapeIssues(Fields, check) + StrictIssues(body.fields, Shape);
    StrictObjectIssues(Fields, check, body.fields, Shape);
    var unknown := Issue([], UnrecognizedKeys(body.fields.Keys - Shape));
    forall f, j | 0 <= j < |FieldIssues(body, isEmail, f)| ensures FieldIssues(body, isEmail, f)[j] in issues {
      AllFieldsDeclared(f);
      assert check(f)[j] in issues;
    }
    forall x | x in issues ensures x == unknown || exists f :: x in FieldIssues(body, isEmail, f) {
      if x != unknown {
        var k :| k in Fields && x in check(k);
        assert x in FieldIssues(body, isEmail, k);
      }
    }
    if exists f :: FieldIssues(body, isEmail, f) != [] {
      var f :| FieldIssues(body, isEmail, f) != [];
      AllFieldsDeclared(f);
      assert check(f) != [];
    }
    if issues != [] && body.fields.Keys <= Shape {
      var k :| k in Fields && check(k) != [];
      assert FieldIssues(body, isEmail, k) != [];
    }
  }

  /** The schema's year pattern is stricter than the shared validator: every
      year it accepts the validator accepts, and "S025" separates them. */
  lemma SchemaYearStricterThanValidator(s: string)
    ensures SchemaYearMatches(s) ==> SiteUtils.ValidateSeniorYear(s)
    ensures SiteUtils.ValidateSeniorYear("S025") && !SchemaYearMatches("S025")
  {
    SchemaYearIff(s);
    SiteUtils.SeniorYearAcceptedForms(s);
    if SchemaYearMatches(s) {
      assert s[1..|s| - 2] == [];
    }
    SiteUtils.SeniorYearExamples();
  }
}

=== FILE: join_service.dfy ===
/** `handleJoinRequests`: the worker's `/join` pipeline after the schema has
    accepted the body. It verifies the Turnstile token, asks the rate limiter
    about the school email, refuses a second application for the same school
    email and GitHub username, stores the application and sends two emails.
    The applications table is a sequence of rows; the outside world (the
    provider, the limiter binding, database failures, the mail provider, the
    clock) is a parameter. */
module JoinService {
  import opened Wrappers
  import opened JsValues
  import opened Text
  import opened Http
  import opened Turnstile
  import opened Mail
  import opened JoinSchema

  datatype ApplicationRow = ApplicationRow(
    fullName: string,
    schoolEmail: string,
    githubUsername: string,
    seniorYear: string,
    interests: string,
    motivation: string,
    timestamp: string)

  type Applications = seq<ApplicationRow>

  /** Everything a request learns from outside: the siteverify call, the rate
      limiter binding's answer per key, whether the duplicate lookup or the
      insert throws, whether the mail provider accepts a message,
      `encodeURIComponent`, and the ISO timestamp of the request */
  datatype World = World(
    siteverify: SiteverifyRequest -> ProviderReply,
    limiterAllows: string -> bool,
    lookupThrows: bool,
    insertThrows: bool,
    mailer: Email -> bool,
    encodeUriComponent: string -> string,
    timestamp: string)

  /** The visible effects of a request, in the order they happen */
  datatype Effect =
    | Verify(request: SiteverifyRequest)
    | Limit(key: string)
    | Lookup(schoolEmail: string, githubUsername: string)
    | Insert(row: ApplicationRow)
    | Send(email: Email)

  datatype Outcome = Outcome(response: Response, store: Applications, effects: seq<Effect>)

  const AlreadyExists: string := "Application already exists"
  const Submitted: string := "Application submitted successfully"
  const DelayedWarning: string := "Application received but notifications may be delayed"

  /** An application with this school email and GitHub username is stored */
  predicate HasApplication(store: Applications, schoolEmail: string, githubUsername: string) {
    exists i :: 0 <= i < |store| && store[i].schoolEmail == schoolEmail && store[i].githubUsername == githubUsername
  }

  /** No two rows share a school email and a GitHub username */
  predicate Unique(store: Applications) {
    forall i, j :: 0 <= i < j < |store| ==>
      !(store[i].schoolEmail == store[j].schoolEmail && store[i].githubUsername == store[j].githubUsername)
  }

  /** The row stored for an application: name and motivation trimmed, the
      interests joined with ",", everything else as received */
  function RowFor(data: JoinValidated, timestamp: string): (row: ApplicationRow)
    ensures row.fullName == Trim(data.fullName) && row.motivation == Trim(data.motivation)
    ensures row.schoolEmail == data.schoolEmail && row.githubUsername == data.githubUsername
    ensures row.seniorYear == data.seniorYear && row.timestamp == timestamp
    ensures (forall i :: 0 <= i < |data.interests| ==> ',' !in data.interests[i]) && |data.interests| >= 1 ==>
      Split(row.interests, ',') == data.interests
  {
    if (forall i :: 0 <= i < |data.interests| ==> ',' !in data.interests[i]) && |data.interests| >= 1 then
      SplitJoin(data.interests, ',');
      ApplicationRow(Trim(data.fullName), data.schoolEmail, data.githubUsername, data.seniorYear,
                     Join(data.interests, ","), Trim(data.motivation), timestamp)
    else
      ApplicationRow(Trim(data.fullName), data.schoolEmail, data.githubUsername, data.seniorYear,
                     Join(data.interests, ","), Trim(data.motivation), timestamp)
  }

  /** The team subject: the first 50 characters of the name, or a stand-in */
  function TeamSubject(fullName: string): (subject: string)
    ensures fullName == "" ==> subject == "New Dev Team Application: New Applicant"
    ensures fullName != "" ==>
      exists rest :: subject == "New Dev Team Application: " + rest && StartsWith(fullName, rest)
        && |rest| == (if |fullName| < 50 then |fullName| else 50)
  {
    var head := Take(fullName, 50);
    "New Dev Team Application: " + (if head != "" then head else "New Applicant")
  }

  const TeamPieces: seq<string> := [
    "\n      <h2>New Dev Team Application</h2>\n      <p><strong>Name:</strong> ",
    "</p>\n      <p><strong>Email:</strong> ",
    "</p>\n      <p><strong>GitHub:</strong> ",
    "</p>\n      <p><strong>Senior Year:</strong> ",
    "</p>\n      <p><strong>Interests:</strong> ",
    "</p>\n      <p><strong>Motivation:</strong> ",
    "</p>\n      <p><strong>Submitted:</strong> ",
    "</p>\n      <hr/>\n      <p><a href=\"https://github.com/",
    "\">View applicant's GitHub profile</a></p>\n    "]

  const ApplicantPieces: seq<string> := [
    "\n      <p>Hi ",
    ",</p>\n      <p>Thank you for applying to join the STEM Gharbiya Dev Team!</p>\n      <p><strong>Application Summary:</strong></p>\n      <ul>\n        <li><strong>GitHub:</strong> ",
    "</li>\n        <li><strong>Senior Year:</strong> ",
    "</li>\n        <li><strong>Interests:</strong> ",
    "</li>\n      </ul>\n      <p><strong>What happens next?</strong></p>\n      <ol>\n        <li>We'll verify your school email</li>\n        <li>Review your application (2-3 business days)</li>\n        <li>Contact you with next steps if approved</li>\n      </ol>\n      <p>In the meantime, check out our projects: \n        <a href=\"https://github.com/stemgharbiya\">github.com/stemgharbiya</a>\n      </p>\n      <p>Questions? Reply to this email.</p>\n      <p>\U{00E2}\U{20AC}\U{201D} STEM Gharbiya Team</p>\n    "]

  /** The values placed in the team email, in template order */
  datatype TeamValues = TeamValues(
    name: string, email: string, github: string, year: string, interests: string,
    motivation: string, date: string, profile: string)
  {
    function Holes(): seq<string> {
      [name, email, github, year, interests, motivation, date, profile]
    }
  }

  /** The six user fields escaped, the submission date, and the username as
      encoded for the profile link */
  function TeamHoles(data: JoinValidated, timestamp: string, encode: string -> string): (h: TeamValues)
    ensures EscapedFrom(h.name, data.fullName) && EscapedFrom(h.email, data.schoolEmail)
    ensures EscapedFrom(h.github, data.githubUsername) && EscapedFrom(h.year, ToUpper(data.seniorYear))
    ensures MarkupFree(h.interests) && EscapedFrom(h.motivation, data.motivation)
    ensures h.date == Take(timestamp, 10) && h.profile == encode(data.githubUsername)
  {
    TeamValues(Escaped(data.fullName), Escaped(data.schoolEmail), Escaped(data.githubUsername),
               Escaped(ToUpper(data.seniorYear)), EscapedList(data.interests), Escaped(data.motivation),
               Take(timestamp, 10), encode(data.githubUsername))
  }

  /** The values placed in the applicant's email, in template order */
  datatype ApplicantValues = ApplicantValues(name: string, github: string, year: string, interests: string)
  {
    function Holes(): seq<string> { [name, github, year, interests] }
  }

  /** Every value in the applicant's email escaped */
  function ApplicantHoles(data: JoinValidated): (h: ApplicantValues)
    ensures EscapedFrom(h.name, data.fullName) && EscapedFrom(h.github, data.githubUsername)
    ensures EscapedFrom(h.year, ToUpper(data.seniorYear)) && MarkupFree(h.interests)
  {
    ApplicantValues(Escaped(data.fullName), Escaped(data.githubUsername), Escaped(ToUpper(data.seniorYear)),
                    EscapedList(data.interests))
  }

  /** `sendTeamEmail`: to the team address */
  function TeamEmail(data: JoinValidated, timestamp: string, env: Env, encode: string -> string): Email {
    Email(env.senderEmail, [env.teamEmail], TeamSubject(data.fullName),
          Fill(TeamPieces, TeamHoles(data, timestamp, encode).Holes()))
  }

  /** `sendApplicantEmail`: to the school email that applied */
  function ApplicantEmail(data: JoinValidated, env: Env): Email {
    Email(env.senderEmail, [data.schoolEmail], "Application Received - STEM Gharbiya Dev Team",
          Fill(ApplicantPieces, ApplicantHoles(data).Holes()))
  }

  /** Both sends are attempted whatever the other's fate (`Promise.allSettled`) */
  datatype Notification = Notification(allFulfilled: bool, handedOver: seq<Email>)

  function Notify(data: JoinValidated, env: Env, w: World): Notification {
    var team := SendResendEmail(TeamEmail(data, w.timestamp, env, w.encodeUriComponent), env, w.mailer);
    var applicant := SendResendEmail(ApplicantEmail(data, env), env, w.mailer);
    Notification(team.fulfilled && applicant.fulfilled, team.handedOver + applicant.handedOver)
  }

  function SentEffects(emails: seq<Email>): (effects: seq<Effect>)
    ensures |effects| == |emails|
    ensures forall i :: 0 <= i < |effects| ==> effects[i] == Send(emails[i])
  {
    seq(|emails|, i requires 0 <= i < |emails| => Send(emails[i]))
  }

  /** The siteverify requests of a verification, as effects */
  function VerifyEffects(calls: seq<SiteverifyRequest>): (effects: seq<Effect>)
    ensures |effects| == |calls|
    ensures forall i :: 0 <= i < |calls| ==> effects[i] == Verify(calls[i])
  {
    seq(|calls|, i requires 0 <= i < |calls| => Verify(calls[i]))
  }

  /** The checks before the insert all pass */
  predicate Cleared(env: Env, data: JoinValidated, ip: string, store: Applications, w: World) {
    && VerifyTurnstile(Str(data.turnstileToken), env.turnstileSecretKey, ip, w.siteverify).rejection.None?
    && w.limiterAllows(data.schoolEmail)
    && !w.lookupThrows
    && !HasApplication(store, data.schoolEmail, data.githubUsername)
  }

  /** The stages up to and including the insert all pass */
  predicate Admitted(env: Env, data: JoinValidated, ip: string, store: Applications, w: World) {
    env.hasDb && Cleared(env, data, ip, store, w) && !w.insertThrows
  }

  /** Where the checks before the insert end: the first refusal, or clearance,
      each with the effects so far */
  datatype Screening = Refused(response: Response, effects: seq<Effect>) | Passed(effects: seq<Effect>)

  /** Turnstile, then the limiter keyed by the school email, then the
      duplicate lookup */
  function Screen(env: Env, data: JoinValidated, ip: string, store: Applications, w: World): (s: Screening)
    ensures s.Passed? <==> Cleared(env, data, ip, store, w)
    ensures s.Refused? && s.response.status == 409 <==>
      VerifyTurnstile(Str(data.turnstileToken), env.turnstileSecretKey, ip, w.siteverify).rejection.None?
      && w.limiterAllows(data.schoolEmail) && !w.lookupThrows
      && HasApplication(store, data.schoolEmail, data.githubUsername)
  {
    var v := VerifyTurnstile(Str(data.turnstileToken), env.turnstileSecretKey, ip, w.siteverify);
    var verified := VerifyEffects(v.calls);
    if v.rejection.Some? then
      assert v.rejection.value.status != 409 by { RejectionsAreGeneric(Str(data.turnstileToken), env.turnstileSecretKey, ip, w.siteverify); }
      Refused(v.rejection.value, verified)
    else if !w.limiterAllows(data.schoolEmail) then
      Refused(ErrorResponse(429, TooManyRequests), verified + [Limit(data.schoolEmail)])
    else
      var checked := verified + [Limit(data.schoolEmail), Lookup(data.schoolEmail, data.githubUsername)];
      if w.lookupThrows then Refused(ErrorResponse(500, ServiceUnavailable), checked)
      else if HasApplication(store, data.schoolEmail, data.githubUsername) then
        Refused(ErrorResponse(409, AlreadyExists), checked)
      else Passed(checked)
  }

  /** `handleJoinRequests(c)` for a body the schema accepted */
  function HandleJoin(env: Env, data: JoinValidated, ip: string, store: Applications, w: World): (o: Outcome)
    ensures !env.hasDb ==> o == Outcome(ErrorResponse(500, ServiceUnavailable), store, [])
    ensures o.response.status == 200 <==> Admitted(env, data, ip, store, w)
    ensures o.response.status != 200 ==> o.store == store
    ensures o.response.status == 200 ==> o.store == store + [RowFor(data, w.timestamp)]
  {
    if !env.hasDb then Outcome(ErrorResponse(500, ServiceUnavailable), store, [])
    else
      match Screen(env, data, ip, store, w)
      case Refused(response, effects) =>
        assert response.status != 200 by { ScreenRefusals(env, data, ip, store, w); }
        Outcome(response, store, effects)
      case Passed(effects) => Record(data, store, w, env, effects)
  }

  /** The insert and the two emails, once screening passed: the status is
      200 whatever the emails do, with a warning exactly when one send
      rejected. */
  function Record(data: JoinValidated, store: Applications, w: World, env: Env, effects: seq<Effect>): (o: Outcome)
    ensures o.response.status == 200 <==> !w.insertThrows
    ensures w.insertThrows ==> o == Outcome(ErrorResponse(500, ServiceUnavailable), store, effects)
    ensures !w.insertThrows ==> o.store == store + [RowFor(data, w.timestamp)]
    ensures !w.insertThrows ==> ("warning" in o.response.body <==> !Notify(data, env, w).allFulfilled)
  {
    if w.insertThrows then Outcome(ErrorResponse(500, ServiceUnavailable), store, effects)
    else
      var row := RowFor(data, w.timestamp);
      var n := Notify(data, env, w);
      var warning := if n.allFulfilled then None else Some(DelayedWarning);
      SuccessWarning(Submitted, warning);
      Outcome(SuccessResponse(Submitted, warning), store + [row],
              effects + [Insert(row)] + SentEffects(n.handedOver))
  }

  /** A refusal before the insert is one of 400, 409, 429, 500 or 503 */
  lemma ScreenRefusals(env: Env, data: JoinValidated, ip: string, store: Applications, w: World)
    ensures var s := Screen(env, data, ip, store, w);
      s.Refused? ==> s.response.status in {400, 409, 429, 500, 503}
  {
    RejectionsAreGeneric(Str(data.turnstileToken), env.turnstileSecretKey, ip, w.siteverify);
  }

  /** The screening of a duplicate that gets past Turnstile and the limiter */
  lemma ScreenDuplicate(env: Env, data: JoinValidated, ip: string, store: Applications, w: World)
    requires w.limiterAllows(data.schoolEmail) && !w.lookupThrows
    requires VerifyTurnstile(Str(data.turnstileToken), env.turnstileSecretKey, ip, w.siteverify).rejection.None?
    requires HasApplication(store, data.schoolEmail, data.githubUsername)
    ensures Screen(env, data, ip, store, w) == Refused(ErrorResponse(409, AlreadyExists),
      [Verify(SiteverifyRequest(env.turnstileSecretKey, Trim(data.turnstileToken), ip)),
       Limit(data.schoolEmail), Lookup(data.schoolEmail, data.githubUsername)])
  {
    var v := VerifyTurnstile(Str(data.turnstileToken), env.turnstileSecretKey, ip, w.siteverify);
    assert v.calls == [SiteverifyRequest(env.turnstileSecretKey, Trim(data.turnstileToken), ip)];
  }

  /** A second application for a stored (school email, GitHub username) pair
      that gets past verification and the limiter is refused with 409, after
      exactly one verification, one limiter call and one lookup. */
  lemma DuplicateRefused(env: Env, data: JoinValidated, ip: string, store: Applications, w: World)
    requires env.hasDb && w.limiterAllows(data.schoolEmail) && !w.lookupThrows
    requires VerifyTurnstile(Str(data.turnstileToken), env.turnstileSecretKey, ip, w.siteverify).rejection.None?
    requires HasApplication(store, data.schoolEmail, data.githubUsername)
    ensures HandleJoin(env, data, ip, store, w) == Outcome(ErrorResponse(409, AlreadyExists), store,
      [Verify(SiteverifyRequest(env.turnstileSecretKey, Trim(data.turnstileToken), ip)),
       Limit(data.schoolEmail), Lookup(data.schoolEmail, data.githubUsername)])
  {
    ScreenDuplicate(env, data, ip, store, w);
  }

  /** After a 200 the response carries a warning exactly when at least one of
      the two sends did not fulfil; the stored row is there either way. */
  lemma WarningIffSendFailed(env: Env, data: JoinValidated, ip: string, store: Applications, w: World)
    requires Admitted(env, data, ip, store, w)
    ensures var o := HandleJoin(env, data, ip, store, w);
      && o.response.status == 200
      && o.store == store + [RowFor(data, w.timestamp)]
      && ("warning" in o.response.body <==> !Notify(data, env, w).allFulfilled)
  {
    var s := Screen(env, data, ip, store, w);
    assert s.Passed?;
    assert HandleJoin(env, data, ip, store, w) == Record(data, store, w, env, s.effects);
  }

  /** The mail provider's answers decide only the warning: two requests that
      differ in nothing but the mail provider's behaviour leave the same
      store and the same status. */
  lemma MailerCannotUndoInsert(env: Env, data: JoinValidated, ip: string, store: Applications, w: World,
                               mailer: Email -> bool)
    ensures var o1 := HandleJoin(env, data, ip, store, w);
      var o2 := HandleJoin(env, data, ip, store, w.(mailer := mailer));
      o1.store == o2.store && o1.response.status == o2.response.status
  {
    assert Screen(env, data, ip, store, w) == Screen(env, data, ip, store, w.(mailer := mailer));
  }

  /** Appending a row whose pair is not stored keeps the pairs unique */
  lemma AppendKeepsUnique(store: Applications, row: ApplicationRow)
    requires Unique(store) && !HasApplication(store, row.schoolEmail, row.githubUsername)
    ensures Unique(store + [row])
  {
    var s := store + [row];
    forall i, j | 0 <= i < j < |s|
      ensures !(s[i].schoolEmail == s[j].schoolEmail && s[i].githubUsername == s[j].githubUsername)
    {
      if j == |store| {
        assert s[i] == store[i];
      } else {
        assert s[i] == store[i] && s[j] == store[j];
      }
    }
  }

  /** The store never holds two applications with the same school email and
      GitHub username: an insert happens only after the lookup found none. */
  lemma HandleJoinKeepsUnique(env: Env, data: JoinValidated, ip: string, store: Applications, w: World)
    requires Unique(store)
    ensures Unique(HandleJoin(env, data, ip, store, w).store)
  {
    if HandleJoin(env, data, ip, store, w).response.status == 200 {
      AppendKeepsUnique(store, RowFor(data, w.timestamp));
    }
  }

  /** Once an application is stored, the same school email and GitHub
      username can never be stored again: a later request that passes
      Turnstile and the limiter meets 409. */
  lemma ResubmissionConflicts(env: Env, data: JoinValidated, ip: string, store: Applications, w: World,
                              later: JoinValidated, laterIp: string, w2: World)
    requires HandleJoin(env, data, ip, store, w).response.status == 200
    requires later.schoolEmail == data.schoolEmail && later.githubUsername == data.githubUsername
    requires w2.limiterAllows(later.schoolEmail) && !w2.lookupThrows
    requires VerifyTurnstile(Str(later.turnstileToken), env.turnstileSecretKey, laterIp, w2.siteverify).rejection.None?
    ensures var stored := HandleJoin(env, data, ip, store, w).store;
      HandleJoin(env, later, laterIp, stored, w2).response.status == 409
      && HandleJoin(env, later, laterIp, stored, w2).store == stored
  {
    var stored := HandleJoin(env, data, ip, store, w).store;
    assert stored[|store|] == RowFor(data, w.timestamp);
    assert HasApplication(stored, later.schoolEmail, later.githubUsername);
    DuplicateRefused(env, later, laterIp, stored, w2);
  }
}

=== FILE: js_values.dfy ===
/** The JavaScript values that reach the model from parsed JSON bodies, form
    data and environment bindings, with JavaScript's truthiness, property read
    and `String(v)` conversion. Numbers are integers here. */
module JsValues {
  import Text

  datatype JsValue =
    | Undefined
    | Null
    | Bool(b: bool)
    | Num(n: int)
    | Str(s: string)
    | Arr(items: seq<JsValue>)
    | Obj(fields: map<string, JsValue>)

  /** JavaScript truthiness: `undefined`, `null`, `false`, `0` and `""` are falsy */
  predicate Truthy(v: JsValue) {
    match v
    case Undefined => false
    case Null => false
    case Bool(b) => b
    case Num(n) => n != 0
    case Str(s) => s != ""
    case Arr(_) => true
    case Obj(_) => true
  }

  /** `typeof v === "object"` (arrays and null included) */
  predicate IsObjectType(v: JsValue) {
    v.Null? || v.Arr? || v.Obj?
  }

  /** `v[key]`: an own property of an object, `undefined` for anything else */
  function Get(v: JsValue, key: string): (r: JsValue)
    ensures !v.Obj? ==> r == Undefined
    ensures v.Obj? && key !in v.fields ==> r == Undefined
  {
    if v.Obj? && key in v.fields then v.fields[key] else Undefined
  }

  /** `String(n)` for an integer */
  function IntToString(n: int): (r: string)
    ensures n >= 0 ==> r == Text.NatToString(n)
    ensures n < 0 ==> r == "-" + Text.NatToString(-n)
  {
    if n < 0 then "-" + Text.NatToString(-n) else Text.NatToString(n)
  }

  /** `String(v)`; array elements that are null or undefined print as empty */
  function ToJsString(v: JsValue): string {
    match v
    case Undefined => "undefined"
    case Null => "null"
    case Bool(b) => if b then "true" else "false"
    case Num(n) => IntToString(n)
    case Str(s) => s
    case Arr(items) =>
      Text.Join(seq(|items|, i requires 0 <= i < |items| =>
                      if items[i].Undefined? || items[i].Null? then "" else ToJsString(items[i])), ",")
    case Obj(_) => "[object Object]"
  }

  /** `a || b` */
  function Or(a: JsValue, b: JsValue): (r: JsValue)
    ensures Truthy(a) ==> r == a
    ensures !Truthy(a) ==> r == b
  {
    if Truthy(a) then a else b
  }
}

=== FILE: kv_rate_limit.dfy ===
/** The fixed-window rate limiter of the legacy Pages function: a counter per
    key in a key-value store, one window of 60 seconds, at most one request
    per window. The store is a map; `now` is the caller's clock reading in
    whole seconds. */
module KvRateLimit {

  const RateLimitWindow: int := 60
  const MaxRequests: int := 1

  /** The JSON record `{count, expires}` stored under a key */
  datatype Entry = Entry(count: int, expires: int)

  type Store = map<string, Entry>

  datatype Decision = Admitted | TooManyRequests

  datatype Outcome = Outcome(store: Store, decision: Decision)

  /** The store key for a caller-supplied key */
  function KvKey(userKey: string): string { "rate:" + userKey }

  /** A record whose expiry is still in the future */
  predicate Live(store: Store, k: string, now: int) {
    k in store && store[k].expires > now
  }

  /** The record that opens a new window at `now` */
  function FreshEntry(now: int): Entry { Entry(1, now + RateLimitWindow) }

  /** Every stored record has counted at least one and at most the ceiling */
  predicate CountsInRange(store: Store) {
    forall k :: k in store ==> 1 <= store[k].count <= MaxRequests
  }

  /** `rateLimit(env, userKey)` */
  function RateLimit(store: Store, userKey: string, now: int): (o: Outcome)
    ensures var k := KvKey(userKey);
      && (o.decision == TooManyRequests <==> Live(store, k, now) && store[k].count >= MaxRequests)
      && (o.decision == TooManyRequests ==> o.store == store)
      && (o.decision == Admitted && !Live(store, k, now) ==> o.store == store[k := FreshEntry(now)])
      && (o.decision == Admitted && Live(store, k, now) ==>
            o.store == store[k := Entry(store[k].count + 1, store[k].expires)])
  {
    var k := KvKey(userKey);
    if k in store then
      var existing := store[k];
      if existing.expires > now then
        if existing.count >= MaxRequests then Outcome(store, TooManyRequests)
        else Outcome(store[k := Entry(existing.count + 1, existing.expires)], Admitted)
      else Outcome(store[k := FreshEntry(now)], Admitted)
    else Outcome(store[k := FreshEntry(now)], Admitted)
  }

  /** Only the record for "rate:" + key is ever written. */
  lemma RateLimitFrame(store: Store, userKey: string, now: int, other: string)
    requires other != KvKey(userKey)
    ensures var o := RateLimit(store, userKey, now);
      (other in o.store <==> other in store) && (other in store ==> o.store[other] == store[other])
  {
  }

  /** Counts stay between 1 and the ceiling whatever the request. */
  lemma RateLimitKeepsCounts(store: Store, userKey: string, now: int)
    requires CountsInRange(store)
    ensures CountsInRange(RateLimit(store, userKey, now).store)
  {
  }

  /** With a ceiling of one, the increment branch is never taken from a store
      whose counts are in range: a live record always rejects. */
  lemma LiveRecordRejects(store: Store, userKey: string, now: int)
    requires CountsInRange(store) && Live(store, KvKey(userKey), now)
    ensures RateLimit(store, userKey, now) == Outcome(store, TooManyRequests)
  {
  }

  /** The store's own expiry (the `expiration` option of each put) removes the
      records whose window has passed */
  function Expire(store: Store, now: int): (r: Store)
    ensures forall k :: k in r <==> Live(store, k, now)
  {
    map k | k in store && store[k].expires > now :: store[k]
  }

  /** Whether the store has already dropped an expired record makes no
      difference: the decision and the record written are the same. */
  lemma ExpiryInvisible(store: Store, userKey: string, now: int)
    ensures var a, b := RateLimit(store, userKey, now), RateLimit(Expire(store, now), userKey, now);
      var k := KvKey(userKey);
      a.decision == b.decision && (k in a.store <==> k in b.store) && (k in a.store ==> a.store[k] == b.store[k])
  {
  }

  /** After an admitted call, the same key at the same instant is refused, and
      a call once the window has ended is admitted again. */
  lemma SecondCallInWindow(store: Store, userKey: string, now: int, later: int)
    requires CountsInRange(store)
    requires RateLimit(store, userKey, now).decision == Admitted
    ensures var s1 := RateLimit(store, userKey, now).store;
      && RateLimit(s1, userKey, now).decision == TooManyRequests
      && (later >= now + RateLimitWindow ==> RateLimit(s1, userKey, later).decision == Admitted)
  {
    var k := KvKey(userKey);
    assert RateLimit(store, userKey, now).store[k] == FreshEntry(now);
  }

  /** The end of a run of calls: the final store and how many were admitted */
  datatype RunResult = RunResult(store: Store, admitted: nat)

  /** A run of calls with one key, in order */
  function Run(store: Store, userKey: string, times: seq<int>): (r: RunResult)
    ensures r.admitted <= |times|
    decreases |times|
  {
    if |times| == 0 then RunResult(store, 0)
    else
      var o := RateLimit(store, userKey, times[0]);
      var rest := Run(o.store, userKey, times[1..]);
      RunResult(rest.store, rest.admitted + if o.decision == Admitted then 1 else 0)
  }

  lemma {:induction false} RunWhileLive(store: Store, userKey: string, times: seq<int>)
    requires CountsInRange(store)
    requires KvKey(userKey) in store
    requires forall i :: 0 <= i < |times| ==> times[i] < store[KvKey(userKey)].expires
    ensures Run(store, userKey, times) == RunResult(store, 0)
    decreases |times|
  {
    if |times| > 0 {
      LiveRecordRejects(store, userKey, times[0]);
      RunWhileLive(store, userKey, times[1..]);
    }
  }

  /** However the calls are spread, calls with one key that all fall inside
      one 60-second span are admitted at most once in total. */
  lemma {:induction false} AtMostOnePerWindow(store: Store, userKey: string, times: seq<int>, start: int)
    requires CountsInRange(store)
    requires forall i :: 0 <= i < |times| ==> start <= times[i] < start + RateLimitWindow
    ensures Run(store, userKey, times).admitted <= MaxRequests
    decreases |times|
  {
    if |times| > 0 {
      var o := RateLimit(store, userKey, times[0]);
      RateLimitKeepsCounts(store, userKey, times[0]);
      if o.decision == Admitted {
        var k := KvKey(userKey);
        if Live(store, k, times[0]) {
          LiveRecordRejects(store, userKey, times[0]);
        }
        assert o.store[k] == FreshEntry(times[0]);
        RunWhileLive(o.store, userKey, times[1..]);
      } else {
        AtMostOnePerWindow(o.store, userKey, times[1..], start);
      }
    }
  }
}

=== FILE: legacy_submit.dfy ===
/** `onRequestPost` of the legacy Pages function `/api/submit`: the older
    join pipeline that reads the raw JSON body itself. It checks the
    configuration, the Turnstile token, the school email's shape, consumes
    rate budget in the KV limiter, then checks the domain and every other
    field inline, refuses duplicates, stores the application and sends two
    emails. It keeps its own copies of the escaper and two validators. */
module LegacySubmit {
  import opened Wrappers
  import opened JsValues
  import opened Text
  import opened Http
  import opened Turnstile
  import opened Mail
  import opened FormsData
  import HtmlEntities
  import SiteUtils
  import KvRateLimit
  import JoinSchema
  import JoinService

  /** `escapeHtml`: "" for a falsy argument, otherwise the five replacements */
  function EscapeHtml(str: string): (r: string)
    ensures str == "" ==> r == ""
    ensures r == HtmlEntities.Escape(str)
  {
    if str == "" then ""
    else
      HtmlEntities.ReplaceChainIsEscape(str);
      HtmlEntities.ReplaceChain(str)
  }

  /** `validateSeniorYear`: `/^[Ss](\d+)$/` and a digit value in 25..30 */
  predicate ValidateSeniorYear(year: string) {
    year != "" && SiteUtils.SeniorYearShape(year) && 25 <= DigitsValue(year[1..]) <= 30
  }

  /** `validateGitHubUsername`: the same regular expression as the site's */
  predicate ValidateGitHubUsername(username: string) {
    |username| >= 1 && IsAlnum(username[0]) && SiteUtils.UnitsMatch(username[1..], 38)
  }

  /** The local copies decide every input the way the site's utilities do. */
  lemma LegacyCopiesAgree(s: string)
    ensures EscapeHtml(s) == SiteUtils.EscapeHtml(s)
    ensures ValidateSeniorYear(s) == SiteUtils.ValidateSeniorYear(s)
    ensures ValidateSeniorYear(s) <==>
      SiteUtils.SeniorYearShape(s) && |s| >= 3
      && SiteUtils.AllZeros(s[1..|s| - 2]) && s[|s| - 2..] in SiteUtils.YearEndings
    ensures ValidateGitHubUsername(s) <==> SiteUtils.GitHubUsernameRule(s)
  {
    SiteUtils.SeniorYearAcceptedForms(s);
    SiteUtils.GitHubUsernameMatchesRule(s);
  }

  /** The local `sendResendEmail`: any truthy DISABLE_EMAILS skips sending;
      a missing API key or sender rejects; otherwise the provider decides. */
  function SendEmail(email: Email, env: Env, provider: Email -> bool): (d: Delivery)
    ensures env.disableEmails != "" ==> d == Delivery(true, [])
    ensures env.disableEmails == "" && (env.resendApiKey == "" || env.senderEmail == "") ==> d == Delivery(false, [])
    ensures env.disableEmails == "" && env.resendApiKey != "" && env.senderEmail != "" ==>
      d.handedOver == [email] && (d.fulfilled <==> provider(email))
  {
    if env.disableEmails != "" then Delivery(true, [])
    else if env.resendApiKey == "" || env.senderEmail == "" then Delivery(false, [])
    else Delivery(provider(email), [email])
  }

  /** The two copies of `sendResendEmail` read DISABLE_EMAILS differently:
      the worker's sends unless it is exactly "true", the legacy one skips
      sending for every non-empty value, "false" included. */
  lemma DisableFlagsDiffer(email: Email, env: Env, provider: Email -> bool)
    requires env.senderEmail != "" && env.disableEmails != "" && env.disableEmails != "true"
    ensures SendEmail(email, env, provider).handedOver == []
    ensures SendResendEmail(email, env, provider).handedOver == [email.(from := env.senderEmail)]
  {
  }

  const InvalidEmail: string := "Invalid email format"
  const InvalidDomain: string := "Invalid school email domain"
  const InvalidName: string := "Invalid name format"
  const InvalidGithub: string := "Invalid GitHub username format"
  const InvalidYear: string := "Invalid senior year format"
  const InvalidMotivation: string := "Invalid motivation format"
  const NoInterest: string := "Select at least one interest"
  const InvalidInterest: string := "Invalid interest selection"

  /** The inline field tests, each on the raw JSON value */
  predicate EmailShapeOk(v: JsValue) { v.Str? && v.s != "" && |v.s| <= MaxSchoolEmail }
  predicate NameOk(v: JsValue) { v.Str? && v.s != "" && |v.s| <= MaxFullName && !IsBlank(v.s) }
  predicate GithubOk(v: JsValue) { v.Str? && v.s != "" && |v.s| <= MaxGithubUsername && ValidateGitHubUsername(v.s) }
  predicate YearOk(v: JsValue) { v.Str? && v.s != "" && ValidateSeniorYear(v.s) }
  predicate MotivationOk(v: JsValue) { v.Str? && v.s != "" && |v.s| <= MaxMotivation && !IsBlank(v.s) }

  /** An interest the list allows once trimmed */
  predicate AllowedItem(v: JsValue) {
    v.Str? && Trim(v.s) in AllowedInterests
  }

  function StrItems(parts: seq<string>): (r: seq<JsValue>)
    ensures |r| == |parts| && forall i :: 0 <= i < |parts| ==> r[i] == Str(parts[i])
  {
    seq(|parts|, i requires 0 <= i < |parts| => Str(parts[i]))
  }

  function Strings(items: seq<JsValue>): (r: seq<string>)
    requires forall i :: 0 <= i < |items| ==> items[i].Str?
    ensures |r| == |items| && forall i :: 0 <= i < |items| ==> items[i] == Str(r[i])
  {
    seq(|items|, i requires 0 <= i < |items| => items[i].s)
  }

  /** `data.interests ? (typeof string ? split(",") : data.interests) : []`,
      as an array when it is one */
  function InterestItems(v: JsValue): (r: Option<seq<JsValue>>)
    ensures !Truthy(v) ==> r == Some([])
    ensures v.Str? && v.s != "" ==> r == Some(StrItems(Split(v.s, ',')))
    ensures v.Arr? ==> r == Some(v.items)
    ensures ((v.Num? && v.n != 0) || v.Obj? || v == Bool(true)) <==> r.None?
  {
    if !Truthy(v) then Some([])
    else if v.Str? then Some(StrItems(Split(v.s, ',')))
    else if v.Arr? then Some(v.items)
    else None
  }

  /** One to five items, each an allowed interest */
  predicate AcceptableItems(items: seq<JsValue>) {
    1 <= |items| <= 5 && forall i :: 0 <= i < |items| ==> AllowedItem(items[i])
  }

  /** The interests check: the count first, then each item; the items are
      kept untrimmed. */
  function Interests(v: JsValue): (r: Result<seq<string>, string>)
    ensures r.Ok? <==> InterestItems(v).Some? && AcceptableItems(InterestItems(v).value)
    ensures r == Err(NoInterest) <==> InterestItems(v).None? || !(1 <= |InterestItems(v).value| <= 5)
    ensures r.Err? ==> r.error in {NoInterest, InvalidInterest}
    ensures r.Ok? ==> StrItems(r.value) == InterestItems(v).value
  {
    var items := InterestItems(v);
    if items.None? || !(1 <= |items.value| <= 5) then Err(NoInterest)
    else if !AcceptableItems(items.value) then Err(InvalidInterest)
    else
      var r := Strings(items.value);
      assert StrItems(r) == items.value;
      Ok(r)
  }

  /** What an accepted interests value means: one to five entries, each
      allowed once trimmed; a string is split on "," untrimmed, an array is
      taken as it is. */
  lemma InterestsAccepted(v: JsValue)
    requires Interests(v).Ok?
    ensures var r := Interests(v).value;
      && 1 <= |r| <= 5
      && (forall i :: 0 <= i < |r| ==> Trim(r[i]) in AllowedInterests)
      && (v.Str? ==> r == Split(v.s, ','))
      && (v.Arr? ==> StrItems(r) == v.items)
  {
    var r := Interests(v).value;
    var items := InterestItems(v).value;
    assert StrItems(r) == items;
    forall i | 0 <= i < |r| ensures Trim(r[i]) in AllowedInterests {
      assert AllowedItem(items[i]);
    }
    if v.Str? {
      assert StrItems(r) == StrItems(Split(v.s, ','));
      StrItemsInjective(r, Split(v.s, ','));
    }
  }

  lemma StrItemsInjective(a: seq<string>, b: seq<string>)
    requires StrItems(a) == StrItems(b)
    ensures a == b
  {
    assert |a| == |b|;
    forall i | 0 <= i < |a| ensures a[i] == b[i] {
      assert StrItems(a)[i] == StrItems(b)[i];
    }
  }

  /** The stored interests column gives back a string input unchanged: the
      split pieces are joined again with ",". */
  lemma StoredInterestsOfString(s: string)
    requires Interests(Str(s)).Ok?
    ensures Join(Interests(Str(s)).value, ",") == s
  {
    InterestsAccepted(Str(s));
    JoinSplit(s, ',');
  }

  /** The fields of an application that passed every inline check */
  datatype Application = Application(
    fullName: string, schoolEmail: string, githubUsername: string, seniorYear: string,
    interests: seq<string>, motivation: string)

  /** The checks after the domain, in source order, on a readable body */
  function Fields(data: JsValue, schoolEmail: string): (r: Result<Application, string>)
    ensures r.Ok? <==> (NameOk(Get(data, "fullName")) && GithubOk(Get(data, "githubUsername"))
      && YearOk(Get(data, "seniorYear")) && MotivationOk(Get(data, "motivation"))
      && Interests(Get(data, "interests")).Ok?)
    ensures r == Err(InvalidName) <==> !NameOk(Get(data, "fullName"))
    ensures r == Err(InvalidGithub) <==> NameOk(Get(data, "fullName")) && !GithubOk(Get(data, "githubUsername"))
    ensures r == Err(InvalidYear) <==> (NameOk(Get(data, "fullName")) && GithubOk(Get(data, "githubUsername"))
      && !YearOk(Get(data, "seniorYear")))
    ensures r == Err(InvalidMotivation) <==> (NameOk(Get(data, "fullName")) && GithubOk(Get(data, "githubUsername"))
      && YearOk(Get(data, "seniorYear")) && !MotivationOk(Get(data, "motivation")))
    ensures r.Ok? ==> r.value == Application(
      Get(data, "fullName").s, schoolEmail, Get(data, "githubUsername").s, Get(data, "seniorYear").s,
      Interests(Get(data, "interests")).value, Get(data, "motivation").s)
  {
    var name, github, year, motivation := Get(data, "fullName"), Get(data, "githubUsername"),
      Get(data, "seniorYear"), Get(data, "motivation");
    if !NameOk(name) then Err(InvalidName)
    else if !GithubOk(github) then Err(InvalidGithub)
    else if !YearOk(year) then Err(InvalidYear)
    else if !MotivationOk(motivation) then Err(InvalidMotivation)
    else
      match Interests(Get(data, "interests"))
      case Err(e) => Err(e)
      case Ok(interests) => Ok(Application(name.s, schoolEmail, github.s, year.s, interests, motivation.s))
  }

  /** The legacy handler asks less of a motivation than the worker schema:
      a non-blank motivation shorter than ten characters passes here and
      makes the schema refuse the whole body. */
  lemma MotivationLooserThanSchema(data: JsValue, isEmail: string -> bool)
    requires MotivationOk(Get(data, "motivation")) && |Get(data, "motivation").s| < 10
    ensures !JoinSchema.JoinAcceptable(data, isEmail)
  {
  }

  /** Everything a request learns from outside */
  datatype World = World(
    siteverify: SiteverifyRequest -> ProviderReply,
    now: int,
    lookupThrows: bool,
    insertThrows: bool,
    mailer: Email -> bool,
    encodeUriComponent: string -> string,
    timestamp: string)

  /** The applications table and the KV namespace of the rate limiter */
  datatype State = State(applications: JoinService.Applications, limits: KvRateLimit.Store)

  datatype Effect =
    | Verify(request: SiteverifyRequest)
    | Lookup(schoolEmail: string, githubUsername: string)
    | Insert(row: JoinService.ApplicationRow)
    | Send(email: Email)

  datatype Outcome = Outcome(response: Response, state: State, effects: seq<Effect>)

  /** DB, Resend key, sender, team address and Turnstile secret are all set */
  predicate Configured(env: Env) {
    env.hasDb && env.resendApiKey != "" && env.senderEmail != "" && env.teamEmail != ""
    && env.turnstileSecretKey != ""
  }

  /** `await request.json()` gave a value whose properties can be read */
  predicate Readable(body: Option<JsValue>) {
    body.Some? && !body.value.Null?
  }

  function Token(data: JsValue): JsValue { Get(data, "cf-turnstile-response") }

  /** The token is present and a string, and the provider accepted it */
  predicate Verified(env: Env, data: JsValue, ip: string, w: World) {
    && Truthy(Token(data)) && Token(data).Str?
    && VerifyTurnstile(Token(data), env.turnstileSecretKey, ip, w.siteverify).rejection.None?
  }

  function VerifyEffects(calls: seq<SiteverifyRequest>): (effects: seq<Effect>)
    ensures |effects| == |calls|
    ensures forall i :: 0 <= i < |calls| ==> effects[i] == Verify(calls[i])
  {
    seq(|calls|, i requires 0 <= i < |calls| => Verify(calls[i]))
  }

  /** Where the steps up to the domain check end */
  datatype Front =
    | Stop(response: Response, limits: KvRateLimit.Store, effects: seq<Effect>)
    | Go(schoolEmail: string, limits: KvRateLimit.Store, effects: seq<Effect>)

  /** The token, Turnstile, the email's shape, the rate limit and the domain */
  function Gate(env: Env, data: JsValue, ip: string, limits: KvRateLimit.Store, w: World): (f: Front)
    ensures f.Go? <==> (Verified(env, data, ip, w) && EmailShapeOk(Get(data, "schoolEmail"))
      && KvRateLimit.RateLimit(limits, Get(data, "schoolEmail").s, w.now).decision == KvRateLimit.Admitted
      && EndsWith(Get(data, "schoolEmail").s, SchoolDomain))
    ensures f.Go? ==> f.schoolEmail == Get(data, "schoolEmail").s
    ensures f.Go? ==> f.limits == KvRateLimit.RateLimit(limits, f.schoolEmail, w.now).store
    ensures f.Stop? && f.limits != limits ==> f.response == ErrorResponse(400, InvalidDomain)
    ensures f.Stop? ==> f.response.status in {400, 429, 500, 503}
  {
    var token := Token(data);
    if !Truthy(token) || !token.Str? then Stop(ErrorResponse(400, InvalidToken), limits, [])
    else
      var v := VerifyTurnstile(token, env.turnstileSecretKey, ip, w.siteverify);
      var verified := VerifyEffects(v.calls);
      if v.rejection.Some? then
        RejectionsAreGeneric(token, env.turnstileSecretKey, ip, w.siteverify);
        Stop(v.rejection.value, limits, verified)
      else
        var email := Get(data, "schoolEmail");
        if !EmailShapeOk(email) then Stop(ErrorResponse(400, InvalidEmail), limits, verified)
        else
          var limited := KvRateLimit.RateLimit(limits, email.s, w.now);
          if limited.decision == KvRateLimit.TooManyRequests then
            Stop(ErrorResponse(429, TooManyRequests), limits, verified)
          else if !EndsWith(email.s, SchoolDomain) then
            Stop(ErrorResponse(400, InvalidDomain), limited.store, verified)
          else Go(email.s, limited.store, verified)
  }

  /** The stored row: name and motivation trimmed, interests joined with ","
      untrimmed, everything else as received */
  function RowFor(app: Application, timestamp: string): (row: JoinService.ApplicationRow)
    ensures row.fullName == Trim(app.fullName) && row.motivation == Trim(app.motivation)
    ensures row.schoolEmail == app.schoolEmail && row.githubUsername == app.githubUsername
    ensures row.seniorYear == app.seniorYear && row.timestamp == timestamp
    ensures (forall i :: 0 <= i < |app.interests| ==> ',' !in app.interests[i]) && |app.interests| >= 1 ==>
      Split(row.interests, ',') == app.interests
  {
    if (forall i :: 0 <= i < |app.interests| ==> ',' !in app.interests[i]) && |app.interests| >= 1 then
      SplitJoin(app.interests, ',');
      JoinService.ApplicationRow(Trim(app.fullName), app.schoolEmail, app.githubUsername, app.seniorYear,
                                 Join(app.interests, ","), Trim(app.motivation), timestamp)
    else
      JoinService.ApplicationRow(Trim(app.fullName), app.schoolEmail, app.githubUsername, app.seniorYear,
                                 Join(app.interests, ","), Trim(app.motivation), timestamp)
  }

  /** The team subject: the first 50 characters of the name, or a stand-in */
  function TeamSubject(fullName: string): (subject: string)
    ensures fullName == "" ==> subject == "New Application: New Applicant"
    ensures fullName != "" ==>
      exists rest :: (subject == "New Application: " + rest && StartsWith(fullName, rest)
        && |rest| == (if |fullName| < 50 then |fullName| else 50))
  {
    var head := Take(fullName, 50);
    "New Application: " + (if head != "" then head else "New Applicant")
  }

  const TeamPieces: seq<string> := [
    "\n      <h2>New GitHub Join Request</h2>\n      <p><strong>Name:</strong> ",
    "</p>\n      <p><strong>Email:</strong> ",
    "</p>\n      <p><strong>GitHub:</strong> ",
    "</p>\n      <p><strong>Senior Year:</strong> ",
    "</p>\n      <p><strong>Interests:</strong> ",
    "</p>\n      <p><strong>Motivation:</strong> ",
    "</p>\n      <p><strong>Submitted:</strong> ",
    "</p>\n      <hr/>\n      <p><a href=\"https://github.com/",
    "\">View GitHub Profile</a></p>\n    "]

  const ApplicantPieces: seq<string> := [
    "\n      <p>Hi ",
    ",</p>\n      <p>Thank you for applying to join the STEM Gharbiya GitHub organization!</p>\n      <p><strong>Application Summary:</strong></p>\n      <ul>\n        <li><strong>GitHub:</strong> ",
    "</li>\n        <li><strong>Senior Year:</strong> ",
    "</li>\n        <li><strong>Interests:</strong> ",
    "</li>\n      </ul>\n      <p><strong>What happens next?</strong></p>\n      <ol>\n        <li>We'll verify your school email</li>\n        <li>Review your application (2-3 business days)</li>\n        <li>Send a GitHub invitation if approved</li>\n      </ol>\n      <p>In the meantime, check out our projects: \n        <a href=\"https://github.com/stemgharbiya\">github.com/stemgharbiya</a>\n      </p>\n      <p>Questions? Reply to this email.</p>\n      <p>\U{2014} STEM Gharbiya Team</p>\n    "]

  /** The user fields escaped, the timestamp as generated, and the username
      as encoded for the profile link */
  function TeamHoles(app: Application, timestamp: string, encode: string -> string): (h: JoinService.TeamValues)
    ensures EscapedFrom(h.name, app.fullName) && EscapedFrom(h.email, app.schoolEmail)
    ensures EscapedFrom(h.github, app.githubUsername) && EscapedFrom(h.year, ToUpper(app.seniorYear))
    ensures MarkupFree(h.interests) && EscapedFrom(h.motivation, app.motivation)
    ensures h.date == timestamp && h.profile == encode(app.githubUsername)
  {
    JoinService.TeamValues(Escaped(app.fullName), Escaped(app.schoolEmail), Escaped(app.githubUsername),
                           Escaped(ToUpper(app.seniorYear)), EscapedList(app.interests), Escaped(app.motivation),
                           timestamp, encode(app.githubUsername))
  }

  function ApplicantHoles(app: Application): (h: JoinService.ApplicantValues)
    ensures EscapedFrom(h.name, app.fullName) && EscapedFrom(h.github, app.githubUsername)
    ensures EscapedFrom(h.year, ToUpper(app.seniorYear)) && MarkupFree(h.interests)
  {
    JoinService.ApplicantValues(Escaped(app.fullName), Escaped(app.githubUsername),
                                Escaped(ToUpper(app.seniorYear)), EscapedList(app.interests))
  }

  function TeamEmail(app: Application, timestamp: string, env: Env, encode: string -> string): Email {
    Email(env.senderEmail, [env.teamEmail], TeamSubject(app.fullName),
          Fill(TeamPieces, TeamHoles(app, timestamp, encode).Holes()))
  }

  function ApplicantEmail(app: Application, env: Env): Email {
    Email(env.senderEmail, [app.schoolEmail], "Application Received - STEM Gharbiya GitHub",
          Fill(ApplicantPieces, ApplicantHoles(app).Holes()))
  }

  datatype Notification = Notification(allFulfilled: bool, handedOver: seq<Email>)

  function Notify(app: Application, env: Env, w: World): Notification {
    var team := SendEmail(TeamEmail(app, w.timestamp, env, w.encodeUriComponent), env, w.mailer);
    var applicant := SendEmail(ApplicantEmail(app, env), env, w.mailer);
    Notification(team.fulfilled && applicant.fulfilled, team.handedOver + applicant.handedOver)
  }

  function SentEffects(emails: seq<Email>): (effects: seq<Effect>)
    ensures |effects| == |emails|
    ensures forall i :: 0 <= i < |effects| ==> effects[i] == Send(emails[i])
  {
    seq(|emails|, i requires 0 <= i < |emails| => Send(emails[i]))
  }

  /** The duplicate lookup, the insert and the emails for a checked
      application */
  function Commit(app: Application, st: State, w: World, env: Env, effects: seq<Effect>): (o: Outcome)
    ensures o.state.limits == st.limits
    ensures o.response.status == 200 <==>
      !w.lookupThrows && !JoinService.HasApplication(st.applications, app.schoolEmail, app.githubUsername)
      && !w.insertThrows
    ensures o.response.status != 200 ==> o.state == st && o.response.status in {409, 500}
    ensures o.response.status == 409 <==>
      !w.lookupThrows && JoinService.HasApplication(st.applications, app.schoolEmail, app.githubUsername)
    ensures o.response.status == 200 ==>
      o.state.applications == st.applications + [RowFor(app, w.timestamp)]
  {
    var checked := effects + [Lookup(app.schoolEmail, app.githubUsername)];
    if w.lookupThrows then Outcome(ErrorResponse(500, ServiceUnavailable), st, checked)
    else if JoinService.HasApplication(st.applications, app.schoolEmail, app.githubUsername) then
      Outcome(ErrorResponse(409, JoinService.AlreadyExists), st, checked)
    else if w.insertThrows then Outcome(ErrorResponse(500, ServiceUnavailable), st, checked)
    else
      var row := RowFor(app, w.timestamp);
      var n := Notify(app, env, w);
      var warning := if n.allFulfilled then None else Some(JoinService.DelayedWarning);
      Outcome(SuccessResponse(JoinService.Submitted, warning), st.(applications := st.applications + [row]),
              checked + [Insert(row)] + SentEffects(n.handedOver))
  }

  /** The application a request would store, when every check up to the
      insert passes */
  predicate Admitted(env: Env, body: Option<JsValue>, ip: string, st: State, w: World) {
    && Configured(env) && Readable(body)
    && Gate(env, body.value, ip, st.limits, w).Go?
    && Fields(body.value, Get(body.value, "schoolEmail").s).Ok?
    && !w.lookupThrows && !w.insertThrows
    && !JoinService.HasApplication(st.applications, Get(body.value, "schoolEmail").s,
                                   Get(body.value, "githubUsername").s)
  }

  /** `onRequestPost(context)`; `body` is None when the body is not JSON */
  function HandleSubmit(env: Env, body: Option<JsValue>, ip: string, st: State, w: World): (o: Outcome)
    ensures !Configured(env) || !Readable(body) ==> o == Outcome(ErrorResponse(500, ServiceUnavailable), st, [])
    ensures o.response.status == 200 <==> Admitted(env, body, ip, st, w)
    ensures o.response.status != 200 ==> o.state.applications == st.applications
    ensures o.response.status == 200 ==>
      o.state.applications == st.applications + [RowFor(Fields(body.value, Get(body.value, "schoolEmail").s).value, w.timestamp)]
  {
    if !Configured(env) || !Readable(body) then Outcome(ErrorResponse(500, ServiceUnavailable), st, [])
    else
      match Gate(env, body.value, ip, st.limits, w)
      case Stop(response, limits, effects) => Outcome(response, st.(limits := limits), effects)
      case Go(schoolEmail, limits, effects) =>
        match Fields(body.value, schoolEmail)
        case Err(message) => Outcome(ErrorResponse(400, message), st.(limits := limits), effects)
        case Ok(app) => Commit(app, st.(limits := limits), w, env, effects)
  }

  /** A missing or non-string token is refused before Turnstile is asked and
      before anything is written. */
  lemma TokenCheckedFirst(env: Env, body: Option<JsValue>, ip: string, st: State, w: World)
    requires Configured(env) && Readable(body)
    requires !Truthy(Token(body.value)) || !Token(body.value).Str?
    ensures HandleSubmit(env, body, ip, st, w) == Outcome(ErrorResponse(400, InvalidToken), st, [])
  {
  }

  /** The domain is checked only after the limiter has counted the request:
      a wrong-domain address is refused with 400 yet its rate record is
      written, so the same address is refused with 429 for the rest of the
      window. */
  lemma WrongDomainConsumesBudget(env: Env, body: Option<JsValue>, ip: string, st: State, w: World)
    requires Configured(env) && Readable(body) && KvRateLimit.CountsInRange(st.limits)
    requires Verified(env, body.value, ip, w) && EmailShapeOk(Get(body.value, "schoolEmail"))
    requires KvRateLimit.RateLimit(st.limits, Get(body.value, "schoolEmail").s, w.now).decision == KvRateLimit.Admitted
    requires !EndsWith(Get(body.value, "schoolEmail").s, SchoolDomain)
    ensures var o := HandleSubmit(env, body, ip, st, w);
      var email := Get(body.value, "schoolEmail").s;
      && o.response == ErrorResponse(400, InvalidDomain)
      && o.state.applications == st.applications
      && o.state.limits == KvRateLimit.RateLimit(st.limits, email, w.now).store
      && KvRateLimit.RateLimit(o.state.limits, email, w.now).decision == KvRateLimit.TooManyRequests
  {
    var email := Get(body.value, "schoolEmail").s;
    assert Gate(env, body.value, ip, st.limits, w).Stop?;
    KvRateLimit.SecondCallInWindow(st.limits, email, w.now, w.now);
  }

  /** A request whose every field passes but whose (school email, GitHub
      username) pair is stored already is refused with 409; nothing is
      inserted. */
  lemma DuplicateRefused(env: Env, body: Option<JsValue>, ip: string, st: State, w: World)
    requires Configured(env) && Readable(body)
    requires Gate(env, body.value, ip, st.limits, w).Go?
    requires Fields(body.value, Get(body.value, "schoolEmail").s).Ok? && !w.lookupThrows
    requires JoinService.HasApplication(st.applications, Get(body.value, "schoolEmail").s,
                                        Get(body.value, "githubUsername").s)
    ensures var o := HandleSubmit(env, body, ip, st, w);
      o.response == ErrorResponse(409, JoinService.AlreadyExists) && o.state.applications == st.applications
  {
    var g := Gate(env, body.value, ip, st.limits, w);
    var app := Fields(body.value, g.schoolEmail).value;
    assert Commit(app, st.(limits := g.limits), w, env, g.effects).response.status == 409;
  }

  /** The applications table never holds two rows with the same school email
      and GitHub username. */
  lemma HandleSubmitKeepsUnique(env: Env, body: Option<JsValue>, ip: string, st: State, w: World)
    requires JoinService.Unique(st.applications)
    ensures JoinService.Unique(HandleSubmit(env, body, ip, st, w).state.applications)
  {
    if HandleSubmit(env, body, ip, st, w).response.status == 200 {
      var app := Fields(body.value, Get(body.value, "schoolEmail").s).value;
      JoinService.AppendKeepsUnique(st.applications, RowFor(app, w.timestamp));
    }
  }

  /** After a successful insert the status is 200 whatever the emails do;
      the response carries a warning exactly when one send rejected. */
  lemma WarningIffSendFailed(app: Application, st: State, w: World, env: Env, effects: seq<Effect>)
    requires !w.lookupThrows && !w.insertThrows
    requires !JoinService.HasApplication(st.applications, app.schoolEmail, app.githubUsername)
    ensures var o := Commit(app, st, w, env, effects);
      && o.response.status == 200
      && o.state.applications == st.applications + [RowFor(app, w.timestamp)]
      && ("warning" in o.response.body <==> !Notify(app, env, w).allFulfilled)
  {
    var n := Notify(app, env, w);
    SuccessWarning(JoinService.Submitted, if n.allFulfilled then None else Some(JoinService.DelayedWarning));
  }

  /** The mail provider decides only the warning, never the stored rows, the
      rate records or the status. */
  lemma MailerCannotUndoInsert(env: Env, body: Option<JsValue>, ip: string, st: State, w: World,
                               mailer: Email -> bool)
    ensures var o1 := HandleSubmit(env, body, ip, st, w);
      var o2 := HandleSubmit(env, body, ip, st, w.(mailer := mailer));
      o1.state == o2.state && o1.response.status == o2.response.status
  {
    var w2 := w.(mailer := mailer);
    if Configured(env) && Readable(body) {
      GateIgnoresMailer(env, body.value, ip, st.limits, w, mailer);
      var g := Gate(env, body.value, ip, st.limits, w);
      if g.Go? && Fields(body.value, g.schoolEmail).Ok? {
        CommitIgnoresMailer(Fields(body.value, g.schoolEmail).value, st.(limits := g.limits), w, env, g.effects, mailer);
      }
    }
  }

  lemma GateIgnoresMailer(env: Env, data: JsValue, ip: string, limits: KvRateLimit.Store, w: World,
                          mailer: Email -> bool)
    ensures Gate(env, data, ip, limits, w) == Gate(env, data, ip, limits, w.(mailer := mailer))
  {
    var w2 := w.(mailer := mailer);
    assert w2.siteverify == w.siteverify && w2.now == w.now;
  }

  lemma CommitIgnoresMailer(app: Application, st: State, w: World, env: Env, effects: seq<Effect>,
                            mailer: Email -> bool)
    ensures var o1 := Commit(app, st, w, env, effects);
      var o2 := Commit(app, st, w.(mailer := mailer), env, effects);
      o1.state == o2.state && o1.response.status == o2.response.status
  {
    var w2 := w.(mailer := mailer);
    assert w2.lookupThrows == w.lookupThrows && w2.insertThrows == w.insertThrows && w2.timestamp == w.timestamp;
    var o1 := Commit(app, st, w, env, effects);
    var o2 := Commit(app, st, w2, env, effects);
    assert o1.response.status == 200 <==> o2.response.status == 200;
    assert o1.response.status == 409 <==> o2.response.status == 409;
    assert o1.state.applications == o2.state.applications;
  }
}

=== FILE: mail.dfy ===
/** Notification emails: the message handed to the email provider, the
    sending rule of `sendResendEmail`, and the shape every template shares —
    fixed markup with user values placed in holes between its pieces. */
module Mail {
  import opened Text
  import opened Http
  import HtmlEntities
  import WorkerUtils

  datatype Email = Email(from: string, to: seq<string>, subject: string, html: string)

  /** Whether the send promise fulfilled, and the messages actually handed to
      the provider on the way */
  datatype Delivery = Delivery(fulfilled: bool, handedOver: seq<Email>)

  /** `sendResendEmail(emailData, env)`; `provider` says whether the provider
      accepted a message (no `error` in its answer) */
  function SendResendEmail(email: Email, env: Env, provider: Email -> bool): (d: Delivery)
    ensures env.disableEmails == "true" ==> d == Delivery(true, [])
    ensures env.disableEmails != "true" && env.senderEmail == "" ==> d == Delivery(false, [])
    ensures env.disableEmails != "true" && env.senderEmail != "" ==>
      d.handedOver == [email.(from := env.senderEmail)] && (d.fulfilled <==> provider(email.(from := env.senderEmail)))
  {
    if env.disableEmails == "true" then Delivery(true, [])
    else if env.senderEmail == "" then Delivery(false, [])
    else
      var sent := email.(from := env.senderEmail);
      Delivery(provider(sent), [sent])
  }

  /** Text without the characters that open a tag or close an attribute */
  predicate MarkupFree(s: string) {
    '<' !in s && '>' !in s && '"' !in s && '\'' !in s
  }

  /** A template literal: pieces of fixed text with a value between each
      pair; a template has one piece more than it has values. */
  function Fill(pieces: seq<string>, holes: seq<string>): string
    decreases |pieces|
  {
    if |pieces| == 0 then ""
    else if |holes| == 0 then pieces[0] + Fill(pieces[1..], [])
    else pieces[0] + holes[0] + Fill(pieces[1..], holes[1..])
  }

  /** An escaped value, placed in a hole, cannot add markup and still reads
      back as the original text. */
  lemma EscapedHole(s: string)
    ensures MarkupFree(HtmlEntities.Escape(s))
    ensures HtmlEntities.Unescape(HtmlEntities.Escape(s)) == s
  {
    HtmlEntities.UnescapeEscape(s);
  }

  /** A list of escaped values joined with ", " is free of markup too. */
  lemma {:induction false} JoinMarkupFree(parts: seq<string>)
    requires forall i :: 0 <= i < |parts| ==> MarkupFree(parts[i])
    ensures MarkupFree(Join(parts, ", "))
    decreases |parts|
  {
    if |parts| > 1 {
      JoinMarkupFree(parts[1..]);
      assert Join(parts, ", ") == parts[0] + ", " + Join(parts[1..], ", ");
    }
  }

  /** `items.map(escapeHtml).join(", ")` */
  function EscapeEach(items: seq<string>): (r: seq<string>)
    ensures |r| == |items|
    ensures forall i :: 0 <= i < |items| ==> r[i] == HtmlEntities.Escape(items[i])
  {
    seq(|items|, i requires 0 <= i < |items| => HtmlEntities.Escape(items[i]))
  }

  function EscapedList(items: seq<string>): (r: string)
    ensures MarkupFree(r)
  {
    var escaped := EscapeEach(items);
    forall i | 0 <= i < |escaped| ensures MarkupFree(escaped[i]) {
      EscapedHole(items[i]);
    }
    JoinMarkupFree(escaped);
    Join(escaped, ", ")
  }

  /** A hole holding the escaped form of s: it adds no markup, and it reads
      back as s */
  predicate EscapedFrom(e: string, s: string) {
    MarkupFree(e) && HtmlEntities.Unescape(e) == s
  }

  function Escaped(s: string): (e: string)
    ensures e == HtmlEntities.Escape(s)
    ensures EscapedFrom(e, s)
  {
    EscapedHole(s);
    WorkerUtils.EscapeHtml(s)
  }
}

=== FILE: public_join.dfy ===
/** The join form script served with the legacy Pages function: its own
    email and senior-year checks, the submit handler's checks, and how it
    shows the reply of `/api/submit`. A form field that is missing reads as
    `null`; reading a property of it throws and ends the handler. */
module PublicJoinScript {
  import opened Wrappers
  import opened JsValues
  import opened Text
  import opened SharedForm
  import SiteUtils
  import FormsData
  import ClientJoin

  datatype Field = Interests | SchoolEmail | SeniorYear | Motivation | FullName | GithubUsername | Agreement

  datatype Problem =
    | NoInterest
    | NotSchoolEmail
    | BadYear
    | BadMotivation
    | Blank(field: Field)
    | NoAgreement
    | NoCaptcha

  /** The text shown for each problem */
  function Message(p: Problem): string {
    match p
    case NoInterest => "Select at least one interest"
    case NotSchoolEmail => "Must be a STEM Gharbiya school email (@stemgharbiya.moe.edu.eg)"
    case BadYear => "Senior Year must be S25 through S30 only (e.g., S25, S26, S27)"
    case BadMotivation => "Motivation must be 10-500 characters"
    case Blank(_) => "This field is required"
    case NoAgreement => "You must agree to the Code of Conduct"
    case NoCaptcha => "Please complete the Turnstile captcha before submitting."
  }

  /** The form fields the handler reads, as `formData.get` returns them:
      None for `null` */
  datatype Fields = Fields(schoolEmail: Option<string>, seniorYear: Option<string>, motivation: Option<string>,
                           fullName: Option<string>, githubUsername: Option<string>, agreement: Option<string>)

  function Get(form: map<string, string>, name: string): Option<string> {
    if name in form then Some(form[name]) else None
  }

  function Read(form: map<string, string>): Fields {
    Fields(Get(form, "schoolEmail"), Get(form, "seniorYear"), Get(form, "motivation"),
           Get(form, "fullName"), Get(form, "githubUsername"), Get(form, "agreement"))
  }

  /** `validateEmail`: only the school domain suffix, as typed */
  predicate EmailOk(email: string) { EndsWith(email, FormsData.SchoolDomain) }

  /** `validateSeniorYear`: null and "" fail; otherwise `S`/`s` and digits whose
      value is 25..30 */
  predicate SeniorYearOk(year: Option<string>) {
    && year.Some? && year.value != ""
    && |year.value| >= 2 && SiteUtils.IsYearPrefix(year.value[0]) && AllDigits(year.value[1..])
    && 25 <= DigitsValue(year.value[1..]) <= 30
  }

  /** This copy agrees with the site's `validateSeniorYear` on every string. */
  lemma SeniorYearCopiesAgree(year: string)
    ensures SeniorYearOk(Some(year)) <==> SiteUtils.ValidateSeniorYear(year)
    ensures !SeniorYearOk(None)
  {
  }

  /** The handler either throws part-way (on a missing email or motivation
      field), having shown the problems found so far, or finishes its checks */
  datatype Outcome = Threw(shown: seq<Problem>) | Checked(problems: seq<Problem>)

  /** `formData.get(field)?.trim()` is empty or missing */
  predicate BlankOrMissing(v: Option<string>) { v.None? || IsBlank(v.value) }

  /** `!formData.get("agreement")`: missing or empty */
  predicate Unticked(v: Option<string>) { v.None? || v.value == "" }

  /** The widget's response is missing, not a string, or blank */
  predicate TokenMissing(token: JsValue) { !(token.Str? && !IsBlank(token.s)) }

  /** The verdicts of the checks after the motivation, which cannot throw;
      each is true when that check fails */
  datatype Later = Later(blankName: bool, blankGithub: bool, noAgreement: bool, noCaptcha: bool)

  function JudgeLater(f: Fields, token: JsValue): (v: Later)
    ensures v.blankName <==> BlankOrMissing(f.fullName)
    ensures v.blankGithub <==> BlankOrMissing(f.githubUsername)
    ensures v.noAgreement <==> Unticked(f.agreement)
    ensures v.noCaptcha <==> TokenMissing(token)
  {
    Later(BlankOrMissing(f.fullName), BlankOrMissing(f.githubUsername), Unticked(f.agreement), TokenMissing(token))
  }

  function LaterProblems(v: Later): (r: seq<Problem>)
    ensures Blank(FullName) in r <==> v.blankName
    ensures Blank(GithubUsername) in r <==> v.blankGithub
    ensures NoAgreement in r <==> v.noAgreement
    ensures NoCaptcha in r <==> v.noCaptcha
    ensures forall x :: x in r ==> x in {Blank(FullName), Blank(GithubUsername), NoAgreement, NoCaptcha}
    ensures r == [] <==> !(v.blankName || v.blankGithub || v.noAgreement || v.noCaptcha)
  {
    var r1 := AddIf([], v.blankName, Blank(FullName));
    var r2 := AddIf(r1, v.blankGithub, Blank(GithubUsername));
    var r3 := AddIf(r2, v.noAgreement, NoAgreement);
    AddIf(r3, v.noCaptcha, NoCaptcha)
  }

  /** The checks up to the motivation, once both fields it reads are there */
  function EarlyProblems(email: string, year: Option<string>, motivation: string, interests: seq<string>)
    : (r: seq<Problem>)
    ensures NoInterest in r <==> interests == []
    ensures NotSchoolEmail in r <==> !EmailOk(email)
    ensures BadYear in r <==> !SeniorYearOk(year)
    ensures BadMotivation in r <==> !(10 <= |motivation| <= 500)
    ensures forall x :: x in r ==> x in {NoInterest, NotSchoolEmail, BadYear, BadMotivation}
    ensures r == [] <==> (interests != [] && EmailOk(email) && SeniorYearOk(year) && 10 <= |motivation| <= 500)
  {
    var r1 := AddIf([], interests == [], NoInterest);
    var r2 := AddIf(r1, !EmailOk(email), NotSchoolEmail);
    var r3 := AddIf(r2, !SeniorYearOk(year), BadYear);
    AddIf(r3, !(10 <= |motivation| <= 500), BadMotivation)
  }

  /** The submit handler's checks in order. `token` is what
      `window.turnstile?.getResponse()` returns. A missing email throws in
      `validateEmail` after the interests check; a missing motivation throws
      on `.length` after the year check. */
  function Check(f: Fields, interests: seq<string>, token: JsValue): (r: Outcome)
    ensures r.Threw? <==> f.schoolEmail.None? || f.motivation.None?
    ensures f.schoolEmail.None? ==> r == Threw(AddIf([], interests == [], NoInterest))
    ensures r.Checked? ==>
              r.problems == EarlyProblems(f.schoolEmail.value, f.seniorYear, f.motivation.value, interests)
                            + LaterProblems(JudgeLater(f, token))
  {
    if f.schoolEmail.None? then Threw(AddIf([], interests == [], NoInterest))
    else if f.motivation.None? then
      var r1 := AddIf([], interests == [], NoInterest);
      var r2 := AddIf(r1, !EmailOk(f.schoolEmail.value), NotSchoolEmail);
      Threw(AddIf(r2, !SeniorYearOk(f.seniorYear), BadYear))
    else
      Checked(EarlyProblems(f.schoolEmail.value, f.seniorYear, f.motivation.value, interests)
              + LaterProblems(JudgeLater(f, token)))
  }

  /** The handler finishes with no problem exactly when every field is there
      and passes its check. */
  lemma CheckPassesIff(f: Fields, interests: seq<string>, token: JsValue)
    ensures Check(f, interests, token) == Checked([])
        <==> (&& f.schoolEmail.Some? && f.motivation.Some? && interests != []
              && EmailOk(f.schoolEmail.value) && SeniorYearOk(f.seniorYear)
              && 10 <= |f.motivation.value| <= 500
              && !BlankOrMissing(f.fullName) && !BlankOrMissing(f.githubUsername)
              && !Unticked(f.agreement) && !TokenMissing(token))
  {
    var r := Check(f, interests, token);
    if r.Checked? {
      var early := EarlyProblems(f.schoolEmail.value, f.seniorYear, f.motivation.value, interests);
      var later := LaterProblems(JudgeLater(f, token));
      assert r.problems == [] <==> early == [] && later == [] by {
        assert |r.problems| == |early| + |later|;
      }
    }
  }

  /** The body posted to `/api/submit`: sent exactly when the checks finish
      with no problem, carrying the token and the comma-joined interests */
  function Submission(form: map<string, string>, interests: seq<string>, token: JsValue): (r: Option<map<string, string>>)
    ensures r.Some? <==> Check(Read(form), interests, token) == Checked([])
    ensures r.Some? ==> token.Str? && r.value == ClientJoin.Payload(form, interests, token.s)
  {
    if Check(Read(form), interests, token) == Checked([]) then
      CheckPassesIff(Read(form), interests, token);
      Some(ClientJoin.Payload(form, interests, token.s))
    else None
  }

  /** This script never checks the GitHub username's format: any non-blank
      username leaves every check's outcome as it was. */
  lemma NoGithubFormatCheck(f: Fields, interests: seq<string>, token: JsValue, other: string)
    requires !IsBlank(other) && !BlankOrMissing(f.githubUsername)
    ensures Check(f.(githubUsername := Some(other)), interests, token) == Check(f, interests, token)
  {
    assert JudgeLater(f.(githubUsername := Some(other)), token) == JudgeLater(f, token);
  }

  /** A student address, once trimmed and lower-cased, passes this
      script's suffix check. */
  lemma NormalStudentEmailAccepted(email: string)
    requires SiteUtils.ValidateStudentSchoolEmail(email)
    ensures EmailOk(ToLower(Trim(email)))
  {
    var s := ToLower(Trim(email));
    assert SiteUtils.StudentEmailPattern(s);
    assert |FormsData.SchoolDomain| == 24 < |s|;
    assert s[|s| - 24..] == FormsData.SchoolDomain;
  }

  /** No upper-cased address passes the suffix check, which is case
      sensitive: the domain ends in a lower-case letter. */
  lemma UpperCaseRejected(email: string)
    ensures !EmailOk(ToUpper(email))
  {
    var u := ToUpper(email);
    var n := |u|;
    SiteUtils.SchoolDomainChars();
    if n >= 24 {
      assert u[n - 1] == UpperChar(email[n - 1]) != 'g';
      assert u[n - 24..][23] != FormsData.SchoolDomain[23];
    }
  }

  /** An address the site's script accepts is still accepted there once
      written in capitals, and then fails here. */
  lemma CapitalStudentEmailDiffers(email: string)
    requires SiteUtils.ValidateStudentSchoolEmail(email)
    ensures SiteUtils.ValidateStudentSchoolEmail(ToUpper(email))
    ensures !EmailOk(ToUpper(email))
  {
    SiteUtils.StudentEmailNormalised(email, "", "");
    UpperCaseRejected(email);
  }

  /** A school address with a short local part and no student number, such
      as `ahmed@stemgharbiya.moe.edu.eg`, passes here and not in the site's
      script. */
  lemma PlainSchoolEmailDiffers(name: string)
    requires |name| <= 8
    ensures EmailOk(name + FormsData.SchoolDomain)
    ensures !SiteUtils.ValidateStudentSchoolEmail(name + FormsData.SchoolDomain)
  {
    var a := name + FormsData.SchoolDomain;
    assert a[|name|..] == FormsData.SchoolDomain;
    assert |ToLower(Trim(a))| <= |a| <= SiteUtils.StudentTailLength;
  }

  /** `submitForm` after the request. Unlike the site's script, a 400 shows
      only the body's `error` and `details`; a property read on a null body
      throws and is shown with `engineMessage`. */
  function Dispatch(reply: Reply, engineMessage: string): (r: Shown)
    ensures reply.NoConnection? ==>
              (r.alert.title == "Network Error" <==> Contains(reply.message, FetchFailure))
    ensures r.clearsDraft <==> reply.Reply? && IsOk(reply.status) && reply.body.Some? && !Nullish(reply.body.value)
    ensures reply.Reply? && reply.status == 403 && reply.body.Some? ==>
              r.alert.kind == WarningAlert && r.resetsForm && !r.clearsDraft
    ensures reply.Reply? && reply.status == 400 && reply.body.Some? && !Nullish(reply.body.value) ==>
              r.alert.kind == ErrorAlert && r.alert.title == ValidationTitle
              && r.alert.message == ToJsString(Or(JsValues.Get(reply.body.value, "error"), Str(CheckInputs)))
              && r.alert.details == ToJsString(Or(JsValues.Get(reply.body.value, "details"), Str("")))
              && !r.clearsDraft && !r.resetsForm
    ensures reply.Reply? && reply.body.None? ==> r == SubmissionFailed(engineMessage)
    ensures reply.Reply? && reply.status == 409 && reply.body.Some? && !Nullish(reply.body.value) ==>
              r == Shown(Alert(ErrorAlert, ClientJoin.DuplicateTitle, ToJsString(Or(JsValues.Get(reply.body.value, "error"), Str(ClientJoin.DuplicateMessage))), ""),
                         false, false)
    ensures reply.Reply? && !IsOk(reply.status) && reply.status != 400 && reply.status != 403 && reply.status != 409
            && reply.body.Some? && !Nullish(reply.body.value) ==>
              r == ServerErrorThrown(reply.body.value, reply.status)
    ensures reply.Reply? && reply.body.Some? && Nullish(reply.body.value) && reply.status != 403 ==>
              r == SubmissionFailed(engineMessage)
    ensures reply.Reply? && IsOk(reply.status) && reply.body.Some? && !Nullish(reply.body.value) ==>
              r == SuccessShown(ClientJoin.SuccessTitle, ClientJoin.SuccessMessage, reply.body.value)
  {
    match reply
    case NoConnection(message) => ConnectionFailed(message)
    case Reply(status, body) =>
      if body.None? then SubmissionFailed(engineMessage)
      else
        var result := body.value;
        if !IsOk(status) then
          if status == 403 then
            Shown(Alert(WarningAlert, ClientJoin.ReceivedTitle, ClientJoin.ReceivedMessage, ClientJoin.ReceivedDetails),
                  false, true)
          else if Nullish(result) then SubmissionFailed(engineMessage)
          else if status == 400 then
            Shown(Alert(ErrorAlert, ValidationTitle, ToJsString(Or(JsValues.Get(result, "error"), Str(CheckInputs))),
                        ToJsString(Or(JsValues.Get(result, "details"), Str("")))), false, false)
          else if status == 409 then
            Shown(Alert(ErrorAlert, ClientJoin.DuplicateTitle,
                        ToJsString(Or(JsValues.Get(result, "error"), Str(ClientJoin.DuplicateMessage))), ""),
                  false, false)
          else ServerErrorThrown(result, status)
        else if Nullish(result) then SubmissionFailed(engineMessage)
        else SuccessShown(ClientJoin.SuccessTitle, ClientJoin.SuccessMessage, result)
  }

  /** The static page and the site's join script react alike to every
      outcome except a 400, where only the site's script reads `issues` and
      the nested error shapes. */
  lemma ScriptsAgreeExceptValidation(reply: Reply, stringify: JsValue -> string, engineMessage: string)
    requires !(reply.Reply? && reply.status == 400)
    ensures Dispatch(reply, engineMessage) == ClientJoin.Dispatch(reply, stringify, engineMessage)
  {
  }

  /** For every error body the legacy handler sends, both join scripts show
      the same alert. */
  lemma ScriptsAgreeOnServerErrors(status: int, message: string, stringify: JsValue -> string,
                                   engineMessage: string)
    requires message != ""
    ensures var reply := Reply(status, Some(Obj(Http.ErrorResponse(status, message).body)));
      Dispatch(reply, engineMessage) == ClientJoin.Dispatch(reply, stringify, engineMessage)
  {
    ReadsServerErrors(status, message, stringify);
  }
}

=== FILE: shared_form.dfy ===
/** `extractValidationError`, the client helper that turns an error body
    from either server into the alert text and an optional details line.
    `JSON.stringify` is a parameter. */
module SharedForm {
  import opened Wrappers
  import opened JsValues
  import opened Text
  import opened Http
  import Zod
  import WorkerApp

  /** The two outputs; each is whatever value the body supplied, so not
      necessarily a string */
  datatype Extracted = Extracted(errMsg: JsValue, details: JsValue)

  const CheckInputs: string := "Please check your form inputs"
  const ValidationFailed: string := "Validation failed"

  /** `i.message || JSON.stringify(i)`; reading a property of null or
      undefined throws */
  function IssueText(item: JsValue, stringify: JsValue -> string): (r: Option<string>)
    ensures r.None? <==> item.Null? || item.Undefined?
    ensures r.Some? && Truthy(Get(item, "message")) ==> r.value == ToJsString(Get(item, "message"))
    ensures r.Some? && !Truthy(Get(item, "message")) ==> r.value == stringify(item)
  {
    if item.Null? || item.Undefined? then None
    else if Truthy(Get(item, "message")) then Some(ToJsString(Get(item, "message")))
    else Some(stringify(item))
  }

  /** The issue texts in order, or None when one of them throws */
  function IssueTexts(items: seq<JsValue>, stringify: JsValue -> string): (r: Option<seq<string>>)
    ensures r.Some? <==> forall i :: 0 <= i < |items| ==> !items[i].Null? && !items[i].Undefined?
    ensures r.Some? ==> (|r.value| == |items|
      && forall i :: 0 <= i < |items| ==> Some(r.value[i]) == IssueText(items[i], stringify))
    decreases |items|
  {
    if |items| == 0 then Some([])
    else
      match IssueText(items[0], stringify)
      case None => None
      case Some(t) =>
        match IssueTexts(items[1..], stringify)
        case None => None
        case Some(ts) => Some([t] + ts)
  }

  /** Which rule supplies the message of a truthy body, in precedence order */
  datatype Rule = ErrorString | ErrorObject | TopMessage | Issues | WholeBody

  function RuleFor(result: JsValue): Rule {
    var error := Get(result, "error");
    if error.Str? then ErrorString
    else if Truthy(error) && IsObjectType(error) && Truthy(Get(error, "message")) then ErrorObject
    else if Truthy(Get(result, "message")) then TopMessage
    else if Truthy(Get(result, "issues")) && Get(result, "issues").Arr? then Issues
    else WholeBody
  }

  /** `extractValidationError(result)`; None when it throws */
  function ExtractValidationError(result: JsValue, stringify: JsValue -> string): (r: Option<Extracted>)
    ensures !Truthy(result) ==> r == Some(Extracted(Str(CheckInputs), Str("")))
    ensures Truthy(result) && RuleFor(result) != Issues ==> r.Some?
    ensures r.Some? && Truthy(result) ==> r.value.errMsg == (match RuleFor(result)
      case ErrorString => Get(result, "error")
      case ErrorObject => Get(Get(result, "error"), "message")
      case TopMessage => Get(result, "message")
      case Issues => Str(ValidationFailed)
      case WholeBody => Str(stringify(result)))
    ensures Truthy(result) && RuleFor(result) == Issues ==>
      (r.Some? <==> IssueTexts(Get(result, "issues").items, stringify).Some?)
    ensures r.Some? && Truthy(result) ==>
      var fallback := if Truthy(Get(result, "details")) then Get(result, "details") else Str("");
      var texts := if RuleFor(result) == Issues then IssueTexts(Get(result, "issues").items, stringify) else None;
      if texts.Some? && Join(texts.value, "; ") != "" then r.value.details == Str(Join(texts.value, "; "))
      else r.value.details == fallback
  {
    if !Truthy(result) then Some(Extracted(Str(CheckInputs), Str("")))
    else
      var fallback := if Truthy(Get(result, "details")) then Get(result, "details") else Str("");
      match RuleFor(result)
      case ErrorString => Some(Extracted(Get(result, "error"), fallback))
      case ErrorObject => Some(Extracted(Get(Get(result, "error"), "message"), fallback))
      case TopMessage => Some(Extracted(Get(result, "message"), fallback))
      case WholeBody => Some(Extracted(Str(stringify(result)), fallback))
      case Issues =>
        match IssueTexts(Get(result, "issues").items, stringify)
        case None => None
        case Some(texts) =>
          var joined := Join(texts, "; ");
          Some(Extracted(Str(ValidationFailed), if joined != "" then Str(joined) else fallback))
  }

  /** A body with two or more readable issues always takes its details
      line from them, whatever its own `details` field holds. */
  lemma {:induction false} IssuesOutrankDetails(items: seq<JsValue>, details: JsValue, stringify: JsValue -> string)
    requires |items| >= 2
    requires forall i :: 0 <= i < |items| ==> !items[i].Null? && !items[i].Undefined?
    ensures var r := ExtractValidationError(Obj(map["issues" := Arr(items), "details" := details]), stringify);
      r.Some? && r.value.errMsg == Str(ValidationFailed)
      && r.value.details == Str(Join(IssueTexts(items, stringify).value, "; "))
  {
    var body := Obj(map["issues" := Arr(items), "details" := details]);
    assert RuleFor(body) == Issues;
    var texts := IssueTexts(items, stringify).value;
    assert Join(texts, "; ") == texts[0] + "; " + Join(texts[1..], "; ");
  }

  /** An empty issues list leaves the details line to the `details` field,
      which is dropped when falsy. */
  lemma EmptyIssuesKeepDetails(details: JsValue, stringify: JsValue -> string)
    ensures ExtractValidationError(Obj(map["issues" := Arr([]), "details" := details]), stringify)
      == Some(Extracted(Str(ValidationFailed), if Truthy(details) then details else Str("")))
  {
  }

  /** Every error body the worker and the legacy handler send, `{ error:
      message }` with a non-empty message, is read back as that message, with
      the details line empty or taken from a `details` field the body does
      not have. */
  lemma ReadsServerErrors(status: int, message: string, stringify: JsValue -> string)
    requires message != ""
    ensures ExtractValidationError(Obj(ErrorResponse(status, message).body), stringify)
      == Some(Extracted(Str(message), Str("")))
  {
  }

  /** The 400 the worker sends for a schema failure is read back as the
      message it carries, with no details line. */
  lemma ReadsValidationFailures(issues: seq<Zod.Issue>, defaultMessage: Zod.IssueKind -> string,
                                stringify: JsValue -> string)
    ensures var body := WorkerApp.ValidationFailure(issues, defaultMessage).body;
      ExtractValidationError(Obj(body), stringify) == Some(Extracted(body["error"], Str("")))
  {
  }

  // ------------------------------------------------ client-side checks

  /** One check of a submit handler: `acc` with p appended when the check
      failed; every check runs, so problems accumulate */
  function AddIf<T(!new)>(acc: seq<T>, failed: bool, p: T): (r: seq<T>)
    ensures forall x :: x in r <==> x in acc || (failed && x == p)
    ensures r == [] <==> acc == [] && !failed
  {
    if failed then acc + [p] else acc
  }

  /** `String(formData.get(name) || "")` over the form's text fields */
  function FormText(form: map<string, string>, name: string): string {
    if name in form then form[name] else ""
  }

  // ------------------------------------------------ showing the server's reply

  datatype AlertKind = SuccessAlert | ErrorAlert | WarningAlert

  /** The arguments of `showAlert(type, title, message, details)` */
  datatype Alert = Alert(kind: AlertKind, title: string, message: string, details: string)

  /** What a submit handler ends with: the alert, and whether it clears the
      saved draft and resets the form */
  datatype Shown = Shown(alert: Alert, clearsDraft: bool, resetsForm: bool)

  /** The reply as `fetch` and `response.json()` deliver it: the TypeError
      `fetch` rejects with when the request cannot be made, with the
      browser's message, or a status and the parsed body (None when the body
      is not JSON and `response.json()` throws) */
  datatype Reply = NoConnection(message: string) | Reply(status: int, body: Option<JsValue>)

  /** `response.ok` */
  predicate IsOk(status: int) { 200 <= status <= 299 }

  /** Reading a property of this value throws a TypeError */
  predicate Nullish(v: JsValue) { v.Null? || v.Undefined? }

  const ValidationTitle: string := "Validation Error"
  const NetworkMessage: string :=
    "Unable to connect to the server. Please check your internet connection and try again."
  const UnexpectedMessage: string := "An unexpected error occurred. Please try again."

  /** The `catch` branch for a failed `fetch` */
  const NetworkError: Shown := Shown(Alert(ErrorAlert, "Network Error", NetworkMessage, ""), false, false)

  /** The wording of Chromium's `fetch` failure, which the scripts test for */
  const FetchFailure: string := "Failed to fetch"

  /** The `catch` branch for the TypeError of a failed `fetch`: the network
      alert only when its message has the Chromium wording; any other
      browser's wording is shown as a failed submission. */
  function ConnectionFailed(message: string): (r: Shown)
    ensures r.alert.title == "Network Error" <==> Contains(message, FetchFailure)
    ensures Contains(message, FetchFailure) ==> r.alert.message == NetworkMessage
    ensures !Contains(message, FetchFailure) ==> r.alert.message == (if message != "" then message else UnexpectedMessage)
    ensures r.alert.kind == ErrorAlert && r.alert.details == "" && !r.clearsDraft && !r.resetsForm
  {
    if Contains(message, FetchFailure) then NetworkError else SubmissionFailed(message)
  }

  /** No occurrence of a text without its first character */
  lemma {:induction false} ContainsNeedsFirst(s: string, part: string)
    requires part != "" && part[0] !in s
    ensures !Contains(s, part)
    decreases |s|
  {
    if |s| > 0 {
      assert s[0] != part[0];
      ContainsNeedsFirst(s[1..], part);
    }
  }

  /** Chromium's wording gets the network alert; a wording without a capital
      F, such as Firefox's "NetworkError when attempting to fetch resource."
      or Safari's "Load failed", is shown as a failed submission carrying the
      browser's text. */
  lemma BrowserWordings(message: string)
    ensures ConnectionFailed("Failed to fetch") == NetworkError
    ensures 'F' !in message ==> ConnectionFailed(message) == SubmissionFailed(message)
  {
    assert StartsWith("Failed to fetch", FetchFailure);
    if 'F' !in message {
      ContainsNeedsFirst(message, FetchFailure);
    }
  }

  /** The `catch` branch for any other error: its message, or a generic one
      when the message is empty */
  function SubmissionFailed(message: string): (r: Shown)
    ensures r.alert.kind == ErrorAlert && r.alert.title == "Submission Failed" && r.alert.details == ""
    ensures r.alert.message != ""
    ensures message != "" ==> r.alert.message == message
    ensures !r.clearsDraft && !r.resetsForm
  {
    Shown(Alert(ErrorAlert, "Submission Failed", if message != "" then message else UnexpectedMessage, ""),
          false, false)
  }

  /** The 400 branch of the site's two form scripts: the rules of
      `extractValidationError`, then `errMsg || "Please check your form
      inputs"` and `detailsText || ""`; `engineMessage` is what a TypeError
      raised while reading an issue says. */
  function ValidationAlert(result: JsValue, stringify: JsValue -> string, engineMessage: string): (r: Shown)
    ensures !r.clearsDraft && !r.resetsForm
    ensures ExtractValidationError(result, stringify).Some? ==>
              var x := ExtractValidationError(result, stringify).value;
              r.alert == Alert(ErrorAlert, ValidationTitle, ToJsString(Or(x.errMsg, Str(CheckInputs))),
                               ToJsString(Or(x.details, Str(""))))
    ensures ExtractValidationError(result, stringify).None? ==> r == SubmissionFailed(engineMessage)
  {
    match ExtractValidationError(result, stringify)
    case None => SubmissionFailed(engineMessage)
    case Some(x) =>
      Shown(Alert(ErrorAlert, ValidationTitle, ToJsString(Or(x.errMsg, Str(CheckInputs))),
                  ToJsString(Or(x.details, Str("")))), false, false)
  }

  /** `throw new Error(result.error || result.message || "Server error: " + status)`,
      caught and shown */
  function ServerErrorThrown(result: JsValue, status: int): (r: Shown)
    ensures Truthy(Get(result, "error")) ==> r == SubmissionFailed(ToJsString(Get(result, "error")))
    ensures !Truthy(Get(result, "error")) && !Truthy(Get(result, "message")) ==>
              r == SubmissionFailed("Server error: " + IntToString(status))
  {
    SubmissionFailed(ToJsString(Or(Or(Get(result, "error"), Get(result, "message")),
                                   Str("Server error: " + IntToString(status)))))
  }

  /** The success branch: the body's message or a default, the warning as a
      note, and the draft cleared */
  function SuccessShown(title: string, defaultMessage: string, result: JsValue): (r: Shown)
    ensures r.clearsDraft && r.resetsForm && r.alert.kind == SuccessAlert && r.alert.title == title
    ensures Truthy(Get(result, "message")) ==> r.alert.message == ToJsString(Get(result, "message"))
    ensures !Truthy(Get(result, "message")) ==> r.alert.message == defaultMessage
    ensures r.alert.details == if Truthy(Get(result, "warning")) then "Note: " + ToJsString(Get(result, "warning")) else ""
  {
    Shown(Alert(SuccessAlert, title, ToJsString(Or(Get(result, "message"), Str(defaultMessage))),
                if Truthy(Get(result, "warning")) then "Note: " + ToJsString(Get(result, "warning")) else ""),
          true, true)
  }

  /** A success body from either server is shown with its message and, when
      it carries a non-empty warning, that warning as a note. */
  lemma ShowsSuccessBody(title: string, defaultMessage: string, message: string, warning: Option<string>)
    requires message != ""
    ensures var r := SuccessShown(title, defaultMessage, Obj(SuccessResponse(message, warning).body));
      r.alert.message == message
      && r.alert.details == (if warning.Some? && warning.value != "" then "Note: " + warning.value else "")
  {
  }
}

=== FILE: site_utils.dfy ===
/** The site's field validators and HTML escaper. Each regular expression of
    the source is an explicit predicate over characters here, and each has a
    second, independent description that a lemma proves equivalent. */
module SiteUtils {
  import opened Text
  import HtmlEntities
  import FormsData

  // ---------------------------------------------------------------- escapeHtml

  /** `escapeHtml`: empty input gives the empty string, anything else goes
      through the five global replacements. */
  function EscapeHtml(str: string): (r: string)
    ensures r == HtmlEntities.Escape(str)
  {
    if str == "" then ""
    else
      HtmlEntities.ReplaceChainIsEscape(str);
      HtmlEntities.ReplaceChain(str)
  }

  /** The escaped text holds no markup characters and decodes back to the input. */
  lemma EscapeHtmlSafe(str: string)
    ensures var r := EscapeHtml(str);
      '<' !in r && '>' !in r && '"' !in r && '\'' !in r
      && HtmlEntities.Unescape(r) == str
  {
    HtmlEntities.UnescapeEscape(str);
  }

  // -------------------------------------------------------- validateSeniorYear

  predicate IsYearPrefix(c: char) { c == 'S' || c == 's' }

  /** `/^[Ss](\d+)$/` */
  predicate SeniorYearShape(year: string) {
    |year| >= 2 && IsYearPrefix(year[0]) && AllDigits(year[1..])
  }

  /** `validateSeniorYear`: the pattern matches and `parseInt` of the digits is
      between 25 and 30 */
  predicate ValidateSeniorYear(year: string) {
    year != "" && SeniorYearShape(year) && 25 <= DigitsValue(year[1..]) <= 30
  }

  const YearEndings: set<string> := {"25", "26", "27", "28", "29", "30"}

  predicate AllZeros(s: string) { forall i :: 0 <= i < |s| ==> s[i] == '0' }

  function Pow10(n: nat): nat {
    if n == 0 then 1 else 10 * Pow10(n - 1)
  }

  lemma {:induction false} DigitsValueConcat(a: string, b: string)
    requires AllDigits(a) && AllDigits(b)
    ensures AllDigits(a + b)
    ensures DigitsValue(a + b) == DigitsValue(a) * Pow10(|b|) + DigitsValue(b)
    decreases |b|
  {
    assert AllDigits(a + b) by {
      forall i | 0 <= i < |a + b| ensures IsDigit((a + b)[i]) {
        if i >= |a| { assert (a + b)[i] == b[i - |a|]; }
      }
    }
    if |b| > 0 {
      var ab := a + b;
      var b' := b[..|b| - 1];
      var last := DigitValue(b[|b| - 1]);
      assert ab[..|ab| - 1] == a + b';
      assert ab[|ab| - 1] == b[|b| - 1];
      DigitsValueConcat(a, b');
      assert DigitsValue(ab) == DigitsValue(a + b') * 10 + last;
      assert DigitsValue(b) == DigitsValue(b') * 10 + last;
      assert Pow10(|b|) == 10 * Pow10(|b'|);
      ShiftByDigit(DigitsValue(a), Pow10(|b'|), DigitsValue(b'), last);
    } else {
      assert a + b == a;
    }
  }

  /** Appending one digit to both sides of `v * p + rest` */
  lemma ShiftByDigit(v: int, p: int, rest: int, digit: int)
    ensures (v * p + rest) * 10 + digit == v * (10 * p) + (rest * 10 + digit)
  {
    assert (v * p) * 10 == v * (10 * p);
  }

  lemma {:induction false} DigitsValueZero(s: string)
    requires AllDigits(s)
    ensures DigitsValue(s) == 0 <==> AllZeros(s)
    decreases |s|
  {
    if |s| > 0 {
      DigitsValueZero(s[..|s| - 1]);
      if AllZeros(s) {
        assert AllZeros(s[..|s| - 1]);
      } else if AllZeros(s[..|s| - 1]) {
        assert s[|s| - 1] != '0';
      }
    }
  }

  lemma TwoDigitYear(d: string)
    requires |d| == 2 && AllDigits(d)
    ensures DigitsValue(d) <= 99
    ensures 25 <= DigitsValue(d) <= 30 <==> d in YearEndings
  {
    var d1 := d[..1];
    assert d1[..0] == "" && d1[0] == d[0];
    assert DigitsValue(d1) == DigitValue(d[0]);
    assert d[..|d| - 1] == d1;
    assert DigitsValue(d) == DigitValue(d[0]) * 10 + DigitValue(d[1]);
    assert d == [d[0], d[1]];
    assert d in YearEndings <==> (d[0] == '2' && '5' <= d[1]) || (d[0] == '3' && d[1] == '0');
  }

  /** `validateSeniorYear` accepts exactly `S` or `s`, any run of leading zeros,
      and one of "25".."30": "S025" and "s30" are accepted. */
  lemma SeniorYearAcceptedForms(year: string)
    ensures ValidateSeniorYear(year) <==>
      SeniorYearShape(year) && |year| >= 3
      && AllZeros(year[1..|year| - 2]) && year[|year| - 2..] in YearEndings
  {
    if SeniorYearShape(year) {
      var ds := year[1..];
      if |year| == 2 {
        assert ds[..0] == "";
        assert DigitsValue(ds) == DigitValue(ds[0]);
      } else {
        var hi, lo := year[1..|year| - 2], year[|year| - 2..];
        assert ds == hi + lo;
        DigitsValueConcat(hi, lo);
        TwoDigitYear(lo);
        DigitsValueZero(hi);
      }
    }
  }

  lemma SeniorYearExamples()
    ensures ValidateSeniorYear("S25") && ValidateSeniorYear("S27") && ValidateSeniorYear("S30")
    ensures ValidateSeniorYear("S025") && ValidateSeniorYear("s30")
    ensures !ValidateSeniorYear("S24") && !ValidateSeniorYear("S31") && !ValidateSeniorYear("25")
    ensures !ValidateSeniorYear("Ss25") && !ValidateSeniorYear("")
  {
    SeniorYearAcceptedForms("S25");
    SeniorYearAcceptedForms("S27");
    SeniorYearAcceptedForms("S30");
    SeniorYearAcceptedForms("S025");
    SeniorYearAcceptedForms("s30");
    SeniorYearAcceptedForms("S24");
    SeniorYearAcceptedForms("S31");
    assert !IsYearPrefix("25"[0]);
    assert !AllDigits("Ss25"[1..]) by { assert "Ss25"[1..][0] == 's'; }
  }

  // ---------------------------------------------------- validateGitHubUsername

  /** One repetition of `(?:[a-zA-Z0-9]|-(?=[a-zA-Z0-9]))` at the start of t */
  predicate UnitAt(t: string) {
    |t| > 0 && (IsAlnum(t[0]) || (t[0] == '-' && |t| >= 2 && IsAlnum(t[1])))
  }

  /** `(?:…){0,budget}$` over t: every character is one repetition and there
      are at most `budget` of them */
  predicate UnitsMatch(t: string, budget: nat)
    decreases |t|
  {
    |t| == 0 || (budget > 0 && UnitAt(t) && UnitsMatch(t[1..], budget - 1))
  }

  /** `validateGitHubUsername`: `/^[a-zA-Z0-9](?:[a-zA-Z0-9]|-(?=[a-zA-Z0-9])){0,38}$/` */
  predicate ValidateGitHubUsername(username: string) {
    |username| >= 1 && IsAlnum(username[0]) && UnitsMatch(username[1..], 38)
  }

  /** GitHub's username rule in words: 1 to 39 letters, digits and hyphens,
      beginning and ending with a letter or digit, no two hyphens in a row */
  predicate GitHubUsernameRule(u: string) {
    && 1 <= |u| <= 39
    && (forall i :: 0 <= i < |u| ==> IsAlnum(u[i]) || u[i] == '-')
    && IsAlnum(u[0]) && IsAlnum(u[|u| - 1])
    && (forall i :: 0 <= i < |u| - 1 ==> !(u[i] == '-' && u[i + 1] == '-'))
  }

  lemma {:induction false} UnitsMatchIff(t: string, budget: nat)
    ensures UnitsMatch(t, budget) <==> |t| <= budget && forall i :: 0 <= i < |t| ==> UnitAt(t[i..])
    decreases |t|
  {
    if |t| > 0 {
      UnitsMatchIff(t[1..], if budget > 0 then budget - 1 else 0);
      assert forall i :: 1 <= i < |t| ==> t[1..][i - 1..] == t[i..];
      assert t[0..] == t;
      if budget > 0 && (forall i :: 0 <= i < |t| ==> UnitAt(t[i..])) {
        assert forall i :: 0 <= i < |t[1..]| ==> UnitAt(t[1..][i..]) by {
          forall i | 0 <= i < |t[1..]| ensures UnitAt(t[1..][i..]) {
            assert t[1..][i..] == t[i + 1..];
          }
        }
      }
    }
  }

  /** The regular expression accepts exactly the usernames the rule allows. */
  lemma GitHubUsernameMatchesRule(u: string)
    ensures ValidateGitHubUsername(u) <==> GitHubUsernameRule(u)
  {
    if |u| >= 1 {
      var t := u[1..];
      UnitsMatchIff(t, 38);
      assert forall i :: 0 <= i < |t| ==> t[i..][0] == u[i + 1];
      assert forall i :: 0 <= i < |t| - 1 ==> t[i..][1] == u[i + 2];
      if ValidateGitHubUsername(u) {
        forall i | 0 <= i < |u| ensures IsAlnum(u[i]) || u[i] == '-' {
          if i > 0 { assert UnitAt(t[i - 1..]); }
        }
        if |u| > 1 {
          assert UnitAt(t[|t| - 1..]);
        }
        forall i | 0 <= i < |u| - 1 ensures !(u[i] == '-' && u[i + 1] == '-') {
          if i > 0 { assert UnitAt(t[i - 1..]); }
        }
      }
      if GitHubUsernameRule(u) {
        forall i | 0 <= i < |t| ensures UnitAt(t[i..]) {
          if u[i + 1] == '-' {
            assert i + 2 < |u|;
            assert !(u[i + 1] == '-' && u[i + 2] == '-');
          }
        }
      }
    }
  }

  // ------------------------------------------------------------- validateEmail

  /** The first index of c in s */
  function IndexOf(s: string, c: char): (i: nat)
    requires c in s
    ensures i < |s| && s[i] == c
    ensures forall j :: 0 <= j < i ==> s[j] != c
  {
    if s[0] == c then 0 else 1 + IndexOf(s[1..], c)
  }

  predicate HasInnerDot(d: string) {
    exists k :: 0 < k < |d| - 1 && d[k] == '.'
  }

  /** `/^[^\s@]+@[^\s@]+\.[^\s@]+$/`: no whitespace, a non-empty part before
      the first `@`, no second `@`, and a `.` with text on both sides after it */
  predicate EmailPattern(t: string) {
    NoSpaces(t) && '@' in t &&
    var at := IndexOf(t, '@');
    at > 0 && '@' !in t[at + 1..] && HasInnerDot(t[at + 1..])
  }

  /** `validateEmail` */
  predicate ValidateEmail(email: string) {
    EmailPattern(Trim(email))
  }

  /** The e-mail pattern in positional terms: exactly one `@`, not first, and a
      `.` that has at least one character between it and the `@` and at least
      one after it. */
  lemma EmailPatternPositions(t: string)
    ensures EmailPattern(t) <==>
      NoSpaces(t) &&
      exists at, dot :: 0 < at && at + 1 < dot < |t| - 1 && t[at] == '@' && t[dot] == '.'
        && (forall i :: 0 <= i < |t| && t[i] == '@' ==> i == at)
  {
    if EmailPattern(t) {
      var at := IndexOf(t, '@');
      var d := t[at + 1..];
      var k :| 0 < k < |d| - 1 && d[k] == '.';
      assert t[at + 1 + k] == '.';
      forall i | 0 <= i < |t| ensures t[i] == '@' ==> i == at {
        if i > at { assert t[i] == d[i - at - 1]; }
      }
    }
    if NoSpaces(t) &&
      exists at, dot :: 0 < at && at + 1 < dot < |t| - 1 && t[at] == '@' && t[dot] == '.'
        && (forall i :: 0 <= i < |t| && t[i] == '@' ==> i == at)
    {
      var at, dot :| 0 < at && at + 1 < dot < |t| - 1 && t[at] == '@' && t[dot] == '.'
        && (forall i :: 0 <= i < |t| && t[i] == '@' ==> i == at);
      assert IndexOf(t, '@') == at;
      var d := t[at + 1..];
      assert d[dot - at - 1] == '.';
      assert '@' !in d by {
        forall j | 0 <= j < |d| ensures d[j] != '@' {
          assert d[j] == t[at + 1 + j];
        }
      }
    }
  }

  lemma EmailPatternOfParts(local: string, domain: string, dot: nat)
    requires |local| > 0 && NoSpaces(local) && '@' !in local
    requires NoSpaces(domain) && '@' !in domain && 0 < dot < |domain| - 1 && domain[dot] == '.'
    ensures EmailPattern(local + "@" + domain)
  {
    var t := local + "@" + domain;
    var at := |local|;
    forall i | 0 <= i < |t| ensures !IsJsSpace(t[i]) && (t[i] == '@' ==> i == at) {
      if i < at { assert t[i] == local[i]; }
      else if i > at { assert t[i] == domain[i - at - 1]; }
    }
    assert t[at + 1 + dot] == '.';
    EmailPatternPositions(t);
  }

  /** Any local part, host and top-level part without whitespace or `@`,
      assembled as local@host.top and padded with whitespace, is accepted. */
  lemma EmailFromParts(pad: string, local: string, host: string, top: string, pad2: string)
    requires AllSpaces(pad) && AllSpaces(pad2)
    requires |local| > 0 && |host| > 0 && |top| > 0
    requires NoSpaces(local) && NoSpaces(host) && NoSpaces(top)
    requires '@' !in local && '@' !in host && '@' !in top
    ensures ValidateEmail(pad + local + "@" + host + "." + top + pad2)
  {
    var domain := host + "." + top;
    var t := local + "@" + domain;
    assert pad + local + "@" + host + "." + top + pad2 == pad + t + pad2;
    TrimPadded(pad, t, pad2);
    TrimStartOfNonSpace(t);
    assert t[|t| - 1] == top[|top| - 1];
    TrimEndOfNonSpace(t);
    DomainChars(host, top);
    EmailPatternOfParts(local, domain, |host|);
  }

  lemma DomainChars(host: string, top: string)
    requires NoSpaces(host) && NoSpaces(top)
    requires '@' !in host && '@' !in top
    ensures var d := host + "." + top; d[|host|] == '.' && NoSpaces(d) && '@' !in d
  {
    var d := host + "." + top;
    forall i | 0 <= i < |d| ensures !IsJsSpace(d[i]) && d[i] != '@' {
      if i < |host| { assert d[i] == host[i]; }
      else if i > |host| { assert d[i] == top[i - |host| - 1]; }
    }
  }

  // ------------------------------------------------ validateStudentSchoolEmail

  predicate IsLowerAlnum(c: char) { IsLower(c) || IsDigit(c) }
  predicate IsNameSeparator(c: char) { c == '.' || c == '_' || c == '-' }

  /** `[a-z0-9]+(?:[._-][a-z0-9]+)*`: runs of lower-case letters and digits
      joined by single separators */
  predicate LocalNamePattern(l: string) {
    && |l| >= 1
    && (forall i :: 0 <= i < |l| ==> IsLowerAlnum(l[i]) || IsNameSeparator(l[i]))
    && IsLowerAlnum(l[0]) && IsLowerAlnum(l[|l| - 1])
    && (forall i :: 0 <= i < |l| - 1 ==> !(IsNameSeparator(l[i]) && IsNameSeparator(l[i + 1])))
  }

  /** The fixed tail `.19` + five digits + school domain is 32 characters long */
  const StudentTailLength: nat := 32

  /** `/^[a-z0-9]+(?:[._-][a-z0-9]+)*\.19\d{5}@stemgharbiya\.moe\.edu\.eg$/`.
      The tail after the name has a fixed length, so the name is everything
      before the last 32 characters. */
  predicate StudentEmailPattern(s: string) {
    var n := |s|;
    && n > StudentTailLength
    && LocalNamePattern(s[..n - 32])
    && s[n - 32..n - 29] == ".19"
    && AllDigits(s[n - 29..n - 24])
    && s[n - 24..] == FormsData.SchoolDomain
  }

  /** `validateStudentSchoolEmail`: trim, lower-case, then match the pattern */
  predicate ValidateStudentSchoolEmail(email: string) {
    StudentEmailPattern(ToLower(Trim(email)))
  }

  /** The check ignores surrounding whitespace and letter case. */
  lemma StudentEmailNormalised(email: string, pad: string, pad2: string)
    requires AllSpaces(pad) && AllSpaces(pad2)
    ensures ValidateStudentSchoolEmail(pad + email + pad2) == ValidateStudentSchoolEmail(email)
    ensures ValidateStudentSchoolEmail(ToUpper(email)) == ValidateStudentSchoolEmail(email)
    ensures ValidateStudentSchoolEmail(ToLower(email)) == ValidateStudentSchoolEmail(email)
  {
    TrimPadded(pad, email, pad2);
    TrimLower(ToUpper(email));
    TrimLower(email);
    TrimLower(ToLower(email));
    LowerOfUpper(email);
  }

  lemma SchoolDomainChars()
    ensures |FormsData.SchoolDomain| == 24
    ensures FormsData.SchoolDomain[0] == '@' && FormsData.SchoolDomain[13] == '.'
    ensures forall k :: 1 <= k < 24 ==> FormsData.SchoolDomain[k] != '@'
    ensures forall k :: 0 <= k < 24 ==> !IsJsSpace(FormsData.SchoolDomain[k])
  {
  }

  /** Where whitespace, `@` and `.` can sit in a string the student pattern matches */
  lemma StudentPatternChars(s: string)
    requires StudentEmailPattern(s)
    ensures NoSpaces(s)
    ensures forall i :: 0 <= i < |s| && s[i] == '@' ==> i == |s| - 24
    ensures s[|s| - 24] == '@' && s[|s| - 11] == '.'
  {
    var n := |s|;
    var l := s[..n - 32];
    SchoolDomainChars();
    forall i | 0 <= i < n ensures !IsJsSpace(s[i]) && (s[i] == '@' ==> i == n - 24) {
      if i < n - 32 {
        assert s[i] == l[i];
      } else if i < n - 29 {
        assert s[i] == s[n - 32..n - 29][i - (n - 32)];
      } else if i < n - 24 {
        assert s[i] == s[n - 29..n - 24][i - (n - 29)];
      } else {
        assert s[i] == s[n - 24..][i - (n - 24)];
      }
    }
    assert s[n - 24] == s[n - 24..][0];
    assert s[n - 11] == s[n - 24..][13];
  }

  /** Every address the student check accepts also passes `validateEmail`. */
  lemma StudentEmailIsEmail(email: string)
    requires ValidateStudentSchoolEmail(email)
    ensures ValidateEmail(email)
  {
    var t := Trim(email);
    var s := ToLower(t);
    var n := |s|;
    StudentPatternChars(s);
    forall i | 0 <= i < |t| ensures !IsJsSpace(t[i]) && (t[i] == '@' ==> i == n - 24) {
      assert s[i] == LowerChar(t[i]);
    }
    assert t[n - 24] == '@' && t[n - 11] == '.' by {
      assert s[n - 24] == LowerChar(t[n - 24]);
      assert s[n - 11] == LowerChar(t[n - 11]);
    }
    EmailPatternPositions(t);
  }

  lemma StudentEmailExample()
    ensures !ValidateStudentSchoolEmail("ahmed@stemgharbiya.moe.edu.eg")
  {
    var bad := "ahmed@stemgharbiya.moe.edu.eg";
    assert |ToLower(Trim(bad))| <= |bad| < 33;
  }
}

=== FILE: text.dfy ===
/** Character classes and string operations of JavaScript as the site's code
    uses them: `trim`, `split`, `join`, `startsWith`, `endsWith`, global
    single-character `replace`, `slice(0, n)`, and ASCII case mapping. */
module Text {

  /** The characters matched by JavaScript's `\s` and removed by
      `String.prototype.trim` (WhiteSpace and LineTerminator of ECMA-262). */
  predicate IsJsSpace(c: char) {
    || c == ' ' || c == '\t' || c == '\n' || c == '\U{000B}' || c == '\U{000C}' || c == '\r'
    || c == '\U{00A0}' || c == '\U{1680}' || ('\U{2000}' <= c <= '\U{200A}')
    || c == '\U{2028}' || c == '\U{2029}' || c == '\U{202F}' || c == '\U{205F}'
    || c == '\U{3000}' || c == '\U{FEFF}'
  }

  /** The characters a regular-expression `.` does not match. */
  predicate IsLineTerminator(c: char) {
    c == '\n' || c == '\r' || c == '\U{2028}' || c == '\U{2029}'
  }

  predicate IsDigit(c: char) { '0' <= c <= '9' }
  predicate IsUpper(c: char) { 'A' <= c <= 'Z' }
  predicate IsLower(c: char) { 'a' <= c <= 'z' }
  predicate IsAsciiLetter(c: char) { IsUpper(c) || IsLower(c) }
  predicate IsAlnum(c: char) { IsAsciiLetter(c) || IsDigit(c) }

  predicate AllDigits(s: string) { forall i :: 0 <= i < |s| ==> IsDigit(s[i]) }
  predicate AllSpaces(s: string) { forall i :: 0 <= i < |s| ==> IsJsSpace(s[i]) }
  predicate NoSpaces(s: string) { forall i :: 0 <= i < |s| ==> !IsJsSpace(s[i]) }

  function LowerChar(c: char): char {
    if IsUpper(c) then (c as int + 32) as char else c
  }

  function UpperChar(c: char): char {
    if IsLower(c) then (c as int - 32) as char else c
  }

  /** `toLowerCase`, restricted to the ASCII letters */
  function ToLower(s: string): (r: string)
    ensures |r| == |s|
    ensures forall i :: 0 <= i < |s| ==> r[i] == LowerChar(s[i])
  {
    seq(|s|, i requires 0 <= i < |s| => LowerChar(s[i]))
  }

  /** `toUpperCase`, restricted to the ASCII letters */
  function ToUpper(s: string): (r: string)
    ensures |r| == |s|
    ensures forall i :: 0 <= i < |s| ==> r[i] == UpperChar(s[i])
  {
    seq(|s|, i requires 0 <= i < |s| => UpperChar(s[i]))
  }

  predicate StartsWith(s: string, prefix: string) {
    |prefix| <= |s| && s[..|prefix|] == prefix
  }

  predicate EndsWith(s: string, suffix: string) {
    |suffix| <= |s| && s[|s| - |suffix|..] == suffix
  }

  /** `s.includes(part)`: part occurs somewhere in s */
  predicate Contains(s: string, part: string)
    decreases |s|
  {
    StartsWith(s, part) || (|s| > 0 && Contains(s[1..], part))
  }

  /** `s.slice(0, n)` for n >= 0 */
  function Take(s: string, n: nat): (r: string)
    ensures |r| == if n < |s| then n else |s|
    ensures StartsWith(s, r)
  {
    if n < |s| then s[..n] else s
  }

  /** Removes leading whitespace: the result is a suffix of s and every removed
      character is whitespace. */
  function TrimStart(s: string): (r: string)
    ensures |r| <= |s| && r == s[|s| - |r|..]
    ensures AllSpaces(s[..|s| - |r|])
    ensures |r| == 0 || !IsJsSpace(r[0])
  {
    if |s| > 0 && IsJsSpace(s[0]) then TrimStart(s[1..]) else s
  }

  /** Removes trailing whitespace: the result is a prefix of s and every removed
      character is whitespace. */
  function TrimEnd(s: string): (r: string)
    ensures |r| <= |s| && r == s[..|r|]
    ensures AllSpaces(s[|r|..])
    ensures |r| == 0 || !IsJsSpace(r[|r| - 1])
  {
    if |s| > 0 && IsJsSpace(s[|s| - 1]) then TrimEnd(s[..|s| - 1]) else s
  }

  /** `String.prototype.trim` */
  function Trim(s: string): (r: string)
    ensures |r| <= |s|
    ensures |r| == 0 || (!IsJsSpace(r[0]) && !IsJsSpace(r[|r| - 1]))
  {
    TrimEnd(TrimStart(s))
  }

  /** `!s.trim()` */
  predicate IsBlank(s: string) { Trim(s) == "" }

  lemma TrimStartOfNonSpace(s: string)
    requires |s| == 0 || !IsJsSpace(s[0])
    ensures TrimStart(s) == s
  {
  }

  lemma {:induction false} TrimEndOfNonSpace(s: string)
    requires |s| == 0 || !IsJsSpace(s[|s| - 1])
    ensures TrimEnd(s) == s
  {
  }

  /** A string is blank exactly when every character in it is whitespace. */
  lemma {:induction false} BlankIffAllSpaces(s: string)
    ensures IsBlank(s) <==> AllSpaces(s)
  {
    var t := TrimStart(s);
    if AllSpaces(s) {
      TrimStartAllSpaces(s);
    } else {
      var i :| 0 <= i < |s| && !IsJsSpace(s[i]);
      assert i >= |s| - |t|;
      assert |t| > 0;
      assert TrimEnd(t) != "" by {
        assert t[0..] == t;
      }
    }
  }

  /** Trimming a trimmed string changes nothing. */
  lemma TrimIdempotent(s: string)
    ensures Trim(Trim(s)) == Trim(s)
  {
    var r := Trim(s);
    TrimStartOfNonSpace(r);
    TrimEndOfNonSpace(r);
  }

  /** Surrounding whitespace does not change the result of `trim`. */
  lemma {:induction false} TrimStartPadded(a: string, s: string)
    requires AllSpaces(a)
    ensures TrimStart(a + s) == TrimStart(s)
    decreases |a|
  {
    if |a| > 0 {
      assert (a + s)[1..] == a[1..] + s;
      TrimStartPadded(a[1..], s);
    } else {
      assert a + s == s;
    }
  }

  lemma {:induction false} TrimEndPadded(s: string, b: string)
    requires AllSpaces(b)
    ensures TrimEnd(s + b) == TrimEnd(s)
    decreases |b|
  {
    if |b| > 0 {
      assert (s + b)[..|s + b| - 1] == s + b[..|b| - 1];
      TrimEndPadded(s, b[..|b| - 1]);
    } else {
      assert s + b == s;
    }
  }

  lemma {:induction false} TrimStartKeepsTail(s: string, b: string)
    requires AllSpaces(b)
    ensures TrimStart(s + b) == TrimStart(s) + b || (AllSpaces(s) && TrimStart(s + b) == "")
    decreases |s|
  {
    if |s| == 0 {
      assert s + b == b;
      TrimStartAllSpaces(b);
      assert AllSpaces(s);
    } else if IsJsSpace(s[0]) {
      assert (s + b)[1..] == s[1..] + b;
      TrimStartKeepsTail(s[1..], b);
      if AllSpaces(s[1..]) {
        assert AllSpaces(s) by {
          forall i | 0 <= i < |s| ensures IsJsSpace(s[i]) {
            if i > 0 { assert s[i] == s[1..][i - 1]; }
          }
        }
      }
    } else {
      assert (s + b)[0] == s[0];
    }
  }

  lemma {:induction false} TrimStartAllSpaces(s: string)
    requires AllSpaces(s)
    ensures TrimStart(s) == ""
    decreases |s|
  {
    if |s| > 0 {
      TrimStartAllSpaces(s[1..]);
    }
  }

  /** `trim` ignores whitespace added on either side. */
  lemma TrimPadded(a: string, s: string, b: string)
    requires AllSpaces(a) && AllSpaces(b)
    ensures Trim(a + s + b) == Trim(s)
  {
    assert a + s + b == a + (s + b);
    TrimStartPadded(a, s + b);
    TrimStartKeepsTail(s, b);
    if TrimStart(s + b) == TrimStart(s) + b {
      TrimEndPadded(TrimStart(s), b);
    } else {
      TrimStartAllSpaces(s);
      assert TrimEnd("") == "";
    }
  }

  /** ASCII lower-casing never turns a whitespace character into a
      non-whitespace one or back, so it commutes with `trim`. */
  lemma {:induction false} TrimStartLower(s: string)
    ensures TrimStart(ToLower(s)) == ToLower(TrimStart(s))
    decreases |s|
  {
    if |s| > 0 {
      assert IsJsSpace(ToLower(s)[0]) <==> IsJsSpace(s[0]);
      if IsJsSpace(s[0]) {
        assert ToLower(s)[1..] == ToLower(s[1..]);
        TrimStartLower(s[1..]);
      }
    }
  }

  lemma {:induction false} TrimEndLower(s: string)
    ensures TrimEnd(ToLower(s)) == ToLower(TrimEnd(s))
    decreases |s|
  {
    if |s| > 0 {
      assert IsJsSpace(ToLower(s)[|s| - 1]) <==> IsJsSpace(s[|s| - 1]);
      if IsJsSpace(s[|s| - 1]) {
        assert ToLower(s)[..|s| - 1] == ToLower(s[..|s| - 1]);
        TrimEndLower(s[..|s| - 1]);
      }
    }
  }

  lemma TrimLower(s: string)
    ensures Trim(ToLower(s)) == ToLower(Trim(s))
  {
    TrimStartLower(s);
    TrimEndLower(TrimStart(s));
  }

  /** ASCII lower-casing is idempotent and ignores the case of its input. */
  lemma LowerOfUpper(s: string)
    ensures ToLower(ToUpper(s)) == ToLower(s)
    ensures ToLower(ToLower(s)) == ToLower(s)
  {
  }

  /** `s.split(sep)` for a one-character separator: the pieces between
      separators, in order, always at least one. */
  function Split(s: string, sep: char): (parts: seq<string>)
    ensures |parts| >= 1
    ensures forall i :: 0 <= i < |parts| ==> sep !in parts[i]
  {
    if |s| == 0 then [""]
    else if s[0] == sep then [""] + Split(s[1..], sep)
    else
      var rest := Split(s[1..], sep);
      [[s[0]] + rest[0]] + rest[1..]
  }

  /** The first piece of a split is the longest separator-free prefix: the
      whole string, or the text before the first separator. */
  lemma {:induction false} SplitFirst(s: string, sep: char)
    ensures StartsWith(s, Split(s, sep)[0])
    ensures |Split(s, sep)[0]| == |s| || s[|Split(s, sep)[0]|] == sep
    decreases |s|
  {
    if |s| > 0 && s[0] != sep {
      SplitFirst(s[1..], sep);
    }
  }

  /** `parts.join(sep)` */
  function Join(parts: seq<string>, sep: string): string {
    if |parts| == 0 then ""
    else if |parts| == 1 then parts[0]
    else parts[0] + sep + Join(parts[1..], sep)
  }

  /** Joining the pieces of a split with the same separator gives back the
      original string. */
  lemma {:induction false} JoinSplit(s: string, sep: char)
    ensures Join(Split(s, sep), [sep]) == s
    decreases |s|
  {
    if |s| == 0 {
    } else if s[0] == sep {
      JoinSplit(s[1..], sep);
      assert ([""] + Split(s[1..], sep))[1..] == Split(s[1..], sep);
    } else {
      var rest := Split(s[1..], sep);
      JoinSplit(s[1..], sep);
      var parts := [[s[0]] + rest[0]] + rest[1..];
      assert parts[1..] == rest[1..];
      if |rest| == 1 {
        assert s == [s[0]] + s[1..];
      } else {
        assert Join(rest, [sep]) == rest[0] + [sep] + Join(rest[1..], [sep]);
        assert s == [s[0]] + s[1..];
      }
    }
  }

  /** Splitting a join of separator-free pieces gives back the pieces. */
  lemma {:induction false} SplitJoin(parts: seq<string>, sep: char)
    requires |parts| >= 1
    requires forall i :: 0 <= i < |parts| ==> sep !in parts[i]
    ensures Split(Join(parts, [sep]), sep) == parts
    decreases |parts|, |parts[0]|
  {
    if |parts[0]| == 0 {
      if |parts| == 1 {
      } else {
        var tail := Join(parts[1..], [sep]);
        assert Join(parts, [sep]) == [sep] + tail;
        assert ([sep] + tail)[1..] == tail;
        SplitJoin(parts[1..], sep);
        assert [""] + parts[1..] == parts;
      }
    } else {
      var c := parts[0][0];
      assert c == parts[0][0] && c != sep by { assert c in parts[0]; }
      var shorter := [parts[0][1..]] + parts[1..];
      assert forall i :: 0 <= i < |shorter| ==> sep !in shorter[i] by {
        forall i | 0 <= i < |shorter| ensures sep !in shorter[i] {
          if i == 0 {
            assert forall k :: 0 <= k < |parts[0][1..]| ==> parts[0][1..][k] == parts[0][k + 1];
          } else {
            assert shorter[i] == parts[i];
          }
        }
      }
      SplitJoin(shorter, sep);
      var j := Join(parts, [sep]);
      assert Join(shorter, [sep]) == j[1..] by {
        if |parts| == 1 {
        } else {
          assert shorter[1..] == parts[1..];
        }
      }
      assert j[0] == c;
      assert shorter[1..] == parts[1..];
      assert parts[0] == [c] + parts[0][1..];
      assert [[c] + shorter[0]] + shorter[1..] == parts;
    }
  }

  /** A non-empty sequence is its head followed by its tail; stated apart so
      that proofs with many facts in scope need not rediscover it. */
  lemma HeadThenTail<T>(s: seq<T>)
    requires |s| > 0
    ensures [s[0]] + s[1..] == s
  {
  }

  /** The elements of a sequence that satisfy p, in order. */
  function Filter<T>(s: seq<T>, p: T -> bool): (r: seq<T>)
    ensures |r| <= |s|
    ensures forall i :: 0 <= i < |r| ==> p(r[i])
    ensures forall i :: 0 <= i < |r| ==> r[i] in s
    ensures forall i :: 0 <= i < |s| && p(s[i]) ==> s[i] in r
  {
    if |s| == 0 then []
    else if p(s[0]) then [s[0]] + Filter(s[1..], p)
    else Filter(s[1..], p)
  }

  /** Filtering a longer prefix keeps the earlier result and adds the new
      element when it qualifies */
  lemma {:induction false} FilterSnoc<T>(s: seq<T>, x: T, p: T -> bool)
    ensures Filter(s + [x], p) == Filter(s, p) + (if p(x) then [x] else [])
    decreases |s|
  {
    if |s| > 0 {
      assert (s + [x])[1..] == s[1..] + [x];
      FilterSnoc(s[1..], x, p);
    } else {
      assert s + [x] == [x];
    }
  }

  /** A filter every element passes keeps the sequence as it is */
  lemma {:induction false} FilterAllKept<T>(s: seq<T>, p: T -> bool)
    requires forall i :: 0 <= i < |s| ==> p(s[i])
    ensures Filter(s, p) == s
    decreases |s|
  {
    if |s| > 0 {
      assert forall i :: 0 <= i < |s[1..]| ==> s[1..][i] == s[i + 1];
      FilterAllKept(s[1..], p);
      assert s == [s[0]] + s[1..];
    }
  }

  /** A filter no element passes keeps nothing */
  lemma {:induction false} FilterNoneKept<T>(s: seq<T>, p: T -> bool)
    requires forall i :: 0 <= i < |s| ==> !p(s[i])
    ensures Filter(s, p) == []
    decreases |s|
  {
    if |s| > 0 {
      assert forall i :: 0 <= i < |s[1..]| ==> s[1..][i] == s[i + 1];
      FilterNoneKept(s[1..], p);
    }
  }

  /** Every piece trimmed, blank pieces dropped: `.map((s) => s.trim()).filter(Boolean)` */
  function TrimmedNonEmpty(parts: seq<string>): (r: seq<string>)
    ensures forall i :: 0 <= i < |r| ==> r[i] != "" && Trim(r[i]) == r[i]
  {
    if |parts| == 0 then []
    else
      var t := Trim(parts[0]);
      var rest := TrimmedNonEmpty(parts[1..]);
      TrimIdempotent(parts[0]);
      if t == "" then rest
      else
        assert forall i :: 0 < i <= |rest| ==> ([t] + rest)[i] == rest[i - 1];
        [t] + rest
  }

  /** Trimming only removes characters */
  lemma TrimWithin(s: string, c: char)
    requires c !in s
    ensures c !in Trim(s)
  {
    var t := TrimStart(s);
    assert t == s[|s| - |t|..];
    var r := TrimEnd(t);
    assert r == t[..|r|];
  }

  /** A non-blank piece with nothing to trim */
  predicate TrimmedPiece(s: string) {
    s != "" && Trim(s) == s
  }

  /** Pieces that are already trimmed and non-blank pass through unchanged */
  lemma {:induction false} TrimmedNonEmptyOfTrimmed(parts: seq<string>)
    requires forall i :: 0 <= i < |parts| ==> TrimmedPiece(parts[i])
    ensures TrimmedNonEmpty(parts) == parts
    decreases |parts|
  {
    if |parts| > 0 {
      assert TrimmedPiece(parts[0]);
      TrimmedNonEmptyOfTrimmed(parts[1..]);
      assert parts == [parts[0]] + parts[1..];
    }
  }

  /** Whitespace written around the pieces changes nothing once they are
      trimmed */
  lemma {:induction false} TrimmedNonEmptyPadded(parts: seq<string>, lead: seq<string>, trail: seq<string>,
                                                 written: seq<string>)
    requires |lead| == |parts| && |trail| == |parts| && |written| == |parts|
    requires forall i :: 0 <= i < |parts| ==>
               AllSpaces(lead[i]) && AllSpaces(trail[i]) && written[i] == lead[i] + parts[i] + trail[i]
    ensures TrimmedNonEmpty(written) == TrimmedNonEmpty(parts)
    decreases |parts|
  {
    if |parts| > 0 {
      TrimPadded(lead[0], parts[0], trail[0]);
      assert Trim(written[0]) == Trim(parts[0]);
      var p', l', t', w' := parts[1..], lead[1..], trail[1..], written[1..];
      assert forall i :: 0 <= i < |p'| ==> p'[i] == parts[i + 1] && l'[i] == lead[i + 1]
                                           && t'[i] == trail[i + 1] && w'[i] == written[i + 1];
      TrimmedNonEmptyPadded(p', l', t', w');
    }
  }

  /** Trimming and dropping blanks works piece by piece */
  lemma {:induction false} TrimmedNonEmptyAppend(a: seq<string>, b: seq<string>)
    ensures TrimmedNonEmpty(a + b) == TrimmedNonEmpty(a) + TrimmedNonEmpty(b)
    decreases |a|
  {
    if |a| == 0 {
      assert a + b == b;
    } else {
      assert (a + b)[1..] == a[1..] + b;
      TrimmedNonEmptyAppend(a[1..], b);
    }
  }

  /** A blank piece is dropped wherever it sits */
  lemma {:induction false} TrimmedNonEmptyDropsBlank(before: seq<string>, blank: string, after: seq<string>)
    requires IsBlank(blank)
    ensures TrimmedNonEmpty(before + [blank] + after) == TrimmedNonEmpty(before + after)
  {
    var single := [blank];
    assert TrimmedNonEmpty(single) == [] by {
      assert Trim(single[0]) == "";
      assert single[1..] == [];
    }
    var front := before + single;
    TrimmedNonEmptyAppend(before, single);
    assert TrimmedNonEmpty(front) == TrimmedNonEmpty(before);
    TrimmedNonEmptyAppend(front, after);
    TrimmedNonEmptyAppend(before, after);
  }

  /** The empty string splits into one blank piece, which cleaning drops */
  lemma EmptySplitsToNothing(sep: char)
    ensures TrimmedNonEmpty(Split("", sep)) == []
  {
    var none: seq<string> := [""];
    assert Split("", sep) == none;
    assert Trim(none[0]) == "";
    assert none[1..] == [];
  }

  /** Splitting a join of separator-free pieces and cleaning the result is
      cleaning the pieces, including when there are none. */
  lemma {:induction false} SplitJoinTrimmed(parts: seq<string>, sep: char)
    requires forall i :: 0 <= i < |parts| ==> sep !in parts[i]
    ensures TrimmedNonEmpty(Split(Join(parts, [sep]), sep)) == TrimmedNonEmpty(parts)
  {
    if |parts| == 0 {
      assert Join(parts, [sep]) == "";
      EmptySplitsToNothing(sep);
    } else {
      SplitJoin(parts, sep);
    }
  }

  /** A character absent from every piece is absent from every kept piece */
  lemma {:induction false} TrimmedNonEmptyAvoids(parts: seq<string>, c: char)
    requires forall i :: 0 <= i < |parts| ==> c !in parts[i]
    ensures forall i :: 0 <= i < |TrimmedNonEmpty(parts)| ==> c !in TrimmedNonEmpty(parts)[i]
    decreases |parts|
  {
    if |parts| > 0 {
      TrimWithin(parts[0], c);
      TrimmedNonEmptyAvoids(parts[1..], c);
    }
  }

  /** `s.replace(/c/g, rep)`: every occurrence of c replaced by rep. */
  function ReplaceAll(s: string, c: char, rep: string): (r: string)
    ensures c !in rep ==> c !in r
    ensures forall d :: d in r ==> d in s || d in rep
  {
    if |s| == 0 then ""
    else (if s[0] == c then rep else [s[0]]) + ReplaceAll(s[1..], c, rep)
  }

  lemma {:induction false} ReplaceAllConcat(a: string, b: string, c: char, rep: string)
    ensures ReplaceAll(a + b, c, rep) == ReplaceAll(a, c, rep) + ReplaceAll(b, c, rep)
    decreases |a|
  {
    if |a| == 0 {
      assert a + b == b;
    } else {
      assert (a + b)[1..] == a[1..] + b;
      ReplaceAllConcat(a[1..], b, c, rep);
    }
  }

  lemma ReplaceAllAbsent(s: string, c: char, rep: string)
    requires c !in s
    ensures ReplaceAll(s, c, rep) == s
  {
  }

  function DigitValue(c: char): nat
    requires IsDigit(c)
  {
    c as int - '0' as int
  }

  /** The decimal value of a digit string, as `parseInt(s, 10)` reads it */
  function DigitsValue(s: string): nat
    requires AllDigits(s)
  {
    if |s| == 0 then 0 else DigitsValue(s[..|s| - 1]) * 10 + DigitValue(s[|s| - 1])
  }

  /** The decimal rendering of a natural number, as `${n}` writes it */
  function NatToString(n: nat): (r: string)
    ensures |r| >= 1 && AllDigits(r)
    ensures DigitsValue(r) == n
    ensures r[0] != '0' || r == "0"
  {
    var d := [('0' as int + n % 10) as char];
    if n < 10 then
      assert DigitsValue(d) == DigitsValue(d[..0]) * 10 + n % 10;
      d
    else
      var high := NatToString(n / 10);
      var r := high + d;
      assert r[..|r| - 1] == high;
      assert r[0] == high[0];
      r
  }
}

=== FILE: turnstile.dfy ===
/** Server-side verification of a Turnstile token (`verifyTurnstile`). The
    call to the provider's siteverify endpoint is a parameter: it maps the
    request to what came back. A rejection is a response; passing is `None`. */
module Turnstile {
  import opened Wrappers
  import opened JsValues
  import opened Text
  import opened Http

  /** The three form fields posted to siteverify */
  datatype SiteverifyRequest = SiteverifyRequest(secret: string, response: string, remoteIp: string)

  /** What the call produced: an exception (network failure, the ten-second
      abort, or a body that is not JSON), or the HTTP status with the parsed
      JSON body */
  datatype ProviderReply = Threw | Replied(status: int, body: JsValue)

  /** The verdict and every siteverify request made on the way to it */
  datatype Verification = Verification(rejection: Option<Response>, calls: seq<SiteverifyRequest>)

  const InvalidToken: string := "Invalid verification token"
  const VerificationFailed: string := "Verification failed. Please try again."
  const VerificationUnavailable: string := "Verification service temporarily unavailable"

  /** A token that is a string with some non-whitespace character */
  predicate UsableToken(token: JsValue) {
    token.Str? && !IsBlank(token.s)
  }

  /** The provider said yes: a 2xx reply whose body has a truthy `success` */
  predicate ProviderAccepted(reply: ProviderReply) {
    reply.Replied? && 200 <= reply.status <= 299
    && !reply.body.Null? && !reply.body.Undefined? && Truthy(Get(reply.body, "success"))
  }

  /** What one provider reply turns into. `result.ok` is a 2xx status; reading
      `success` off a `null` body throws, which lands in the same catch. */
  function Classify(reply: ProviderReply): (r: Option<Response>)
    ensures r.None? <==> ProviderAccepted(reply)
    ensures r.Some? && (reply.Threw? || !(200 <= reply.status <= 299)) ==>
      r.value == ErrorResponse(503, VerificationUnavailable)
    ensures reply.Replied? && (reply.body.Null? || reply.body.Undefined?) ==>
      r == Some(ErrorResponse(503, VerificationUnavailable))
    ensures reply.Replied? && 200 <= reply.status <= 299 && !reply.body.Null? && !reply.body.Undefined?
            && !Truthy(Get(reply.body, "success")) ==>
      r == Some(ErrorResponse(400, VerificationFailed))
  {
    match reply
    case Threw => Some(ErrorResponse(503, VerificationUnavailable))
    case Replied(status, body) =>
      if !(200 <= status <= 299) then Some(ErrorResponse(503, VerificationUnavailable))
      else if body.Null? || body.Undefined? then Some(ErrorResponse(503, VerificationUnavailable))
      else if !Truthy(Get(body, "success")) then Some(ErrorResponse(400, VerificationFailed))
      else None
  }

  /** `verifyTurnstile(token, secret, ip)` */
  function VerifyTurnstile(token: JsValue, secret: string, ip: string,
                           siteverify: SiteverifyRequest -> ProviderReply): (v: Verification)
    ensures |v.calls| <= 1
    ensures !UsableToken(token) ==> v == Verification(Some(ErrorResponse(400, InvalidToken)), [])
    ensures UsableToken(token) && secret == "" ==>
      v == Verification(Some(ErrorResponse(500, ServiceUnavailable)), [])
    ensures UsableToken(token) && secret != "" ==>
      v.calls == [SiteverifyRequest(secret, Trim(token.s), ip)]
    ensures v.rejection.None? <==>
      UsableToken(token) && secret != "" && ProviderAccepted(siteverify(SiteverifyRequest(secret, Trim(token.s), ip)))
    ensures UsableToken(token) && secret != "" ==>
      v.rejection == Classify(siteverify(SiteverifyRequest(secret, Trim(token.s), ip)))
  {
    if !Truthy(token) || !token.Str? || Trim(token.s) == "" then
      Verification(Some(ErrorResponse(400, InvalidToken)), [])
    else if secret == "" then
      Verification(Some(ErrorResponse(500, ServiceUnavailable)), [])
    else
      var request := SiteverifyRequest(secret, Trim(token.s), ip);
      Verification(Classify(siteverify(request)), [request])
  }

  /** A rejection is one of four fixed bodies: nothing the provider returned
      besides its status and the truthiness of `success` (its error codes,
      hostname, timestamps) can reach the client. */
  lemma RejectionsAreGeneric(token: JsValue, secret: string, ip: string,
                             siteverify: SiteverifyRequest -> ProviderReply)
    ensures var v := VerifyTurnstile(token, secret, ip, siteverify);
      v.rejection.Some? ==>
        v.rejection.value in {ErrorResponse(400, InvalidToken), ErrorResponse(500, ServiceUnavailable),
                              ErrorResponse(503, VerificationUnavailable), ErrorResponse(400, VerificationFailed)}
  {
  }

  /** Two provider bodies with the same status and the same truthiness of
      `success` are treated alike. */
  lemma OnlySuccessMatters(status: int, a: JsValue, b: JsValue)
    requires a.Obj? && b.Obj?
    requires Truthy(Get(a, "success")) == Truthy(Get(b, "success"))
    ensures Classify(Replied(status, a)) == Classify(Replied(status, b))
  {
  }
}

=== FILE: worker_app.dfy ===
/** The worker's entry point: the check of required variables at start-up,
    the middleware that initialises the database at most once and picks the
    CORS origins, and the hook that turns a schema failure into a 400. */
module WorkerApp {
  import opened Wrappers
  import opened JsValues
  import opened Text
  import opened Http
  import opened Zod
  import JoinSchema

  const RequiredVars: seq<string> := [
    "RESEND_API_KEY", "RESEND_SENDER_EMAIL", "TEAM_NOTIFICATION_EMAIL", "TURNSTILE_SITE_KEY", "TURNSTILE_SECRET_KEY"]

  /** The required variables whose binding is falsy, in list order */
  method MissingEnvVars(binding: string -> JsValue) returns (missing: seq<string>)
    ensures missing == Filter(RequiredVars, k => !Truthy(binding(k)))
    ensures forall k :: k in missing <==> k in RequiredVars && !Truthy(binding(k))
  {
    var unset := k => !Truthy(binding(k));
    missing := [];
    var i := 0;
    while i < |RequiredVars|
      invariant 0 <= i <= |RequiredVars|
      invariant missing == Filter(RequiredVars[..i], unset)
    {
      FilterSnoc(RequiredVars[..i], RequiredVars[i], unset);
      assert RequiredVars[..i + 1] == RequiredVars[..i] + [RequiredVars[i]];
      if !Truthy(binding(RequiredVars[i])) {
        missing := missing + [RequiredVars[i]];
      }
      i := i + 1;
    }
    assert RequiredVars[..i] == RequiredVars;
    forall k ensures k in missing <==> k in RequiredVars && !Truthy(binding(k)) {
      if k in RequiredVars && !Truthy(binding(k)) {
        var j :| 0 <= j < |RequiredVars| && RequiredVars[j] == k;
        assert unset(RequiredVars[j]);
      }
    }
  }

  /** `validateEnvVars()`: the error it throws, if any */
  method ValidateEnvVars(binding: string -> JsValue) returns (error: Option<string>)
    ensures error.None? <==> forall k :: k in RequiredVars ==> Truthy(binding(k))
    ensures error.Some? ==>
      error.value == "Missing environment variables: " + Join(Filter(RequiredVars, k => !Truthy(binding(k))), ", ")
  {
    var missing := MissingEnvVars(binding);
    if |missing| > 0 {
      error := Some("Missing environment variables: " + Join(missing, ", "));
    } else {
      error := None;
      forall k | k in RequiredVars ensures Truthy(binding(k)) {
        assert k !in missing;
      }
    }
  }

  /** `String(c.env.APP_ENV || "development").toLowerCase()` */
  function AppEnvName(appEnv: string): (r: string)
    ensures appEnv == "" ==> r == "development"
    ensures appEnv != "" ==> r == ToLower(appEnv)
  {
    ToLower(if appEnv == "" then "development" else appEnv)
  }

  /** `String(c.env.AUTO_CREATE_DB || "false").toLowerCase() === "true"` */
  predicate AutoCreate(flag: string) {
    ToLower(if flag == "" then "false" else flag) == "true"
  }

  /** What `ensureDatabase` did; it catches its own errors, so it always
      returns normally */
  datatype InitResult = NoDatabase | Created | Failed

  function EnsureDatabase(hasDb: bool, ddlFails: bool): InitResult {
    if !hasDb then NoDatabase else if ddlFails then Failed else Created
  }

  /** One pass of the middleware over the process-wide flag */
  datatype InitStep = InitStep(attempt: Option<InitResult>, initialized: bool)

  predicate ShouldInit(initialized: bool, env: Env) {
    !initialized && (AppEnvName(env.appEnv) != "production" || AutoCreate(env.autoCreateDb))
  }

  function InitGate(initialized: bool, env: Env, ddlFails: bool): (s: InitStep)
    ensures s.attempt.Some? <==> ShouldInit(initialized, env)
    ensures s.attempt.Some? ==> s.attempt.value == EnsureDatabase(env.hasDb, ddlFails)
    ensures s.initialized <==> initialized || s.attempt.Some?
  {
    if ShouldInit(initialized, env) then InitStep(Some(EnsureDatabase(env.hasDb, ddlFails)), true)
    else InitStep(None, initialized)
  }

  /** Whatever the attempt does, even a failure swallowed inside
      `ensureDatabase`, the flag is set and no later request retries. */
  lemma FlagSetEvenOnFailure(env: Env, ddlFails: bool, later: Env, laterFails: bool)
    requires ShouldInit(false, env)
    ensures InitGate(false, env, ddlFails).initialized
    ensures InitGate(true, later, laterFails).attempt.None?
  {
  }

  /** A production deployment without AUTO_CREATE_DB never initialises */
  lemma ProductionSkipsInit(initialized: bool, env: Env, ddlFails: bool)
    requires ToLower(env.appEnv) == "production" && !AutoCreate(env.autoCreateDb)
    ensures InitGate(initialized, env, ddlFails) == InitStep(None, initialized)
  {
  }

  /** The requests a process serves, in order: how many attempted the
      initialisation */
  function Attempts(initialized: bool, envs: seq<Env>, fails: seq<bool>): (n: nat)
    requires |fails| == |envs|
    ensures n <= |envs|
    decreases |envs|
  {
    if |envs| == 0 then 0
    else
      var s := InitGate(initialized, envs[0], fails[0]);
      (if s.attempt.Some? then 1 else 0) + Attempts(s.initialized, envs[1..], fails[1..])
  }

  /** The initialisation is attempted at most once per process, and never
      again once the flag is set. */
  lemma {:induction false} AtMostOneInit(initialized: bool, envs: seq<Env>, fails: seq<bool>)
    requires |fails| == |envs|
    ensures Attempts(initialized, envs, fails) <= 1
    ensures initialized ==> Attempts(initialized, envs, fails) == 0
    decreases |envs|
  {
    if |envs| > 0 {
      var s := InitGate(initialized, envs[0], fails[0]);
      AtMostOneInit(s.initialized, envs[1..], fails[1..]);
      if s.attempt.Some? {
        assert s.initialized;
      }
    }
  }

  /** The `origin` option given to the CORS middleware */
  datatype CorsOrigin = AnyOrigin | Listed(items: seq<JsValue>) | Parsed(origins: seq<string>)

  /** An array is used as it is; anything else is read as a comma-separated
      string whose pieces are trimmed and blank pieces dropped; an empty list
      becomes "*". */
  function Cors(raw: JsValue): (c: CorsOrigin)
    ensures raw.Arr? ==> c == (if raw.items == [] then AnyOrigin else Listed(raw.items))
    ensures !Truthy(raw) ==> c == AnyOrigin
    ensures c.Parsed? ==> !raw.Arr? && |c.origins| > 0
    ensures c.Parsed? ==> forall i :: 0 <= i < |c.origins| ==> TrimmedPiece(c.origins[i]) && ',' !in c.origins[i]
    ensures !raw.Arr? && Truthy(raw) ==>
      var pieces := TrimmedNonEmpty(Split(ToJsString(raw), ','));
      c == (if pieces == [] then AnyOrigin else Parsed(pieces))
  {
    if raw.Arr? then (if raw.items == [] then AnyOrigin else Listed(raw.items))
    else
      var origins := OriginList(raw);
      if origins == [] then AnyOrigin else Parsed(origins)
  }

  /** `String(raw || "")` split at commas, trimmed, blank pieces dropped */
  function OriginList(raw: JsValue): (origins: seq<string>)
    ensures forall i :: 0 <= i < |origins| ==> TrimmedPiece(origins[i]) && ',' !in origins[i]
    ensures !Truthy(raw) ==> origins == []
    ensures Truthy(raw) ==> origins == TrimmedNonEmpty(Split(ToJsString(raw), ','))
    ensures raw.Str? ==> origins == TrimmedNonEmpty(Split(raw.s, ','))
  {
    var text := ToJsString(Or(raw, Str("")));
    var pieces := Split(text, ',');
    TrimmedNonEmptyAvoids(pieces, ',');
    if !Truthy(raw) then
      assert text == "";
      EmptySplitsToNothing(',');
      TrimmedNonEmpty(pieces)
    else TrimmedNonEmpty(pieces)
  }

  /** A list of clean origins written as one comma-separated variable is read
      back as exactly that list. */
  lemma CorsRoundTrip(origins: seq<string>)
    requires |origins| > 0
    requires forall i :: 0 <= i < |origins| ==> TrimmedPiece(origins[i]) && ',' !in origins[i]
    ensures Cors(Str(Join(origins, ","))) == Parsed(origins)
  {
    SplitJoin(origins, ',');
    TrimmedNonEmptyOfTrimmed(origins);
  }

  /** Whitespace around the origins in the variable is ignored. */
  lemma {:induction false} CorsPaddedRoundTrip(origins: seq<string>, lead: seq<string>, trail: seq<string>)
    requires |origins| > 0 && |lead| == |origins| && |trail| == |origins|
    requires forall i :: 0 <= i < |origins| ==> TrimmedPiece(origins[i]) && ',' !in origins[i]
    requires forall i :: 0 <= i < |origins| ==> AllSpaces(lead[i]) && AllSpaces(trail[i])
    ensures Cors(Str(Join(seq(|origins|, i requires 0 <= i < |origins| => lead[i] + origins[i] + trail[i]), ",")))
            == Parsed(origins)
  {
    var written := seq(|origins|, i requires 0 <= i < |origins| => lead[i] + origins[i] + trail[i]);
    forall i | 0 <= i < |written| ensures ',' !in written[i] {
      SpacesAvoidComma(lead[i]);
      SpacesAvoidComma(trail[i]);
    }
    assert "," == [','];
    var text := Join(written, ",");
    SplitJoinTrimmed(written, ',');
    TrimmedNonEmptyPadded(origins, lead, trail, written);
    TrimmedNonEmptyOfTrimmed(origins);
    assert TrimmedNonEmpty(Split(text, ',')) == origins;
    CleanOriginsParsed(Str(text), origins);
  }

  /** Two variables that clean to the same origins configure CORS alike */
  lemma SameOriginsSameCors(a: JsValue, b: JsValue)
    requires a.Str? && b.Str?
    requires TrimmedNonEmpty(Split(a.s, ',')) == TrimmedNonEmpty(Split(b.s, ','))
    ensures Cors(a) == Cors(b)
  {
    assert OriginList(a) == OriginList(b);
  }

  /** A variable that cleans to a non-empty list allows exactly that list */
  lemma CleanOriginsParsed(raw: JsValue, origins: seq<string>)
    requires raw.Str? && origins != []
    requires TrimmedNonEmpty(Split(raw.s, ',')) == origins
    ensures Cors(raw) == Parsed(origins)
  {
    assert OriginList(raw) == origins;
  }

  /** Whitespace never contains the separator */
  lemma SpacesAvoidComma(s: string)
    requires AllSpaces(s)
    ensures ',' !in s
  {
    assert !IsJsSpace(',');
  }

  /** A blank piece between commas is dropped wherever it sits. */
  lemma {:induction false} CorsIgnoresBlankPiece(before: seq<string>, blank: string, after: seq<string>)
    requires forall i :: 0 <= i < |before| ==> ',' !in before[i]
    requires forall i :: 0 <= i < |after| ==> ',' !in after[i]
    requires ',' !in blank && IsBlank(blank)
    ensures Cors(Str(Join(before + [blank] + after, ","))) == Cors(Str(Join(before + after, ",")))
  {
    var long, short := before + [blank] + after, before + after;
    assert forall i :: 0 <= i < |long| ==> ',' !in long[i];
    assert forall i :: 0 <= i < |short| ==> ',' !in short[i];
    assert "," == [','];
    var longText, shortText := Join(long, ","), Join(short, ",");
    SplitJoinTrimmed(long, ',');
    SplitJoinTrimmed(short, ',');
    TrimmedNonEmptyDropsBlank(before, blank, after);
    assert TrimmedNonEmpty(Split(longText, ',')) == TrimmedNonEmpty(Split(shortText, ','));
    SameOriginsSameCors(Str(longText), Str(shortText));
  }

  /** The `field` of a failure: the first path element, or null */
  function FieldOf(issues: seq<Issue>): (f: JsValue)
    ensures issues == [] || issues[0].path == [] <==> f == Null
    ensures issues != [] && issues[0].path != [] ==> f == Str(issues[0].path[0])
  {
    if issues != [] && issues[0].path != [] then Str(issues[0].path[0]) else Null
  }

  /** The zValidator hook: 400 with the first issue's message, or a stand-in
      when there is none or it is empty, and the field it is about */
  function ValidationFailure(issues: seq<Issue>, defaultMessage: IssueKind -> string): (r: Response)
    ensures r.status == 400 && r.body.Keys == {"error", "field"}
    ensures r.body["error"].Str? && r.body["error"].s != ""
    ensures issues != [] && Message(issues[0].kind, defaultMessage) != "" ==>
      r.body["error"] == Str(Message(issues[0].kind, defaultMessage))
    ensures issues == [] || Message(issues[0].kind, defaultMessage) == "" ==>
      r.body["error"] == Str("Validation failed")
    ensures r.body["field"] == FieldOf(issues)
  {
    var message := if issues != [] then Message(issues[0].kind, defaultMessage) else "";
    Response(400, map["error" := Str(if message != "" then message else "Validation failed"),
                      "field" := FieldOf(issues)])
  }

  /** `POST /join` with an object body the schema refuses answers 400 naming
      the first declared field that fails, or no field when only an unknown
      key is wrong. */
  lemma JoinFailureNamesFirstFailingField(body: JsValue, isEmail: string -> bool, defaultMessage: IssueKind -> string)
    requires body.Obj? && JoinSchema.ParseJoin(body, isEmail).Err?
    ensures var r := ValidationFailure(JoinSchema.ParseJoin(body, isEmail).error, defaultMessage);
      || (exists i :: 0 <= i < |JoinSchema.Fields|
            && JoinSchema.FieldIssues(body, isEmail, JoinSchema.Fields[i]) != []
            && (forall j :: 0 <= j < i ==> JoinSchema.FieldIssues(body, isEmail, JoinSchema.Fields[j]) == [])
            && r.body["field"] == Str(JoinSchema.Key(JoinSchema.Fields[i])))
      || (!(body.fields.Keys <= JoinSchema.Shape) && r.body["field"] == Null)
  {
    JoinSchema.ParseJoinIssues(body, isEmail);
    JoinSchema.FirstIssueIsFirstFailingField(body, isEmail);
  }
}

=== FILE: worker_utils.dfy ===
/** The worker's own copy of the escaper and two of the validators. The text
    is the same as the site's; the lemma below proves the copies agree. */
module WorkerUtils {
  import opened Text
  import HtmlEntities
  import SiteUtils

  /** `escapeHtml`: "" for empty input, otherwise the five replacements, `&` first */
  function EscapeHtml(str: string): (r: string)
    ensures str == "" ==> r == ""
    ensures r == HtmlEntities.Escape(str)
  {
    if str == "" then ""
    else
      HtmlEntities.ReplaceChainIsEscape(str);
      HtmlEntities.ReplaceChain(str)
  }

  /** `validateSeniorYear`: `/^[Ss](\d+)$/` and a digit value in 25..30 */
  predicate ValidateSeniorYear(year: string) {
    year != "" && SiteUtils.SeniorYearShape(year) && 25 <= DigitsValue(year[1..]) <= 30
  }

  /** `validateGitHubUsername`, the same regular expression as the site's */
  predicate ValidateGitHubUsername(username: string) {
    |username| >= 1 && IsAlnum(username[0]) && SiteUtils.UnitsMatch(username[1..], 38)
  }

  /** The worker copies decide every input the way the site copies do, so the
      site's characterisations carry over: a year is accepted iff it is S/s,
      optional zeros, then 25..30; a username iff it follows GitHub's rule. */
  lemma WorkerCopiesAgree(s: string)
    ensures EscapeHtml(s) == SiteUtils.EscapeHtml(s)
    ensures ValidateSeniorYear(s) == SiteUtils.ValidateSeniorYear(s)
    ensures ValidateSeniorYear(s) <==>
      SiteUtils.SeniorYearShape(s) && |s| >= 3
      && SiteUtils.AllZeros(s[1..|s| - 2]) && s[|s| - 2..] in SiteUtils.YearEndings
    ensures ValidateGitHubUsername(s) <==> SiteUtils.GitHubUsernameRule(s)
  {
    SiteUtils.SeniorYearAcceptedForms(s);
    SiteUtils.GitHubUsernameMatchesRule(s);
  }
}

=== FILE: wrappers.dfy ===
/** Option and Result values used across the model in place of JavaScript's
    `undefined`/`null` and thrown errors. */
module Wrappers {

  datatype Option<+T> = None | Some(value: T) {

    /** Returns the value held in Some, or the default when None */
    function GetOr(default: T): T {
      match this
      case Some(v) => v
      case None => default
    }
  }

  datatype Result<+T, +E> = Ok(value: T) | Err(error: E)
}

=== FILE: zod.dfy ===
/** The part of zod's object validation the two request schemas use. A
    schema's result is either the normalised value or the list of issues, in
    the order zod reports them: the declared keys in declaration order, each
    key's checks in the order they were chained, and the strict-mode
    unrecognised-keys issue last. Message texts are the library's; except for a
    custom message written in a schema, they are a parameter here. */
module Zod {
  import opened Wrappers
  import opened JsValues
  import opened Text

  datatype IssueKind =
    | InvalidType(expected: string, received: string)
    | TooSmall(minimum: nat)
    | TooBig(maximum: nat)
    | InvalidEmail
    | InvalidRegex
    | Custom(message: Option<string>)
    | InvalidUnion
    | UnrecognizedKeys(keys: set<string>)

  /** An issue and the path to the value it is about; `[]` is the body itself */
  datatype Issue = Issue(path: seq<string>, kind: IssueKind)

  /** zod's name for the type of a parsed value */
  function ParsedType(v: JsValue): string {
    match v
    case Undefined => "undefined"
    case Null => "null"
    case Bool(_) => "boolean"
    case Num(_) => "number"
    case Str(_) => "string"
    case Arr(_) => "array"
    case Obj(_) => "object"
  }

  /** The message an issue carries: the schema's own custom message when it
      wrote one, otherwise the library's default for that kind */
  function Message(kind: IssueKind, defaultMessage: IssueKind -> string): string {
    if kind.Custom? && kind.message.Some? then kind.message.value else defaultMessage(kind)
  }

  /** One link of a `z.string()` chain */
  datatype StringCheck =
    | MinLength(n: nat)
    | MaxLength(n: nat)
    | Email
    | Regex(matches: string -> bool)
    | Refine(holds: string -> bool)

  predicate Passes(check: StringCheck, s: string, isEmail: string -> bool) {
    match check
    case MinLength(n) => |s| >= n
    case MaxLength(n) => |s| <= n
    case Email => isEmail(s)
    case Regex(m) => m(s)
    case Refine(h) => h(s)
  }

  function CheckIssue(check: StringCheck): IssueKind {
    match check
    case MinLength(n) => TooSmall(n)
    case MaxLength(n) => TooBig(n)
    case Email => InvalidEmail
    case Regex(_) => InvalidRegex
    case Refine(_) => Custom(None)
  }

  /** A failing check does not stop the chain: every failing check reports. */
  function RunChecks(key: string, s: string, checks: seq<StringCheck>, isEmail: string -> bool): (issues: seq<Issue>)
    ensures issues == [] <==> forall i :: 0 <= i < |checks| ==> Passes(checks[i], s, isEmail)
    ensures forall j :: 0 <= j < |issues| ==> issues[j].path == [key]
    ensures |issues| <= |checks|
    ensures issues != [] ==>
      (exists i :: 0 <= i < |checks| && !Passes(checks[i], s, isEmail)
        && issues[0].kind == CheckIssue(checks[i])
        && (forall k :: 0 <= k < i ==> Passes(checks[k], s, isEmail)))
  {
    if |checks| == 0 then []
    else
      var rest := RunChecks(key, s, checks[1..], isEmail);
      if Passes(checks[0], s, isEmail) then
        assert forall k :: 1 <= k < |checks| ==> checks[k] == checks[1..][k - 1];
        rest
      else [Issue([key], CheckIssue(checks[0]))] + rest
  }

  /** `z.string()` followed by a chain of checks, applied to the value at key */
  function StringField(key: string, v: JsValue, checks: seq<StringCheck>, isEmail: string -> bool): (issues: seq<Issue>)
    ensures issues == [] <==> v.Str? && forall i :: 0 <= i < |checks| ==> Passes(checks[i], v.s, isEmail)
    ensures forall j :: 0 <= j < |issues| ==> issues[j].path == [key]
    ensures !v.Str? ==> issues == [Issue([key], InvalidType("string", ParsedType(v)))]
  {
    if v.Str? then RunChecks(key, v.s, checks, isEmail)
    else [Issue([key], InvalidType("string", ParsedType(v)))]
  }

  /** The declared keys checked in declaration order; the issues of every key
      are kept, so the first issue belongs to the first key that fails. */
  function ShapeIssues<F>(keys: seq<F>, check: F -> seq<Issue>): (issues: seq<Issue>)
    ensures issues == [] <==> forall i :: 0 <= i < |keys| ==> check(keys[i]) == []
    ensures issues != [] ==>
      (exists i :: 0 <= i < |keys| && check(keys[i]) != [] && issues[0] == check(keys[i])[0]
        && (forall j :: 0 <= j < i ==> check(keys[j]) == []))
  {
    if |keys| == 0 then []
    else
      var rest := ShapeIssues(keys[1..], check);
      assert forall k :: 1 <= k < |keys| ==> keys[k] == keys[1..][k - 1];
      check(keys[0]) + rest
  }

  /** The keys of a body that a strict schema does not declare */
  /** The issues of an object's keys are exactly all the issues of each key */
  lemma {:induction false} ShapeIssuesMembers<F>(keys: seq<F>, check: F -> seq<Issue>)
    ensures forall i, j :: 0 <= i < |keys| && 0 <= j < |check(keys[i])| ==> check(keys[i])[j] in ShapeIssues(keys, check)
    ensures forall x :: x in ShapeIssues(keys, check) ==> exists i :: 0 <= i < |keys| && x in check(keys[i])
    decreases |keys|
  {
    if |keys| > 0 {
      ShapeIssuesMembers(keys[1..], check);
      assert forall k :: 1 <= k < |keys| ==> keys[k] == keys[1..][k - 1];
      var whole := ShapeIssues(keys, check);
      assert whole == check(keys[0]) + ShapeIssues(keys[1..], check);
      forall x | x in whole ensures exists i :: 0 <= i < |keys| && x in check(keys[i]) {
        if x !in check(keys[0]) {
          var i :| 0 <= i < |keys[1..]| && x in check(keys[1..][i]);
          assert x in check(keys[i + 1]);
        }
      }
    }
  }

  function ExtraKeys(fields: map<string, JsValue>, shape: set<string>): (extra: set<string>)
    ensures extra == {} <==> fields.Keys <= shape
  {
    var extra := fields.Keys - shape;
    if extra == {} then
      assert forall k :: k in fields ==> k in shape by {
        forall k | k in fields ensures k in shape {
          assert k !in extra;
        }
      }
      extra
    else extra
  }

  /** `.strict()`: one issue, at the body itself, naming every undeclared key */
  function StrictIssues(fields: map<string, JsValue>, shape: set<string>): (issues: seq<Issue>)
    ensures issues == [] <==> fields.Keys <= shape
    ensures issues != [] ==> issues == [Issue([], UnrecognizedKeys(ExtraKeys(fields, shape)))]
  {
    var extra := ExtraKeys(fields, shape);
    if extra == {} then [] else [Issue([], UnrecognizedKeys(extra))]
  }

  /** A strict object's issues: those of its keys, then one naming the keys
      outside the shape, and nothing else */
  lemma StrictObjectIssues<F>(keys: seq<F>, check: F -> seq<Issue>, fields: map<string, JsValue>, shape: set<string>)
    ensures var issues := ShapeIssues(keys, check) + StrictIssues(fields, shape);
      && (issues != [] <==> (exists k :: k in keys && check(k) != []) || !(fields.Keys <= shape))
      && (forall k, j :: k in keys && 0 <= j < |check(k)| ==> check(k)[j] in issues)
      && (!(fields.Keys <= shape) ==> Issue([], UnrecognizedKeys(fields.Keys - shape)) in issues)
      && (forall x :: x in issues ==>
            x == Issue([], UnrecognizedKeys(fields.Keys - shape)) || exists k :: k in keys && x in check(k))
  {
    ShapeIssuesMembers(keys, check);
    var strict := StrictIssues(fields, shape);
    assert strict != [] ==> strict == [Issue([], UnrecognizedKeys(fields.Keys - shape))];
    forall k | k in keys ensures check(k) != [] ==> ShapeIssues(keys, check) != [] {
      var i :| 0 <= i < |keys| && keys[i] == k;
    }
    forall k, j | k in keys && 0 <= j < |check(k)| ensures check(k)[j] in ShapeIssues(keys, check) {
      var i :| 0 <= i < |keys| && keys[i] == k;
    }
  }

  /** A body that is not an object at all */
  function NotAnObject(body: JsValue): Issue {
    Issue([], InvalidType("object", ParsedType(body)))
  }
}
